=== FILE: README.md ===
# Segregated-fit allocator, modelled in Dafny

This project models the dynamic memory allocator of `mm.c`. It is a
boundary-tag allocator on a 64-bit target:

- **Blocks.** Every block carries a header and a footer word. Each word packs the block size, a multiple of 16 bytes, with an allocated bit.
- **Arena.** The heap is a run of such blocks between a prologue word and an epilogue word.
- **Free lists.** Free blocks sit on 15 LIFO lists. A block's list is chosen from its payload word count: bucket i holds payloads in (2^(i-1), 2^i], and bucket 14 holds every payload above 8192 words.
- **Allocation.** `mm_malloc` first looks for the tightest fit in the first bucket that has one. If there is none, it extends the heap. A surplus larger than 16 bytes is split off as a new free block.
- **Freeing.** `mm_free` coalesces the block with its free neighbours and lists the result.
- **Reallocation.** `mm_realloc` shrinks in place, grows into a free successor, or moves the block.
- **Checking.** `mm_check` walks the heap and looks every free block up on its list.

## How the model is laid out

- **The arena** is a `seq<nat>` of 8-byte words. Word 0 is the prologue. The first block's payload starts at word 2, which is `heap_listp`. The last word is the epilogue.
- **Block pointers** are word indices of payloads. Sizes stay in bytes, as in the tags.
- **The heap state** is `Heap(mem, lists, heapLength, brkLimit)`:
  - `lists` holds the 15 free lists as sequences. They stand for the `next` link words that the C code threads through free payloads.
  - `brkLimit` is the largest arena the memory system will supply. `mem_sbrk` fails beyond it.
- **Modules** follow the source:

  | module | models |
  |---|---|
  | `Layout` | macros |
  | `SizeClass` | `get_free_list_index` |
  | `Tiling` | the block walk |
  | `State` | the heap invariant |
  | `FreeLists` | add and remove |
  | `Coalescing` | `coalesce` |
  | `Freeing` | `mm_free` |
  | `Extending` | `extend_heap` |
  | `Fitting` | `find_fit` |
  | `Allocating` | `place` and `mm_malloc` |
  | `Initialising` | `mm_init` |
  | `Reallocating` | `mm_realloc` |
  | `Checking` | `mm_check` |

- **The central invariant** is `State.WellFormed`:
  - the blocks tile the arena from word 2 to the epilogue, each with a matching header and footer;
  - every block is at least 32 bytes;
  - every free block is listed, and only in the bucket of its size;
  - every listed entry is such a free block, and no list repeats an entry;
  - the arena is within `brkLimit`, which is at most 2^28 words (2^31 bytes).
- **No adjacency clause.** The invariant does not demand that free blocks be coalesced. `mm_realloc`'s shrink path lists the split-off tail without calling `coalesce` (mm.c lines 450-456), so two free blocks can be neighbours in a heap the allocator produces.
- **The copy on a move** is `memcpy(newptr, oldptr, min(size, old_size))`, where `old_size` is the whole old block, header and footer included (mm.c lines 440 and 482-484). It therefore reads one word past the old payload, into the successor's header. `Reallocating.CopiedWords` counts these words, and `Reallocating.CopyFits` proves they stay inside the old block and inside the new payload, and cover every byte realloc must keep.
- **Exempt blocks.** `WellFormedExcept(h, X)` relaxes the invariant for the blocks in `X`. These are blocks an operation is in the middle of rewriting, such as a block between `remove_from_free_list` and `place`, or the block `coalesce` returns before the caller lists it.
- **What each operation promises:**
  - It returns a well-formed heap.
  - `Live(mem, c)` means `c` is an allocated block. Each operation states exactly which such blocks it adds or removes.
  - Every other allocated block keeps its words (`Tiling.SameBlock`).

## Model

| member | source | states |
|---|---|---|
| Layout.Pack | hw3/assn3-malloc/assn/mm.c:49-57 | reading the size and the allocated bit back from a packed word gives the size and the bit that were packed |
| Layout.GetSize | hw3/assn3-malloc/assn/mm.c:56 | the size field is a multiple of 16 and differs from the word only in its low four bits |
| Layout.SetTags | hw3/assn3-malloc/assn/mm.c:60-61 | writing a header then a footer through FTRP puts the packed word at both ends of the block and changes no other word |
| SizeClass.FreeListIndex | hw3/assn3-malloc/assn/mm.c:585-601 | a zero payload gives -1; every positive payload gives a bucket in 0..14 |
| SizeClass.FreeListIndexSpec | hw3/assn3-malloc/assn/mm.c:585-601 | payloads above 8192 words go to bucket 14; any other positive payload n goes to the bucket r in 0..13 with 2^(r-1) < n <= 2^r |
| SizeClass.PowerOfTwoBucket | hw3/assn3-malloc/assn/mm.c:596-598 | an exact power of two 2^k up to 8192 lands in bucket k |
| SizeClass.NonPowerBucket | hw3/assn3-malloc/assn/mm.c:593-595 | any other payload in 1..8192 lands in bucket floor(log2 n) + 1, between 1 and 13 |
| SizeClass.FreeListIndexMonotone | hw3/assn3-malloc/assn/mm.c:585-601 | a larger payload never lands in a lower bucket |
| SizeClass.BucketOrder | hw3/assn3-malloc/assn/mm.c:585-601 | a block filed in a lower bucket than another is strictly smaller |
| SizeClass.BucketRange | hw3/assn3-malloc/assn/mm.c:585-601 | a 16-byte block has no bucket (-1); every larger block has one of the 15 |
| State.NarrowTypesHold | hw3/assn3-malloc/assn/mm.c:603-606 | in a well-formed heap every block size, every payload word count and heap_length are below 2^31, so the `unsigned int` size in remove_from_free_list, the `unsigned int` argument of get_free_list_index and every other narrow copy hold their values exactly |
| FreeLists.RemoveFirstCount | hw3/assn3-malloc/assn/mm.c:610-624 | unlinking takes exactly one occurrence of the block out of the list and keeps every other entry |
| FreeLists.RemoveFirstSplice | hw3/assn3-malloc/assn/mm.c:610-624 | unlinking splices the list around the first occurrence, keeping the order of the rest |
| FreeLists.AddToFreeList | hw3/assn3-malloc/assn/mm.c:629-637 | the free block becomes the head of the list of its bucket, followed by the old list; every other bucket is unchanged |
| FreeLists.RemoveFromFreeList | hw3/assn3-malloc/assn/mm.c:603-627 | the result is the block exactly when it is on the list its header selects; when it is not, nothing changes; when it is, one occurrence leaves that list and every other bucket is unchanged |
| FreeLists.AddKeeps | hw3/assn3-malloc/assn/mm.c:629-637 | listing a free block that is exempt from the invariant ends its exemption |
| FreeLists.RemoveKeeps | hw3/assn3-malloc/assn/mm.c:603-627 | unlinking a listed block finds it, leaves it on no list, and makes it exempt, all else intact |
| FreeLists.AddThenRemove | hw3/assn3-malloc/assn/mm.c:603-637 | pushing a block and then removing it restores the heap exactly and reports the block found |
| FreeLists.RemoveThenAdd | hw3/assn3-malloc/assn/mm.c:603-637 | removing a listed block and pushing it back leaves every list with the same entries |
| Coalescing.CoalesceNone | hw3/assn3-malloc/assn/mm.c:172-174 | with both neighbours allocated, coalesce returns the block and changes nothing |
| Coalescing.CoalesceNext | hw3/assn3-malloc/assn/mm.c:176-186 | with only the next block free, the result starts at bp, covers the next block, and that block leaves its list |
| Coalescing.CoalescePrev | hw3/assn3-malloc/assn/mm.c:188-200 | with only the previous block free, the result starts at the previous block and covers bp; the first block is never merged backwards |
| Coalescing.CoalesceBoth | hw3/assn3-malloc/assn/mm.c:202-218 | with both neighbours free, the result starts at the previous block and covers all three; both neighbours leave their lists |
| Coalescing.CoalesceKeeps | hw3/assn3-malloc/assn/mm.c:158-222 | the merged block spans from MergedStart to MergedEnd, is free, is the only exempt block and is on no list |
| Coalescing.MergedLive | hw3/assn3-malloc/assn/mm.c:158-222 | coalescing keeps the allocated blocks and every word of them |
| Coalescing.MergedSize | hw3/assn3-malloc/assn/mm.c:158-222 | the merged block is at least as large as bp |
| Freeing.FreeKeeps | hw3/assn3-malloc/assn/mm.c:340-359 | freeing NULL changes nothing; freeing a block leaves a well-formed heap whose listed free block covers the freed one |
| Freeing.FreeLive | hw3/assn3-malloc/assn/mm.c:340-359 | after mm_free the freed block is no longer allocated, and every other allocated block keeps its words |
| Freeing.MarkFreeKeeps | hw3/assn3-malloc/assn/mm.c:345-347 | clearing the allocated bit keeps the size and exempts only that block |
| Extending.ExtendSize | hw3/assn3-malloc/assn/mm.c:239 | the request is rounded up to an even number of words: the smallest multiple of 16 at least 8*words |
| Extending.ExtendKeeps | hw3/assn3-malloc/assn/mm.c:230-263 | extend_heap fails exactly when the memory system cannot grow the arena; otherwise the result is a free block of exactly the rounded request that ends the heap, is exempt and unlisted, and every allocated block is kept |
| Extending.ExtendSpan | hw3/assn3-malloc/assn/mm.c:243-261 | subtracting the free tail and coalescing with it gives a block of exactly the rounded request |
| Extending.ExtendLive | hw3/assn3-malloc/assn/mm.c:251-261 | growing and coalescing keep every allocated block word for word and add none |
| Fitting.ScanList | hw3/assn3-malloc/assn/mm.c:289-304 | the scan of one bucket finds nothing only when no entry fits; otherwise it keeps the first entry of the smallest fitting size |
| Fitting.FindFit | hw3/assn3-malloc/assn/mm.c:272-319 | finding nothing leaves the heap unchanged and means no bucket from the request's upwards has a fit; a found block is the chosen fit, unlinked from its list |
| Fitting.NoFitFromIff | hw3/assn3-malloc/assn/mm.c:272-319 | find_fit finds nothing exactly when no free block of the heap is large enough |
| Fitting.ChosenIsBest | hw3/assn3-malloc/assn/mm.c:272-319 | the block find_fit picks is a best fit over the whole heap |
| Fitting.CurFitAsWritten | hw3/assn3-malloc/assn/mm.c:284-290 | `cur_fit` is the 32-bit two's complement reading of the 64-bit difference; it lies in the `int` range and equals the true difference when both sizes are below 2^31 |
| Fitting.CurFitWraps | hw3/assn3-malloc/assn/mm.c:290-296 | a block more than 2^31 and less than 2^32 bytes short of the request reads as a positive fit |
| Fitting.CurFitPicksSmallBlock | hw3/assn3-malloc/assn/mm.c:276-296 | a 3 GiB request and a free 128 KiB block share bucket 14, and as written the block reads as a fit of 0x4002_0000 bytes |
| Allocating.AdjustSize | hw3/assn3-malloc/assn/mm.c:381-384 | on unbounded integers, the adjusted size is a multiple of 16, at least 32, holds the payload with both tags, and is the smallest such size |
| Allocating.AdjustSizeAsWritten | hw3/assn3-malloc/assn/mm.c:381-384 | with the size_t sum taken modulo 2^64, the rounding is a multiple of 16 and equals AdjustSize for every size below 2^64 - 31 |
| Allocating.AdjustSizeWraps | hw3/assn3-malloc/assn/mm.c:276-279 | each of the last 31 values of size_t rounds to less than a minimum block; the last 15 round to 16 bytes, whose zero-word payload has bucket -1, so find_fit's assertion fails |
| Allocating.OversizeFails | hw3/assn3-malloc/assn/mm.c:383-391 | a request of 2^31 bytes or more fails: no block of the arena holds it, and the extension it needs passes the memory system's limit |
| Allocating.FoundPlaced | hw3/assn3-malloc/assn/mm.c:386-413 | when find_fit finds a block, it is a best fit over the heap, and placing it gives a well-formed heap of the same length with that block placed |
| Allocating.ExtendOutcome | hw3/assn3-malloc/assn/mm.c:387-391 | with no fit, the free tail is smaller than the extension, and extend_heap fails exactly when the memory system cannot supply it |
| Allocating.ExtendPlaced | hw3/assn3-malloc/assn/mm.c:387-413 | placing the block extend_heap returns gives a well-formed, longer heap with that block placed |
| Allocating.Place | hw3/assn3-malloc/assn/mm.c:325-334 | place writes allocated tags of the given size at both ends, clears the first payload word, and changes nothing else |
| Allocating.SplitShape | hw3/assn3-malloc/assn/mm.c:393-410 | a split leaves an allocated head of the adjusted size and a free tail of the rest, at least 32 bytes |
| Allocating.PlaceInKeeps | hw3/assn3-malloc/assn/mm.c:393-413 | placing a found block, with or without a split, gives a well-formed heap with that block placed |
| Allocating.Malloc | hw3/assn3-malloc/assn/mm.c:370-415 | mm_malloc fails exactly when the request is empty or no free block fits and the heap cannot grow; on failure nothing changes; on success the heap is well formed and holds exactly one more allocated block, large enough for the request and at most 16 bytes over the adjusted size, with every other allocated block kept; the returned pointer is double-word aligned (an even word index); when some free block fits, that block is reused without growing the heap, is find_fit's choice and is a best fit; the heap grows only when nothing fits; a request of 2^31 bytes or more fails and changes nothing |
| Allocating.ChunkFits | hw3/assn3-malloc/assn/mm.c:387-391 | the extension mm_malloc asks for is large enough for the request |
| Initialising.InitKeeps | hw3/assn3-malloc/assn/mm.c:116-148 | mm_init fails exactly when the memory system cannot supply the words; otherwise the heap is well formed with one free block spanning the heap, alone on its list, and nothing allocated |
| Initialising.InitialBucket | hw3/assn3-malloc/assn/mm.c:139-146 | with the initial heap_length the first block lands in bucket 13 |
| Reallocating.ReallocSize | hw3/assn3-malloc/assn/mm.c:439 | on unbounded integers, realloc's new size is the block size mm_malloc would need for the same request |
| Reallocating.ReallocSizeAsWritten | hw3/assn3-malloc/assn/mm.c:439 | with the size_t sum taken modulo 2^64, new_size is a multiple of 16 and equals ReallocSize for every size below 2^64 - 31 |
| Reallocating.ReallocSizeWraps | hw3/assn3-malloc/assn/mm.c:439-457 | for the last 31 values of size_t, new_size as written is at most 16 bytes, below the size of any live block, while the request exceeds the block: the shrink path is taken where the block should grow |
| Reallocating.OversizeReallocFails | hw3/assn3-malloc/assn/mm.c:436-486 | a request of 2^31 bytes or more cannot be met in place, and mm_malloc fails for it |
| Reallocating.SixteenByteTail | hw3/assn3-malloc/assn/mm.c:446-456 | as written the shrink guard never keeps a block whole, and a surplus of 16 bytes is split off with bucket -1 |
| Reallocating.ShrinkTailListable | hw3/assn3-malloc/assn/mm.c:444-457 | with the corrected guard every split-off tail is at least 32 bytes and has a bucket |
| Reallocating.ShrinkClearsFirstWord | hw3/assn3-malloc/assn/mm.c:450 | as written the shrink clears the first payload word, which realloc must keep |
| Reallocating.AbsorbClearsFirstWord | hw3/assn3-malloc/assn/mm.c:467 | as written growing in place clears the first payload word, which realloc must keep |
| Reallocating.ShrinkLive | hw3/assn3-malloc/assn/mm.c:444-459 | the corrected shrink leaves the block allocated at the new size with its payload, and every other allocated block intact |
| Reallocating.ShrinkPath | hw3/assn3-malloc/assn/mm.c:444-459 | shrinking in place is a successful realloc that keeps the payload up to the request |
| Reallocating.AbsorbLive | hw3/assn3-malloc/assn/mm.c:463-471 | growing over the free successor gives one allocated block of the combined size with the whole old payload |
| Reallocating.AbsorbPath | hw3/assn3-malloc/assn/mm.c:463-471 | growing in place is a successful realloc |
| Reallocating.MoveKept | hw3/assn3-malloc/assn/mm.c:482-485 | after the copy and the free, the new block starts with the first min(size, old payload) bytes of the old block |
| Reallocating.MovePath | hw3/assn3-malloc/assn/mm.c:475-486 | moving to a block from mm_malloc is a successful realloc that frees the old block |
| Reallocating.CopyFits | hw3/assn3-malloc/assn/mm.c:482-484 | the copy reads within the old block and its successor's header, writes within the new payload, and covers every byte realloc must keep |
| Reallocating.InPlaceResized | hw3/assn3-malloc/assn/mm.c:442-471 | each in-place case is a successful realloc; when the request fits, the block ends at most 16 bytes over it |
| Reallocating.ReallocBlock | hw3/assn3-malloc/assn/mm.c:436-486 | realloc of a live block fails only when it cannot be resized in place and mm_malloc fails, and then nothing changes; in place it returns the same pointer; otherwise the result is a different block that replaces the old one with the payload kept; when the rounded size equals the block size nothing changes; a request of 2^31 bytes or more fails and changes nothing |
| Reallocating.Realloc | hw3/assn3-malloc/assn/mm.c:421-489 | size 0 is mm_free with a NULL result; a NULL pointer is mm_malloc, with its promises of fit reuse, best fit and growth only when nothing fits; otherwise as ReallocBlock: a fitting request keeps the pointer and ends at most 16 bytes over the rounded size, an equal rounded size changes nothing, and a moved result is a different block; a request of 2^31 bytes or more fails and changes nothing; the heap stays well formed in every case |
| Checking.CheckStep | hw3/assn3-malloc/assn/mm.c:501-538 | one step of the walk passes an allocated block, or a free block of more than 16 bytes found on its list, and goes on to the next block |
| Checking.CheckComplete | hw3/assn3-malloc/assn/mm.c:496-543 | mm_check accepts every well-formed heap |
| Checking.CheckIff | hw3/assn3-malloc/assn/mm.c:496-543 | on a tiled heap with blocks under 2^32 bytes, mm_check succeeds exactly when every free block is larger than 16 bytes and on the list of its bucket |
| Checking.CheckMissesListedAllocated | hw3/assn3-malloc/assn/mm.c:514-537 | mm_check inspects only free blocks, so it accepts a heap whose allocated block is on a free list |

## Left out

- The `next` link words in free payloads are not written. The 15 sequences stand for the lists, so `NEXT_FREE_BLKP` is not modelled as a memory read.
- `print_free_list` and the commented-out `printf` calls print only, and the printing in `mm_check` changes no state.
- `mem_sbrk` is a parameter. `brkLimit` bounds the arena, and fresh words are taken to be zero. `memlib.c` is not part of this model.
- `mm_init` relies on the global `heap_length`, which it never resets. `Initialising.Init` takes its value as an argument and requires it to be even and at least 2. This holds for the initial value 8192.
- C `assert`s are treated as enabled. The side effect of `assert(remove_from_free_list(...))` in `find_fit` and `coalesce` therefore takes place. The facts asserted in `find_fit`, `coalesce`, `mm_malloc`, `add_to_free_list` and `mm_realloc` are proved from the invariant rather than checked. The exception is `mm_check`'s `assert(size > DSIZE)` (line 519), which meets heaps that need not be well formed. Its abort is modelled as a false result.
- Extending.ExtendHeap: requires the free tail to be smaller than the rounded request. The source's `size -= GET_SIZE(p)` would wrap around otherwise. Its only caller, `mm_malloc`, meets this, which `Allocating.TailBelow` proves.
- State.WellFormed: bounds the arena by 2^28 words (2^31 bytes), and `Initialising.Init` requires the memory system's limit to be within it. `memlib.c`'s actual limit is not part of this model. Inside this bound the narrow C types in `mm.c` hold their values exactly, so the model does not truncate them (`State.NarrowTypesHold`). They are the `int heap_length` (lines 90 and 258), the `int size_prev` and `size_next` (lines 205-206), the `unsigned int` parameter of `get_free_list_index` (lines 585, 605 and 632), and the `unsigned int size` of `remove_from_free_list` (line 604). The `unsigned int num_words_payload` of `find_fit` (line 276) is computed from the request, and is exact for requests below 2^35 bytes. Larger requests fail in the model whatever bucket the search starts from, because no block holds them (`Allocating.OversizeFails`).
- Fitting.FindFit: `find_fit` stores each difference in an `int` (`cur_fit`). The model compares full sizes. The two differ only when the request is 2^31 bytes or more, and such a request fails (`Allocating.OversizeFails`). The wrapped comparison is modelled beside it as `Fitting.CurFitAsWritten` (see Findings).
- Allocating.PlaceIn: `mm_malloc` keeps the surplus in an `int` (`split_size`). The model keeps the full difference. Every block is below 2^31 bytes (`State.NarrowTypesHold`), so the two agree.
- Allocating.AdjustSize: the sum `size + DSIZE + (DSIZE - 1)` is taken on unbounded integers. The size_t wrap of the last 31 values is modelled as `Allocating.AdjustSizeAsWritten` (see Findings). `Allocating.Malloc` returns failure for those requests, as intended.
- Reallocating.ReallocSize: the sum is taken on unbounded integers. The wrap is modelled as `Reallocating.ReallocSizeAsWritten` (see Findings), and `Reallocating.ReallocBlock` returns failure for those requests.
- Checking.CheckFrom: reading a header or footer outside the arena gives failure instead of undefined behaviour. The abort of `assert(size > DSIZE)` at line 519 on a 16-byte free block is modelled as a false result. `heap_listp == NULL` before `mm_init` is not modelled.
- Checking.CheckIff: assumes every block is below 2^32 bytes. Beyond that, `mm_check`'s `int` read of a header can mistake a block for the epilogue.
- Checking.Check: the `unsigned int` payload count it passes to `get_free_list_index` is not truncated. This agrees with the source for blocks below 2^35 bytes, so for every heap within the arena bound.
- Reallocating.CopyWords: `memcpy` is modelled with whole words. A final partial word is copied whole. The bytes realloc must keep are always inside the copied words (`Reallocating.CopyFits`).
- Reallocating.Realloc: models the corrected shrink guard, and both in-place paths retag the block without clearing its first payload word (see Findings). The source's behaviour is kept beside them as `ShrinkTailAsWritten`, `ShrinkMemAsWritten` and `AbsorbMemAsWritten`.
- Reallocating.Realloc: on the in-place growth path the block takes the whole combined size, as `place(oldptr, combined_size)` does. A surplus is not split off.

## Findings

| source | as written | input that shows it | evidently intended | confidence | as-written member | corrected member |
|---|---|---|---|---|---|---|
| hw3/assn3-malloc/assn/mm.c:446-456 | the shrink guard `(old_size - new_size) < DSIZE` never holds, because both sizes are multiples of 16; a surplus of exactly 16 bytes is split off as a free block with no payload, and `add_to_free_list` then indexes `free_lists[-1]` | `p = mm_malloc(48)` gives a 64-byte block; `mm_realloc(p, 32)` computes a new size of 48 and splits off a 16-byte block whose payload of 0 words has bucket -1 | keep a surplus smaller than a minimum block (32 bytes) inside the block, as `mm_malloc` does with a 16-byte surplus | not executed | Reallocating.SixteenByteTail | Reallocating.ShrinkTailListable |
| hw3/assn3-malloc/assn/mm.c:450 | the shrink reuses `place()`, whose `PUT(bp, 0)` clears the first payload word of the block being resized | any `mm_realloc(p, n)` that shrinks a block whose first payload word is non-zero, e.g. `p = mm_malloc(100)` holding 1 in its first word, then `mm_realloc(p, 8)` | realloc keeps the first min(size, old payload) bytes, so only the tags may be rewritten | not executed | Reallocating.ShrinkClearsFirstWord | Reallocating.ShrinkPath |
| hw3/assn3-malloc/assn/mm.c:467 | growing in place also calls `place()`, clearing the first payload word | `p = mm_malloc(16)` and `q = mm_malloc(16)`; write 1 into p's first word; `mm_free(q)`; `mm_realloc(p, 40)` grows into q's block and loses the 1 | retag the merged block without touching the payload | not executed | Reallocating.AbsorbClearsFirstWord | Reallocating.AbsorbPath |
| hw3/assn3-malloc/assn/mm.c:383-384 | `asize = DSIZE * ((size + (DSIZE) + (DSIZE-1)) / DSIZE)` is computed in size_t, so the sum wraps for the last 31 values of size_t and asize becomes 0 or 16 | `mm_malloc(SIZE_MAX)`: the sum wraps to 30 and asize is 16; `find_fit` computes a payload of 0 words, `get_free_list_index` returns -1, and the assertion `free_list_index >= 0` (line 279) aborts | a request no heap can hold returns NULL and leaves the heap alone | not executed | Allocating.AdjustSizeWraps | Allocating.Malloc |
| hw3/assn3-malloc/assn/mm.c:439 | `new_size` wraps the same way, to at most 16 bytes, which is less than the block's size | `mm_realloc(p, SIZE_MAX)` on a 32-byte block: new_size is 16, the shrink path is taken, and the 16-byte surplus is split off | realloc returns NULL and leaves the block alone | not executed | Reallocating.ReallocSizeWraps | Reallocating.ReallocBlock |
| hw3/assn3-malloc/assn/mm.c:284-296 | `cur_fit = GET_SIZE(HDRP(cur_blkp)) - asize` stores a size_t difference in an `int`, so a block between 2^31 and 2^32 bytes too small reads as a positive fit | free 128 KiB block in bucket 14, then `mm_malloc(0xC000_0000 - 16)`: asize is 3 GiB, the block reads as a fit of 0x4002_0000 bytes and is chosen, and `mm_malloc` writes 3 GiB tags past the heap's end | only blocks at least as large as the request are fits, so the request fails | not executed | Fitting.CurFitPicksSmallBlock | Allocating.OversizeFails |

=== FILE: alloc.dfy ===
/** mm_malloc and place: rounding a request to a block size, taking the
    block find_fit or extend_heap supplies, splitting off its tail when the
    tail can stand as a free block, and marking the block allocated. */
module Allocating {
  import opened Layout
  import opened SizeClass
  import opened Tiling
  import opened State
  import opened FreeLists
  import opened Coalescing
  import opened Extending
  import opened Fitting

  /** mm_malloc's adjusted size: the smallest multiple of DSIZE that holds
      the payload together with a header and a footer, and no less than
      MIN_BLOCK. */
  function AdjustSize(size: nat): (asize: nat)
    requires size > 0
    ensures asize % 16 == 0 && asize >= MIN_BLOCK && asize >= size + DSIZE
    ensures asize == MIN_BLOCK || asize - DSIZE < size + DSIZE
  {
    if size <= DSIZE then
      2 * DSIZE
    else
      var q := (size + DSIZE + (DSIZE - 1)) / 16;
      assert 16 * q <= size + 31 < 16 * q + 16;
      16 * q
  }

  /** mm_malloc's adjusted size as the C expression computes it: the sum
      `size + DSIZE + (DSIZE - 1)` is a size_t and wraps. It is AdjustSize
      for every size but the last 31 values of size_t. */
  function AdjustSizeAsWritten(size: nat): (asize: nat)
    requires 0 < size < SIZE_T_MOD
    ensures asize % 16 == 0
    ensures size < SIZE_T_MOD - 31 ==> asize == AdjustSize(size)
  {
    if size <= DSIZE then
      2 * DSIZE
    else
      var sum := (size + DSIZE + (DSIZE - 1)) % SIZE_T_MOD;
      assert size < SIZE_T_MOD - 31 ==> sum == size + DSIZE + (DSIZE - 1);
      DSIZE * (sum / DSIZE)
  }

  /** The largest requests wrap to a block smaller than the minimum. The
      last fifteen values of size_t give 16 bytes, a zero-word payload with
      no bucket, so find_fit's assertion that the bucket index is not
      negative fails; mm_malloc(SIZE_MAX) aborts instead of returning
      NULL. */
  lemma AdjustSizeWraps(size: nat)
    requires SIZE_T_MOD - 31 <= size < SIZE_T_MOD
    ensures AdjustSizeAsWritten(size) < MIN_BLOCK
    ensures SIZE_T_MOD - 15 <= size ==> AdjustSizeAsWritten(size) == DSIZE
    ensures FreeListIndex(DSIZE / 8 - 2) == -1
  {
    var t := size + DSIZE + (DSIZE - 1) - SIZE_T_MOD;
    assert 0 <= t < 31 && (size + DSIZE + (DSIZE - 1)) % SIZE_T_MOD == t;
  }

  /** place(bp, asize): header and footer of an allocated block of `asize`
      bytes, then the first payload word (the old list link) cleared. */
  function Place(mem: seq<nat>, bp: nat, asize: nat): (m: seq<nat>)
    requires asize % 16 == 0 && asize >= MIN_BLOCK
    requires 1 <= bp && bp + asize / 8 <= |mem|
    ensures |m| == |mem|
    ensures m[bp - 1] == Pack(asize, true) && m[bp + asize / 8 - 2] == Pack(asize, true) && m[bp] == 0
    ensures forall i :: 0 <= i < |mem| && i != bp - 1 && i != bp && i != bp + asize / 8 - 2 ==> m[i] == mem[i]
  {
    SetTags(mem, bp, asize, true)[bp := 0]
  }

  /** The tags of the free block split off at `bp + asize / 8`. */
  function SplitTail(mem: seq<nat>, bp: nat, asize: nat, split: nat): (m: seq<nat>)
    requires asize % 16 == 0 && split % 16 == 0 && split >= DSIZE
    requires 1 <= bp && bp + asize / 8 + split / 8 <= |mem|
    ensures |m| == |mem|
    ensures m[bp + asize / 8 - 1] == Pack(split, false)
  {
    SetTags(mem, bp + asize / 8, split, false)
  }

  /** The arena after placing `asize` bytes at the head of the free block
      `bp` and writing the tags of the free block split off after it. */
  function SplitPlaced(mem: seq<nat>, bp: nat, asize: nat): (m: seq<nat>)
    requires 1 <= bp <= |mem| && NextBlkp(mem, bp) <= |mem|
    requires asize % 16 == 0 && asize >= MIN_BLOCK && SizeAt(mem, bp) > asize + DSIZE
    ensures |m| == |mem|
  {
    SplitFacts(mem, bp, asize);
    var m1 := SplitTail(mem, bp, asize, SizeAt(mem, bp) - asize);
    Place(m1, bp, asize)
  }

  /** mm_malloc's split: the tail goes on its list, then the head is placed.
      The list insertion reads only the tail's header, which placing the
      head leaves alone. */
  function SplitHeap(h: Heap, bp: nat, asize: nat): (r: Heap)
    requires 1 <= bp <= |h.mem| && NextBlkp(h.mem, bp) <= |h.mem| && |h.lists| == FREE_LIST_SIZE
    requires asize % 16 == 0 && asize >= MIN_BLOCK && SizeAt(h.mem, bp) > asize + DSIZE
    requires forall i :: 0 <= i < FREE_LIST_SIZE ==> bp + asize / 8 !in h.lists[i]
    ensures r.heapLength == h.heapLength && r.brkLimit == h.brkLimit
  {
    TailTags(h.mem, bp, asize);
    AddToFreeList(h.(mem := SplitTail(h.mem, bp, asize, SizeAt(h.mem, bp) - asize)), bp + asize / 8)
      .(mem := SplitPlaced(h.mem, bp, asize))
  }

  /** The tail's tags, once written, say free and give the tail's size. */
  lemma TailTags(mem: seq<nat>, bp: nat, asize: nat)
    requires 1 <= bp <= |mem| && NextBlkp(mem, bp) <= |mem|
    requires asize % 16 == 0 && asize >= MIN_BLOCK && SizeAt(mem, bp) > asize + DSIZE
    ensures var split := SizeAt(mem, bp) - asize;
            && split % 16 == 0 && split >= DSIZE && bp + asize / 8 + split / 8 <= |mem|
            && var m1 := SplitTail(mem, bp, asize, split);
               1 <= bp + asize / 8 <= |m1| && SizeAt(m1, bp + asize / 8) == split && !AllocAt(m1, bp + asize / 8)
  {
    SplitFacts(mem, bp, asize);
  }

  /** The split leaves the arena SplitPlaced describes, with the tail at the
      head of the list of its bucket. */
  lemma SplitHeapShape(h: Heap, bp: nat, asize: nat)
    requires 1 <= bp <= |h.mem| && NextBlkp(h.mem, bp) <= |h.mem| && |h.lists| == FREE_LIST_SIZE
    requires asize % 16 == 0 && asize >= MIN_BLOCK && SizeAt(h.mem, bp) > asize + DSIZE
    requires forall i :: 0 <= i < FREE_LIST_SIZE ==> bp + asize / 8 !in h.lists[i]
    ensures var r := SplitHeap(h, bp, asize);
            && r.mem == SplitPlaced(h.mem, bp, asize)
            && var i := BucketOf(SizeAt(h.mem, bp) - asize);
               0 <= i < FREE_LIST_SIZE && r.lists == h.lists[i := [bp + asize / 8] + h.lists[i]]
  {
    TailTags(h.mem, bp, asize);
  }

  /** The part of mm_malloc after a block is found: a surplus of exactly
      DSIZE stays in the block (a 16-byte block cannot be listed), a larger
      surplus becomes a free block on its list, and the block is placed. */
  function PlaceIn(h: Heap, bp: nat, asize: nat): (r: Heap)
    requires WellFormedExcept(h, {bp}) && bp in Blocks(h.mem) && !AllocAt(h.mem, bp)
    requires asize % 16 == 0 && asize >= MIN_BLOCK && SizeAt(h.mem, bp) >= asize
    ensures r.heapLength == h.heapLength && r.brkLimit == h.brkLimit
  {
    var split := SizeAt(h.mem, bp) - asize;
    SplitFacts(h.mem, bp, asize);
    if split == DSIZE then
      h.(mem := Place(h.mem, bp, asize + DSIZE))
    else if split > 0 then
      SplitUnlisted(h, bp, asize);
      SplitHeap(h, bp, asize)
    else
      h.(mem := Place(h.mem, bp, asize))
  }

  /** The surplus of a block over an aligned request is aligned, and the
      split block lies inside the old one. */
  lemma SplitFacts(mem: seq<nat>, bp: nat, asize: nat)
    requires 1 <= bp <= |mem| && NextBlkp(mem, bp) <= |mem|
    requires asize % 16 == 0 && asize >= MIN_BLOCK && SizeAt(mem, bp) >= asize
    ensures var split := SizeAt(mem, bp) - asize;
            && split % 16 == 0
            && (split > 0 ==> split >= DSIZE)
            && (split > 0 && split != DSIZE ==> split >= MIN_BLOCK)
            && bp + asize / 8 + split / 8 == NextBlkp(mem, bp) <= |mem|
  {
    var size := SizeAt(mem, bp);
    var p, q := size / 16, asize / 16;
    assert size == 16 * p && asize == 16 * q;
    assert size - asize == 16 * (p - q);
    WordsAdd(asize, size - asize);
  }

  /** The word where the split block starts is inside `bp`'s block, so no
      list holds it. */
  lemma SplitUnlisted(h: Heap, bp: nat, asize: nat)
    requires WellFormedExcept(h, {bp}) && bp in Blocks(h.mem)
    requires asize % 16 == 0 && asize >= MIN_BLOCK && SizeAt(h.mem, bp) > asize
    ensures |h.lists| == FREE_LIST_SIZE
    ensures forall i :: 0 <= i < FREE_LIST_SIZE ==> bp + asize / 8 !in h.lists[i]
  {
    var s := bp + asize / 8;
    SplitFacts(h.mem, bp, asize);
    Neighbours(h.mem, bp);
    assert s !in Blocks(h.mem);
  }

  /** What a placed block is: allocated, at least the request, at most a
      double word over it, its first payload word cleared, and every other
      allocated block as it was. */
  ghost predicate Placed(mem: seq<nat>, m: seq<nat>, bp: nat, asize: nat)
    requires HeapOk(mem) && HeapOk(m)
  {
    && Live(m, bp) && !Live(mem, bp)
    && asize <= SizeAt(m, bp) <= asize + DSIZE
    && m[bp] == 0
    && (forall c :: Live(m, c) <==> c == bp || Live(mem, c))
    && (forall c :: Live(mem, c) ==> SameBlock(mem, m, c))
  }

  /** Placing without a split: the block becomes one allocated block. */
  lemma WholeShape(mem: seq<nat>, bp: nat, size: nat, asize: nat)
    requires HeapOk(mem) && bp in Blocks(mem) && !AllocAt(mem, bp)
    requires size == SizeAt(mem, bp) && size >= MIN_BLOCK
    requires asize <= size <= asize + DSIZE
    ensures var m := Place(mem, bp, size);
            && DiffersOnlyIn(mem, m, bp - 1, NextBlkp(mem, bp) - 1)
            && Tiles(m, bp, NextBlkp(mem, bp)) && BlocksIn(m, bp, NextBlkp(mem, bp)) == [bp]
            && AllocAt(m, bp) && SizeAt(m, bp) == size
            && HeapOk(m) && Placed(mem, m, bp, asize)
  {
    var hi := NextBlkp(mem, bp);
    var m := Place(mem, bp, size);
    Neighbours(mem, bp);
    WrittenBlock(m, bp, size, true);
    RunLive(mem, m, bp, hi);
  }

  /** ... and the heap is well formed again. */
  lemma PlaceWhole(h: Heap, bp: nat, size: nat)
    requires WellFormedExcept(h, {bp}) && bp in Blocks(h.mem) && !AllocAt(h.mem, bp)
    requires size == SizeAt(h.mem, bp) && size >= MIN_BLOCK
    ensures WellFormed(h.(mem := Place(h.mem, bp, size)))
  {
    var mem := h.mem;
    var m := Place(mem, bp, size);
    Neighbours(mem, bp);
    WholeShape(mem, bp, size, size);
    SingleBlock(mem, bp);
    Retag(h, m, bp, NextBlkp(mem, bp), {bp}, {});
  }

  /** The words a split writes: both tags of the head and both tags of the
      tail; nothing outside the old block changes. */
  ghost predicate SplitWrites(mem: seq<nat>, m: seq<nat>, bp: nat, asize: nat)
    requires 1 <= bp <= |mem| && NextBlkp(mem, bp) <= |mem|
    requires asize % 16 == 0 && asize >= MIN_BLOCK && SizeAt(mem, bp) > asize + DSIZE
  {
    SplitFacts(mem, bp, asize);
    var hi, s, split := NextBlkp(mem, bp), bp + asize / 8, SizeAt(mem, bp) - asize;
    && DiffersOnlyIn(mem, m, bp - 1, hi - 1)
    && m[bp - 1] == Pack(asize, true) && m[s - 2] == Pack(asize, true)
    && m[s - 1] == Pack(split, false) && m[hi - 2] == Pack(split, false)
  }

  /** mm_malloc's split writes those words, and clears the head's first
      payload word. */
  lemma SplitWords(mem: seq<nat>, bp: nat, asize: nat)
    requires 1 <= bp <= |mem| && NextBlkp(mem, bp) <= |mem|
    requires asize % 16 == 0 && asize >= MIN_BLOCK && SizeAt(mem, bp) > asize + DSIZE
    ensures SplitWrites(mem, SplitPlaced(mem, bp, asize), bp, asize)
    ensures SplitPlaced(mem, bp, asize)[bp] == 0
  {
    SplitFacts(mem, bp, asize);
  }

  /** Placing with a split: an allocated head of `asize` bytes and a free
      tail, together covering the old block. */
  lemma SplitShape(mem: seq<nat>, m: seq<nat>, bp: nat, asize: nat)
    requires HeapOk(mem) && bp in Blocks(mem) && !AllocAt(mem, bp)
    requires asize % 16 == 0 && asize >= MIN_BLOCK && SizeAt(mem, bp) > asize + DSIZE
    requires SplitWrites(mem, m, bp, asize) && m[bp] == 0
    ensures var hi := NextBlkp(mem, bp);
            var s := bp + asize / 8;
            && HeapOk(m) && Tiles(m, bp, hi) && BlocksIn(m, bp, hi) == [bp, s]
            && AllocAt(m, bp) && SizeAt(m, bp) == asize
            && s in Blocks(m) && !AllocAt(m, s) && SizeAt(m, s) == SizeAt(mem, bp) - asize
            && SizeAt(m, s) >= MIN_BLOCK
            && Placed(mem, m, bp, asize)
  {
    var hi := NextBlkp(mem, bp);
    var split := SizeAt(mem, bp) - asize;
    var s := bp + asize / 8;
    SplitFacts(mem, bp, asize);
    Neighbours(mem, bp);
    WrittenBlock(m, bp, asize, true);
    WrittenBlock(m, s, split, false);
    Join(m, bp, s, hi);
    assert BlocksIn(m, bp, s) + BlocksIn(m, s, hi) == [bp, s];
    RunLive(mem, m, bp, hi);
  }

  /** The run the split writes: an allocated head of `asize` bytes and a
      free tail of the rest. */
  lemma SplitTiles(mem: seq<nat>, m: seq<nat>, bp: nat, asize: nat)
    requires 1 <= bp <= |mem| && NextBlkp(mem, bp) <= |mem|
    requires asize % 16 == 0 && asize >= MIN_BLOCK && SizeAt(mem, bp) > asize + DSIZE
    requires SplitWrites(mem, m, bp, asize)
    ensures var hi, s := NextBlkp(mem, bp), bp + asize / 8;
            && bp < s < hi && Tiles(m, bp, hi) && BlocksIn(m, bp, hi) == [bp, s]
            && AllocAt(m, bp) && SizeAt(m, bp) == asize
            && !AllocAt(m, s) && SizeAt(m, s) == SizeAt(mem, bp) - asize && SizeAt(m, s) >= MIN_BLOCK
  {
    var hi := NextBlkp(mem, bp);
    var split := SizeAt(mem, bp) - asize;
    var s := bp + asize / 8;
    SplitFacts(mem, bp, asize);
    WrittenBlock(m, bp, asize, true);
    WrittenBlock(m, s, split, false);
    Join(m, bp, s, hi);
    assert BlocksIn(m, bp, s) + BlocksIn(m, s, hi) == [bp, s];
  }

  /** Writing the split and listing the tail in the bucket of its size
      leaves the heap well formed. */
  lemma SplitRelist(h: Heap, r: Heap, bp: nat, asize: nat)
    requires WellFormedExcept(h, {bp}) && bp in Blocks(h.mem)
    requires asize % 16 == 0 && asize >= MIN_BLOCK && SizeAt(h.mem, bp) > asize + DSIZE
    requires SplitWrites(h.mem, r.mem, bp, asize)
    requires r.heapLength == h.heapLength && r.brkLimit == h.brkLimit
    requires var i := BucketOf(SizeAt(h.mem, bp) - asize);
             0 <= i < FREE_LIST_SIZE && r.lists == h.lists[i := [bp + asize / 8] + h.lists[i]]
    ensures WellFormed(r)
  {
    SplitRun(h.mem, r.mem, bp, asize);
    var split := SizeAt(h.mem, bp) - asize;
    RetagAddOne(h, r, bp, bp + asize / 8, split, BucketOf(split));
  }

  /** The old block was the only block of its run, and the split run holds
      the allocated head and the free tail. */
  lemma SplitRun(mem: seq<nat>, m: seq<nat>, bp: nat, asize: nat)
    requires HeapOk(mem) && bp in Blocks(mem)
    requires asize % 16 == 0 && asize >= MIN_BLOCK && SizeAt(mem, bp) > asize + DSIZE
    requires SplitWrites(mem, m, bp, asize)
    ensures AddRun(mem, m, bp, NextBlkp(mem, bp), {bp}, bp + asize / 8)
    ensures SizeAt(m, bp + asize / 8) == SizeAt(mem, bp) - asize
  {
    var hi := NextBlkp(mem, bp);
    Neighbours(mem, bp);
    SingleBlock(mem, bp);
    SplitTiles(mem, m, bp, asize);
    forall c | c in Blocks(mem) && bp <= c < hi
      ensures c in {bp} || AllocAt(mem, c)
    {
    }
  }

  /** ... and the heap is well formed again, the tail on its list. */
  lemma PlaceSplit(h: Heap, bp: nat, asize: nat)
    requires WellFormedExcept(h, {bp}) && bp in Blocks(h.mem) && !AllocAt(h.mem, bp)
    requires asize % 16 == 0 && asize >= MIN_BLOCK
    requires SizeAt(h.mem, bp) > asize + DSIZE
    ensures |h.lists| == FREE_LIST_SIZE && forall i :: 0 <= i < FREE_LIST_SIZE ==> bp + asize / 8 !in h.lists[i]
    ensures WellFormed(SplitHeap(h, bp, asize))
  {
    SplitWords(h.mem, bp, asize);
    SplitUnlisted(h, bp, asize);
    SplitHeapShape(h, bp, asize);
    SplitRelist(h, SplitHeap(h, bp, asize), bp, asize);
  }

  /** PlaceIn leaves a well-formed heap with the block placed. */
  lemma PlaceInKeeps(h: Heap, bp: nat, asize: nat)
    requires WellFormedExcept(h, {bp}) && bp in Blocks(h.mem) && !AllocAt(h.mem, bp)
    requires asize % 16 == 0 && asize >= MIN_BLOCK && SizeAt(h.mem, bp) >= asize
    ensures WellFormed(PlaceIn(h, bp, asize))
    ensures Placed(h.mem, PlaceIn(h, bp, asize).mem, bp, asize)
  {
    SplitFacts(h.mem, bp, asize);
    if SizeAt(h.mem, bp) > asize + DSIZE {
      PlaceInSplit(h, bp, asize);
    } else {
      PlaceInWhole(h, bp, asize);
    }
  }

  /** ... when the whole block is used. */
  lemma PlaceInWhole(h: Heap, bp: nat, asize: nat)
    requires WellFormedExcept(h, {bp}) && bp in Blocks(h.mem) && !AllocAt(h.mem, bp)
    requires asize % 16 == 0 && asize >= MIN_BLOCK
    requires SizeAt(h.mem, bp) == asize || SizeAt(h.mem, bp) == asize + DSIZE
    ensures WellFormed(PlaceIn(h, bp, asize))
    ensures Placed(h.mem, PlaceIn(h, bp, asize).mem, bp, asize)
  {
    var size := SizeAt(h.mem, bp);
    assert PlaceIn(h, bp, asize) == h.(mem := Place(h.mem, bp, size));
    PlaceWhole(h, bp, size);
    WholeShape(h.mem, bp, size, asize);
  }

  /** ... and when the tail is split off. */
  lemma PlaceInSplit(h: Heap, bp: nat, asize: nat)
    requires WellFormedExcept(h, {bp}) && bp in Blocks(h.mem) && !AllocAt(h.mem, bp)
    requires asize % 16 == 0 && asize >= MIN_BLOCK && SizeAt(h.mem, bp) > asize + DSIZE
    ensures WellFormed(PlaceIn(h, bp, asize))
    ensures Placed(h.mem, PlaceIn(h, bp, asize).mem, bp, asize)
  {
    SplitUnlisted(h, bp, asize);
    assert PlaceIn(h, bp, asize) == SplitHeap(h, bp, asize);
    SplitHeapShape(h, bp, asize);
    PlaceSplit(h, bp, asize);
    SplitWords(h.mem, bp, asize);
    SplitShape(h.mem, SplitPlaced(h.mem, bp, asize), bp, asize);
  }

  /** mm_malloc gives up when the request is empty, or when no free block
      fits and the memory system cannot supply the extension. */
  predicate MallocFails(h: Heap, size: nat)
    requires WellFormed(h)
  {
    size == 0 ||
      var asize := AdjustSize(size);
      && (forall c :: c in Blocks(h.mem) && !AllocAt(h.mem, c) ==> SizeAt(h.mem, c) < asize)
      && |h.mem| + (ExtendSize(Max(asize, CHUNKSIZE) / 8) - TailFree(h.mem)) / 8 > h.brkLimit
  }

  /** When no free block fits, the free tail is too small as well, so
      extend_heap's subtraction leaves a positive size. */
  lemma TailBelow(h: Heap, asize: nat)
    requires HeapOk(h.mem) && asize % 16 == 0 && asize >= MIN_BLOCK
    requires forall c :: c in Blocks(h.mem) && !AllocAt(h.mem, c) ==> SizeAt(h.mem, c) < asize
    ensures TailFree(h.mem) < ExtendSize(Max(asize, CHUNKSIZE) / 8)
  {
    var t := TailFree(h.mem);
    if t > 0 {
      TailBlock(h.mem);
      assert t < asize;
    }
    ChunkFits(asize);
  }

  /** A request no arena can hold fails cleanly: no block is that large,
      and the extension it needs passes the memory system's limit. This is
      what mm_malloc(SIZE_MAX) is meant to do, where the source wraps. */
  lemma OversizeFails(h: Heap, size: nat)
    requires WellFormed(h) && size >= 8 * MAX_HEAP_WORDS
    ensures MallocFails(h, size)
  {
    var asize := AdjustSize(size);
    NoneHolds(h.mem, asize);
    TailInArena(h.mem);
    ChunkFits(asize);
    PastLimit(|h.mem|, h.brkLimit, ExtendSize(Max(asize, CHUNKSIZE) / 8), TailFree(h.mem));
  }

  /** No block of an arena is as large as the arena. */
  lemma NoneHolds(mem: seq<nat>, asize: nat)
    requires HeapOk(mem) && asize >= 8 * |mem|
    ensures forall c :: c in Blocks(mem) && !AllocAt(mem, c) ==> SizeAt(mem, c) < asize
  {
    forall c | c in Blocks(mem) && !AllocAt(mem, c)
      ensures SizeAt(mem, c) < asize
    {
      BlockBelow(mem, c);
    }
  }

  /** The free tail is part of the arena. */
  lemma TailInArena(mem: seq<nat>)
    requires HeapOk(mem)
    ensures TailFree(mem) < 8 * |mem|
  {
    if TailFree(mem) > 0 {
      TailBlock(mem);
      BlockBelow(mem, PrevBlkp(mem, |mem|));
    }
  }

  /** An extension of the whole address range, less a free tail inside the
      arena, passes any limit within that range. */
  lemma PastLimit(len: nat, limit: nat, e: nat, t: nat)
    requires len <= limit <= MAX_HEAP_WORDS
    requires e >= 8 * MAX_HEAP_WORDS && t < 8 * len && e % 16 == 0 && t % 16 == 0
    ensures len + (e - t) / 8 > limit
  {
    var d := (e - t) / 16;
    assert e - t == 16 * d;
  }

  /** The state between finding a block and placing it: the block is free,
      big enough and exempt from the lists, and the allocated blocks are
      those of the heap mm_malloc was called on, word for word. */
  ghost predicate Ready(h: Heap, h1: Heap, bp: nat, asize: nat)
    requires WellFormed(h)
  {
    && WellFormedExcept(h1, {bp})
    && bp in Blocks(h1.mem) && !AllocAt(h1.mem, bp) && SizeAt(h1.mem, bp) >= asize
    && (forall c :: Live(h1.mem, c) <==> Live(h.mem, c))
    && (forall c :: Live(h.mem, c) ==> SameBlock(h.mem, h1.mem, c))
  }

  /** The block find_fit unlinks is ready to be placed. */
  lemma FoundReady(h: Heap, asize: nat, b: nat)
    requires WellFormed(h) && asize % 16 == 0 && asize >= MIN_BLOCK
    requires ChosenFit(h, asize, b)
    ensures b in Blocks(h.mem) && !AllocAt(h.mem, b) && SizeAt(h.mem, b) >= asize
    ensures Ready(h, RemoveFromFreeList(h, b).0, b, asize)
  {
    ChosenIsBest(h, asize, b);
    RemoveKeeps(h, b, {});
    assert {} + {b} == {b};
  }

  /** The block extend_heap returns is ready to be placed. */
  lemma ExtendReady(h: Heap, asize: nat)
    requires WellFormed(h) && asize % 16 == 0 && asize >= MIN_BLOCK
    requires TailFree(h.mem) < ExtendSize(Max(asize, CHUNKSIZE) / 8)
    requires ExtendHeap(h, Max(asize, CHUNKSIZE) / 8).Some?
    ensures var e := ExtendHeap(h, Max(asize, CHUNKSIZE) / 8).value;
            Ready(h, e.0, e.1, asize)
  {
    ChunkFits(asize);
    ExtendKeeps(h, Max(asize, CHUNKSIZE) / 8);
  }

  /** The extension mm_malloc asks for holds the request. */
  lemma ChunkFits(asize: nat)
    requires asize % 16 == 0
    ensures ExtendSize(Max(asize, CHUNKSIZE) / 8) >= asize
  {
    WholeWords(asize);
    WholeWords(CHUNKSIZE);
  }

  /** Placing a ready block gives a well-formed heap with one more
      allocated block. */
  lemma ReadyPlace(h: Heap, h1: Heap, bp: nat, asize: nat)
    requires WellFormed(h) && asize % 16 == 0 && asize >= MIN_BLOCK
    requires Ready(h, h1, bp, asize)
    ensures WellFormed(PlaceIn(h1, bp, asize))
    ensures Placed(h.mem, PlaceIn(h1, bp, asize).mem, bp, asize)
  {
    PlaceInKeeps(h1, bp, asize);
    MallocLive(h, h1, PlaceIn(h1, bp, asize), bp, asize);
  }

  /** mm_malloc(size). On success the heap is well formed again and holds
      one more allocated block, big enough for `size` payload bytes; on
      failure nothing changes. When a free block fits, the heap does not
      grow: the block is the one find_fit chooses, a best fit among all
      free blocks. Only when none fits is the heap extended. */
  method Malloc(h: Heap, size: nat) returns (r: Heap, p: Option<nat>)
    requires WellFormed(h)
    ensures p.None? <==> MallocFails(h, size)
    ensures p.None? ==> r == h
    ensures p.Some? ==> WellFormed(r) && Placed(h.mem, r.mem, p.value, AdjustSize(size))
    ensures p.Some? ==> SizeAt(r.mem, p.value) >= size + DSIZE
    ensures size > 0 && SomeFit(h, AdjustSize(size)) ==>
              && p.Some? && |r.mem| == |h.mem| && ChosenFit(h, AdjustSize(size), p.value)
              && forall c :: c in Blocks(h.mem) && !AllocAt(h.mem, c) && SizeAt(h.mem, c) >= AdjustSize(size) ==>
                   SizeAt(h.mem, p.value) <= SizeAt(h.mem, c)
    ensures size > 0 && p.Some? && !SomeFit(h, AdjustSize(size)) ==> |r.mem| > |h.mem|
    ensures size >= 8 * MAX_HEAP_WORDS ==> p.None? && r == h
    ensures p.Some? ==> p.value % 2 == 0
  {
    if size == 0 {
      return h, None;
    }
    if size >= 8 * MAX_HEAP_WORDS {
      OversizeFails(h, size);
    }
    var asize := AdjustSize(size);
    var h1, found := FindFit(h, asize);
    if found.Some? {
      FoundPlaced(h, asize, found.value);
      r, p := PlaceIn(h1, found.value, asize), found;
    } else {
      NoFitFromIff(h, asize);
      ExtendOutcome(h, asize);
      var e := ExtendHeap(h, Max(asize, CHUNKSIZE) / 8);
      if e.None? {
        return h, None;
      }
      ExtendPlaced(h, asize);
      r, p := PlaceIn(e.value.0, e.value.1, asize), Some(e.value.1);
    }
    // payloads are double-word aligned: every block pointer is even
    EvenBlocks(r.mem, HEAP_START, |r.mem|, p.value);
  }

  /** The found path of mm_malloc: the block find_fit chose and unlinked is
      placed in the same arena, and is a best fit among all free blocks. */
  lemma FoundPlaced(h: Heap, asize: nat, b: nat)
    requires WellFormed(h) && asize % 16 == 0 && asize >= MIN_BLOCK
    requires ChosenFit(h, asize, b)
    ensures SomeFit(h, asize)
    ensures forall c :: c in Blocks(h.mem) && !AllocAt(h.mem, c) && SizeAt(h.mem, c) >= asize ==>
              SizeAt(h.mem, b) <= SizeAt(h.mem, c)
    ensures var h1 := RemoveFromFreeList(h, b).0;
            && WellFormedExcept(h1, {b}) && b in Blocks(h1.mem) && !AllocAt(h1.mem, b) && SizeAt(h1.mem, b) >= asize
            && var r := PlaceIn(h1, b, asize);
               WellFormed(r) && Placed(h.mem, r.mem, b, asize) && |r.mem| == |h.mem|
  {
    FoundReady(h, asize, b);
    ChosenIsBest(h, asize, b);
    ReadyPlace(h, RemoveFromFreeList(h, b).0, b, asize);
  }

  /** When no free block fits, extend_heap may be called, and it fails
      exactly when the memory system cannot supply the extension. */
  lemma ExtendOutcome(h: Heap, asize: nat)
    requires WellFormed(h) && asize % 16 == 0 && asize >= MIN_BLOCK
    requires forall c :: c in Blocks(h.mem) && !AllocAt(h.mem, c) ==> SizeAt(h.mem, c) < asize
    ensures TailFree(h.mem) < ExtendSize(Max(asize, CHUNKSIZE) / 8)
    ensures ExtendHeap(h, Max(asize, CHUNKSIZE) / 8).None? <==>
              |h.mem| + (ExtendSize(Max(asize, CHUNKSIZE) / 8) - TailFree(h.mem)) / 8 > h.brkLimit
  {
    TailBelow(h, asize);
    ExtendKeeps(h, Max(asize, CHUNKSIZE) / 8);
  }

  /** The extension path of mm_malloc: the block extend_heap returns is
      placed in the grown arena. */
  lemma ExtendPlaced(h: Heap, asize: nat)
    requires WellFormed(h) && asize % 16 == 0 && asize >= MIN_BLOCK
    requires TailFree(h.mem) < ExtendSize(Max(asize, CHUNKSIZE) / 8)
    requires ExtendHeap(h, Max(asize, CHUNKSIZE) / 8).Some?
    ensures var e := ExtendHeap(h, Max(asize, CHUNKSIZE) / 8).value;
            && WellFormedExcept(e.0, {e.1}) && e.1 in Blocks(e.0.mem) && !AllocAt(e.0.mem, e.1)
            && SizeAt(e.0.mem, e.1) >= asize
            && var r := PlaceIn(e.0, e.1, asize);
               WellFormed(r) && Placed(h.mem, r.mem, e.1, asize) && |r.mem| > |h.mem|
  {
    ExtendReady(h, asize);
    var e := ExtendHeap(h, Max(asize, CHUNKSIZE) / 8).value;
    ReadyPlace(h, e.0, e.1, asize);
  }

  /** The allocated blocks of the heap before the search are those of the
      heap the block was found in, so placing it adds exactly that block. */
  lemma MallocLive(h: Heap, h1: Heap, r: Heap, bp: nat, asize: nat)
    requires HeapOk(h.mem) && HeapOk(h1.mem) && HeapOk(r.mem)
    requires forall c :: Live(h1.mem, c) <==> Live(h.mem, c)
    requires forall c :: Live(h.mem, c) ==> SameBlock(h.mem, h1.mem, c)
    requires Placed(h1.mem, r.mem, bp, asize)
    ensures Placed(h.mem, r.mem, bp, asize)
  {
    forall c: nat | Live(h.mem, c)
      ensures SameBlock(h.mem, r.mem, c)
    {
      SameBlockTrans(h.mem, h1.mem, r.mem, c);
    }
  }
}

=== FILE: check.dfy ===
/** mm_check: the walk over the heap that reports whether every free block
    can be found on the free list of its bucket. */
module Checking {
  import opened Layout
  import opened SizeClass
  import opened Tiling
  import opened State

  /** The header word read as a C `int`: only its low 32 bits take part in
      the comparison with 1 that ends the walk. */
  predicate EndMark(w: nat) {
    w % 0x1_0000_0000 == 1
  }

  /** The walk from block `cur`. It stops with success at a header whose low
      32 bits are 1 (the epilogue) or whose size is zero, and fails at a
      footer whose size differs from the header's, at a free block of no
      more than DSIZE bytes (the assertion in the loop), or at a free block
      missing from the list of its bucket. A header or footer outside the
      arena also fails. */
  function CheckFrom(h: Heap, cur: nat): (ok: bool)
    requires |h.lists| == FREE_LIST_SIZE
    decreases |h.mem| + 1 - cur
  {
    if cur < 1 || |h.mem| < cur then
      false
    else if EndMark(h.mem[cur - 1]) then
      true
    else
      var size := GetSize(h.mem[cur - 1]);
      if size == 0 then
        true
      else if |h.mem| <= cur + size / 8 - 2 then
        false
      else if GetSize(h.mem[cur + size / 8 - 2]) != size then
        false
      else if !IsAlloc(h.mem[cur - 1]) && (size <= DSIZE || cur !in h.lists[BucketOf(size)]) then
        false
      else
        CheckFrom(h, cur + size / 8)
  }

  /** mm_check: the walk from heap_listp. */
  function Check(h: Heap): (ok: bool)
    requires |h.lists| == FREE_LIST_SIZE
  {
    CheckFrom(h, HEAP_START)
  }

  /** Every free block from `cur` on is a block of more than DSIZE bytes on
      the list of its bucket: what the walk looks for. */
  predicate FreeListedFrom(h: Heap, cur: nat)
    requires Tiles(h.mem, cur, |h.mem|) && |h.lists| == FREE_LIST_SIZE
  {
    forall b :: b in BlocksIn(h.mem, cur, |h.mem|) && !AllocAt(h.mem, b) ==>
      SizeAt(h.mem, b) > DSIZE && b in h.lists[BucketOf(SizeAt(h.mem, b))]
  }

  /** No block from `cur` on has a header the walk would take for the end. */
  predicate NoEarlyEnd(h: Heap, cur: nat)
    requires Tiles(h.mem, cur, |h.mem|)
  {
    forall b :: b in BlocksIn(h.mem, cur, |h.mem|) ==> !EndMark(h.mem[b - 1])
  }

  /** A header whose size lies below 2^32 and is at least DSIZE cannot read
      as 1 in its low 32 bits. */
  lemma SmallHeader(w: nat)
    requires DSIZE <= GetSize(w) < 0x1_0000_0000
    ensures !EndMark(w)
  {
    assert w < 0x1_0000_0000;
  }

  /** One step of the walk over a well-formed block that does not end it:
      the block passes when it is allocated or listed, and the walk goes on
      at the next block. */
  lemma CheckStep(h: Heap, cur: nat)
    requires |h.lists| == FREE_LIST_SIZE && 1 <= cur < |h.mem|
    requires ValidBlock(h.mem, cur) && !EndMark(h.mem[cur - 1])
    ensures CheckFrom(h, cur) <==>
              && (!AllocAt(h.mem, cur) ==>
                    SizeAt(h.mem, cur) > DSIZE && cur in h.lists[BucketOf(SizeAt(h.mem, cur))])
              && CheckFrom(h, NextBlkp(h.mem, cur))
  {
    var size := SizeAt(h.mem, cur);
    assert Ftrp(h.mem, cur) == cur + size / 8 - 2;
    assert GetSize(h.mem[cur + size / 8 - 2]) == size;
  }

  /** Walking a tiled stretch of the heap succeeds when every free block on
      it is listed: the footers of a tiling repeat the headers, and the walk
      either ends at the epilogue or stops early with success. */
  lemma {:induction false} CheckFromComplete(h: Heap, cur: nat)
    requires HeapOk(h.mem) && |h.lists| == FREE_LIST_SIZE
    requires 1 <= cur && Tiles(h.mem, cur, |h.mem|)
    requires FreeListedFrom(h, cur)
    ensures CheckFrom(h, cur)
    decreases |h.mem| - cur
  {
    if cur < |h.mem| && !EndMark(h.mem[cur - 1]) {
      var next := NextBlkp(h.mem, cur);
      assert BlocksIn(h.mem, cur, |h.mem|) == [cur] + BlocksIn(h.mem, next, |h.mem|);
      CheckFromComplete(h, next);
    }
  }

  /** Conversely, a walk that succeeds over a stretch with no early end has
      found every free block on it on the list of its bucket. */
  lemma {:induction false} CheckFromSound(h: Heap, cur: nat)
    requires HeapOk(h.mem) && |h.lists| == FREE_LIST_SIZE
    requires 1 <= cur && Tiles(h.mem, cur, |h.mem|)
    requires NoEarlyEnd(h, cur) && CheckFrom(h, cur)
    ensures FreeListedFrom(h, cur)
    decreases |h.mem| - cur
  {
    if cur < |h.mem| {
      var next := NextBlkp(h.mem, cur);
      var rest := BlocksIn(h.mem, next, |h.mem|);
      assert BlocksIn(h.mem, cur, |h.mem|) == [cur] + rest;
      assert cur in BlocksIn(h.mem, cur, |h.mem|);
      CheckStep(h, cur);
      assert NoEarlyEnd(h, next) by {
        forall b | b in rest
          ensures !EndMark(h.mem[b - 1])
        {
          assert b in BlocksIn(h.mem, cur, |h.mem|);
        }
      }
      CheckFromSound(h, next);
    }
  }

  /** mm_check accepts every heap that satisfies the invariant. */
  lemma CheckComplete(h: Heap)
    requires WellFormed(h)
    ensures Check(h)
  {
    CheckFromComplete(h, HEAP_START);
  }

  /** On a heap in shape whose blocks are all under 2^32 bytes, mm_check
      succeeds exactly when every free block is a block of more than DSIZE
      bytes on the list of its bucket. */
  lemma CheckIff(h: Heap)
    requires HeapOk(h.mem) && |h.lists| == FREE_LIST_SIZE
    requires forall b :: b in Blocks(h.mem) ==> SizeAt(h.mem, b) < 0x1_0000_0000
    ensures Check(h) <==>
              forall b :: b in Blocks(h.mem) && !AllocAt(h.mem, b) ==>
                SizeAt(h.mem, b) > DSIZE && b in h.lists[BucketOf(SizeAt(h.mem, b))]
  {
    forall b | b in Blocks(h.mem)
      ensures !EndMark(h.mem[b - 1])
    {
      SmallHeader(h.mem[b - 1]);
    }
    if Check(h) {
      CheckFromSound(h, HEAP_START);
    } else if FreeListedFrom(h, HEAP_START) {
      CheckFromComplete(h, HEAP_START);
    }
  }

  /** mm_check looks only at free blocks: an allocated block on a list, or a
      block listed in the wrong bucket, goes unnoticed. A heap whose one
      block is allocated but listed passes the walk yet breaks the
      invariant. */
  lemma CheckMissesListedAllocated()
    ensures var h := Heap([1, 33, 0, 0, 33, 1], [[], [2], [], [], [], [], [], [], [], [], [], [], [], [], []], 4, 6);
            && Check(h) && !WellFormed(h)
  {
    var h := Heap([1, 33, 0, 0, 33, 1], [[], [2], [], [], [], [], [], [], [], [], [], [], [], [], []], 4, 6);
    assert SizeAt(h.mem, 2) == 32 && AllocAt(h.mem, 2) && NextBlkp(h.mem, 2) == 6;
    assert CheckFrom(h, 6);
    assert Check(h);
    assert BlocksIn(h.mem, 6, 6) == [];
    assert Blocks(h.mem) == [2];
    assert !EntryOk(h.mem, {}, 1, 2);
  }
}

=== FILE: coalesce.dfy ===
/** coalesce and mm_free: boundary-tag coalescing of a free block with its
    free neighbours, and freeing an allocated block. */
module Coalescing {
  import opened Layout
  import opened SizeClass
  import opened Tiling
  import opened State
  import opened FreeLists

  /** coalesce's prev_alloc: the allocated bit of the footer that PREV_BLKP
      finds, except that the first block (heap_listp) has no predecessor and
      counts as having an allocated one. */
  predicate PrevAllocated(mem: seq<nat>, bp: nat)
    requires HeapOk(mem) && bp in Blocks(mem)
  {
    Neighbours(mem, bp);
    bp == HEAP_START || IsAlloc(mem[Ftrp(mem, PrevBlkp(mem, bp))])
  }

  /** coalesce's next_alloc: the allocated bit of the next header, which is
      the epilogue's for the last block. */
  predicate NextAllocated(mem: seq<nat>, bp: nat)
    requires HeapOk(mem) && bp in Blocks(mem)
  {
    Neighbours(mem, bp);
    IsAlloc(mem[NextBlkp(mem, bp) - 1])
  }

  /** The arena after case 2 of coalesce: bp's header and then the footer
      that header now points at are rewritten for one free block covering bp
      and the block after it. */
  function AbsorbNextMem(mem: seq<nat>, bp: nat): (m: seq<nat>)
    requires HeapOk(mem) && bp in Blocks(mem) && NextBlkp(mem, bp) in Blocks(mem)
    ensures var next := NextBlkp(mem, bp);
            var size := SizeAt(mem, bp) + SizeAt(mem, next);
            var hi := NextBlkp(mem, next);
            && size % 16 == 0 && size >= DSIZE && 2 <= bp && bp + size / 8 == hi <= |mem|
            && DiffersOnlyIn(mem, m, bp - 1, hi - 1)
            && m[bp - 1] == Pack(size, false) && m[hi - 2] == Pack(size, false)
  {
    var next := NextBlkp(mem, bp);
    PairRun(mem, bp);
    SetTags(mem, bp, SizeAt(mem, bp) + SizeAt(mem, next), false)
  }

  /** The arena after case 3: bp's footer, then the header of the block
      before it, are rewritten for one free block covering both. */
  function AbsorbedByPrevMem(mem: seq<nat>, bp: nat): (m: seq<nat>)
    requires HeapOk(mem) && bp in Blocks(mem) && HEAP_START < bp && PrevBlkp(mem, bp) in Blocks(mem)
    ensures var prev := PrevBlkp(mem, bp);
            var size := SizeAt(mem, bp) + SizeAt(mem, prev);
            var hi := NextBlkp(mem, bp);
            && size % 16 == 0 && size >= DSIZE && 2 <= prev && prev + size / 8 == hi <= |mem|
            && DiffersOnlyIn(mem, m, prev - 1, hi - 1)
            && m[prev - 1] == Pack(size, false) && m[hi - 2] == Pack(size, false)
  {
    var prev := PrevBlkp(mem, bp);
    Neighbours(mem, bp);
    PairRun(mem, prev);
    var size := SizeAt(mem, bp) + SizeAt(mem, prev);
    var m1 := mem[Ftrp(mem, bp) := Pack(size, false)];
    m1[prev - 1 := Pack(size, false)]
  }

  /** The arena after case 4: the header of the previous block, then the
      footer of the next one (found through the next block's own header),
      are rewritten for one free block covering all three. The next block's
      size is read from its footer, as coalesce does. */
  function MergeBothMem(mem: seq<nat>, bp: nat): (m: seq<nat>)
    requires HeapOk(mem) && bp in Blocks(mem) && HEAP_START < bp && PrevBlkp(mem, bp) in Blocks(mem)
    requires NextBlkp(mem, bp) in Blocks(mem)
    ensures var prev, next := PrevBlkp(mem, bp), NextBlkp(mem, bp);
            var size := SizeAt(mem, bp) + SizeAt(mem, prev) + SizeAt(mem, next);
            var hi := NextBlkp(mem, next);
            && size % 16 == 0 && size >= DSIZE && 2 <= prev && prev + size / 8 == hi <= |mem|
            && DiffersOnlyIn(mem, m, prev - 1, hi - 1)
            && m[prev - 1] == Pack(size, false) && m[hi - 2] == Pack(size, false)
  {
    var prev := PrevBlkp(mem, bp);
    var next := NextBlkp(mem, bp);
    TripleRun(mem, bp);
    var size := SizeAt(mem, bp) + SizeAt(mem, prev) + GetSize(mem[Ftrp(mem, next)]);
    var m1 := mem[prev - 1 := Pack(size, false)];
    m1[Ftrp(m1, next) := Pack(size, false)]
  }

  /** Case 2 of coalesce: bp absorbs the free block after it, which is
      unlinked first. */
  function AbsorbNext(h: Heap, bp: nat): (r: Heap)
    requires HeapOk(h.mem) && |h.lists| == FREE_LIST_SIZE
    requires bp in Blocks(h.mem) && NextBlkp(h.mem, bp) in Blocks(h.mem)
    requires SizeAt(h.mem, NextBlkp(h.mem, bp)) > DSIZE
    ensures r.heapLength == h.heapLength && r.brkLimit == h.brkLimit && |r.mem| == |h.mem|
  {
    RemoveFromFreeList(h, NextBlkp(h.mem, bp)).0.(mem := AbsorbNextMem(h.mem, bp))
  }

  /** Case 3 of coalesce: the free block before bp is unlinked and grows
      over bp. */
  function AbsorbedByPrev(h: Heap, bp: nat): (r: Heap)
    requires HeapOk(h.mem) && |h.lists| == FREE_LIST_SIZE
    requires bp in Blocks(h.mem) && HEAP_START < bp && PrevBlkp(h.mem, bp) in Blocks(h.mem)
    requires SizeAt(h.mem, PrevBlkp(h.mem, bp)) > DSIZE
    ensures r.heapLength == h.heapLength && r.brkLimit == h.brkLimit && |r.mem| == |h.mem|
  {
    RemoveFromFreeList(h, PrevBlkp(h.mem, bp)).0.(mem := AbsorbedByPrevMem(h.mem, bp))
  }

  /** Case 4 of coalesce: both neighbours are unlinked, the previous one
      first, and the previous block absorbs bp and the next block. */
  function MergeBoth(h: Heap, bp: nat): (r: Heap)
    requires HeapOk(h.mem) && |h.lists| == FREE_LIST_SIZE
    requires bp in Blocks(h.mem) && HEAP_START < bp && PrevBlkp(h.mem, bp) in Blocks(h.mem)
    requires NextBlkp(h.mem, bp) in Blocks(h.mem)
    requires SizeAt(h.mem, PrevBlkp(h.mem, bp)) > DSIZE && SizeAt(h.mem, NextBlkp(h.mem, bp)) > DSIZE
    ensures r.heapLength == h.heapLength && r.brkLimit == h.brkLimit && |r.mem| == |h.mem|
  {
    var h1 := RemoveFromFreeList(h, PrevBlkp(h.mem, bp)).0;
    var h2 := RemoveFromFreeList(h1, NextBlkp(h.mem, bp)).0;
    h2.(mem := MergeBothMem(h.mem, bp))
  }

  /** coalesce(bp): bp is a free block not on any list. A free neighbour is
      unlinked from its list and absorbed; the result is the merged block,
      which is not put on a list either (the caller does that). The sizes
      coalesce asserts are not DSIZE are those of listed free blocks, which
      the invariant keeps above DSIZE. */
  function Coalesce(h: Heap, bp: nat): (r: (Heap, nat))
    requires WellFormedExcept(h, {bp})
    requires bp in Blocks(h.mem) && !AllocAt(h.mem, bp)
    ensures r.0.heapLength == h.heapLength && r.0.brkLimit == h.brkLimit && |r.0.mem| == |h.mem|
  {
    var mem := h.mem;
    Neighbours(mem, bp);
    var prevAlloc := PrevAllocated(mem, bp);
    var nextAlloc := NextAllocated(mem, bp);
    if prevAlloc && nextAlloc then
      (h, bp)
    else if prevAlloc then
      (AbsorbNext(h, bp), bp)
    else if nextAlloc then
      (AbsorbedByPrev(h, bp), PrevBlkp(mem, bp))
    else
      (MergeBoth(h, bp), PrevBlkp(mem, bp))
  }

  /** Where the block coalesce(bp) returns begins: at the block before bp
      when that one is free, else at bp itself. */
  function MergedStart(mem: seq<nat>, bp: nat): nat
    requires HeapOk(mem) && bp in Blocks(mem)
  {
    Neighbours(mem, bp);
    if PrevAllocated(mem, bp) then bp else PrevBlkp(mem, bp)
  }

  /** Where the block coalesce(bp) returns ends: after the block that
      follows bp when that one is free, else where bp ends. */
  function MergedEnd(mem: seq<nat>, bp: nat): nat
    requires HeapOk(mem) && bp in Blocks(mem)
  {
    Neighbours(mem, bp);
    if NextAllocated(mem, bp) then NextBlkp(mem, bp) else NextBlkp(mem, NextBlkp(mem, bp))
  }

  /** The span of the merged block alone, for callers that need no more. */
  lemma CoalesceSpan(h: Heap, bp: nat)
    requires WellFormedExcept(h, {bp})
    requires bp in Blocks(h.mem) && !AllocAt(h.mem, bp)
    ensures HeapOk(Coalesce(h, bp).0.mem) && Coalesce(h, bp).1 in Blocks(Coalesce(h, bp).0.mem)
    ensures Coalesce(h, bp).1 == MergedStart(h.mem, bp)
    ensures NextBlkp(Coalesce(h, bp).0.mem, Coalesce(h, bp).1) == MergedEnd(h.mem, bp)
  {
    CoalesceKeeps(h, bp);
  }

  /** The block structure coalesce leaves, for callers that need no more. */
  lemma CoalesceShape(h: Heap, bp: nat)
    requires WellFormedExcept(h, {bp})
    requires bp in Blocks(h.mem) && !AllocAt(h.mem, bp)
    ensures MergedShape(h.mem, Coalesce(h, bp).0.mem, bp, Coalesce(h, bp).1)
  {
    CoalesceKeeps(h, bp);
  }

  /** What coalesce(bp) leaves of the block structure: the merged block
      `nb` is a free block covering bp and every block the old heap had in
      its span, all of which were free; the blocks outside the span are
      the old ones, word for word. */
  ghost predicate MergedShape(mem: seq<nat>, m: seq<nat>, bp: nat, nb: nat)
    requires HeapOk(mem)
  {
    && HeapOk(m)
    && nb in Blocks(mem) && nb in Blocks(m) && !AllocAt(m, nb)
    && nb <= bp < NextBlkp(m, nb)
    && (bp in Blocks(mem) ==> NextBlkp(mem, bp) <= NextBlkp(m, nb))
    && (forall c :: c in Blocks(mem) && nb <= c < NextBlkp(m, nb) ==> !AllocAt(mem, c))
    && (forall c :: c in Blocks(m) <==> c == nb || (c in Blocks(mem) && (c < nb || NextBlkp(m, nb) <= c)))
    && (forall c :: c in Blocks(mem) && (c < nb || NextBlkp(m, nb) <= c) ==>
          m[c - 1] == mem[c - 1] && SameBlock(mem, m, c))
  }

  /** What a merge leaves of the allocated blocks: the same blocks, word for
      word. */
  lemma MergedLive(mem: seq<nat>, m: seq<nat>, bp: nat, nb: nat)
    requires HeapOk(mem) && bp in Blocks(mem) && MergedShape(mem, m, bp, nb)
    ensures forall c :: Live(m, c) <==> Live(mem, c)
    ensures forall c :: Live(mem, c) ==> m[c - 1] == mem[c - 1] && SameBlock(mem, m, c)
  {
    forall c: nat | Live(m, c)
      ensures Live(mem, c)
    {
      assert c != nb;
    }
    forall c: nat | Live(mem, c)
      ensures Live(m, c) && m[c - 1] == mem[c - 1] && SameBlock(mem, m, c)
    {
      assert !(nb <= c < NextBlkp(m, nb));
    }
  }

  /** The merged block is at least as large as the block coalesced. */
  lemma MergedSize(mem: seq<nat>, m: seq<nat>, bp: nat, nb: nat)
    requires HeapOk(mem) && bp in Blocks(mem) && MergedShape(mem, m, bp, nb)
    ensures SizeAt(m, nb) >= SizeAt(mem, bp)
  {
    SpanCovers(nb, SizeAt(m, nb), bp, SizeAt(mem, bp));
  }

  /** A span of whole double words that starts no later and ends no earlier
      than another is at least as long. */
  lemma SpanCovers(lo: nat, a: nat, bp: nat, b: nat)
    requires a % 16 == 0 && b % 16 == 0
    requires lo <= bp && bp + b / 8 <= lo + a / 8
    ensures b <= a
  {
    WholeWords(a);
    WholeWords(b);
  }

  /** Writing the tags of one free block of `size` bytes over the run
      [lo, hi) of free blocks gives the merged shape. */
  lemma MergeShape(mem: seq<nat>, m: seq<nat>, lo: nat, hi: nat, size: nat, bp: nat)
    requires HeapOk(mem)
    requires lo in Blocks(mem) && (hi in Blocks(mem) || hi == |mem|)
    requires size % 16 == 0 && size >= DSIZE && hi == lo + size / 8
    requires bp in Blocks(mem) && lo <= bp && NextBlkp(mem, bp) <= hi
    requires forall c :: c in Blocks(mem) && lo <= c < hi ==> !AllocAt(mem, c)
    requires DiffersOnlyIn(mem, m, lo - 1, hi - 1)
    requires m[lo - 1] == Pack(size, false) && m[hi - 2] == Pack(size, false)
    ensures MergedShape(mem, m, bp, lo)
    ensures NextBlkp(m, lo) == hi && SizeAt(m, lo) == size
  {
    WrittenBlock(m, lo, size, false);
    RetagShape(mem, m, lo, hi);
  }

  /** `m` writes one free block of `size` bytes over the run [lo, hi) of
      `mem`, whose blocks are exactly the exempt blocks `X`. */
  ghost predicate MergeRunOk(mem: seq<nat>, m: seq<nat>, lo: nat, hi: nat, size: nat, X: set<nat>)
    requires HeapOk(mem)
  {
    && lo in Blocks(mem) && (hi in Blocks(mem) || hi == |mem|)
    && size % 16 == 0 && size >= DSIZE && hi == lo + size / 8
    && (forall c :: c in X ==> lo <= c < hi)
    && (forall c :: c in Blocks(mem) && lo <= c < hi ==> c in X)
    && DiffersOnlyIn(mem, m, lo - 1, hi - 1)
    && m[lo - 1] == Pack(size, false) && m[hi - 2] == Pack(size, false)
  }

  lemma MergeRun(h: Heap, m: seq<nat>, lo: nat, hi: nat, size: nat, X: set<nat>)
    requires WellFormedExcept(h, X)
    requires MergeRunOk(h.mem, m, lo, hi, size, X)
    ensures WellFormedExcept(h.(mem := m), {lo})
  {
    WrittenBlock(m, lo, size, false);
    Retag(h, m, lo, hi, X, {lo});
  }

  /** Two adjacent blocks: no other block starts in their joint span, and
      their sizes add up to it. */
  lemma PairRun(mem: seq<nat>, a: nat)
    requires HeapOk(mem) && a in Blocks(mem) && NextBlkp(mem, a) in Blocks(mem)
    ensures var b := NextBlkp(mem, a);
            var size := SizeAt(mem, a) + SizeAt(mem, b);
            && size % 16 == 0 && size >= DSIZE
            && a + size / 8 == NextBlkp(mem, b) <= |mem|
            && (NextBlkp(mem, b) in Blocks(mem) || NextBlkp(mem, b) == |mem|)
            && forall c :: c in Blocks(mem) && a <= c < NextBlkp(mem, b) ==> c == a || c == b
  {
    var b := NextBlkp(mem, a);
    Neighbours(mem, a);
    Neighbours(mem, b);
    WordsAdd(SizeAt(mem, a), SizeAt(mem, b));
  }

  /** Three adjacent blocks, as case 4 of coalesce finds them. */
  lemma TripleRun(mem: seq<nat>, bp: nat)
    requires HeapOk(mem)
    requires bp in Blocks(mem) && HEAP_START < bp && PrevBlkp(mem, bp) in Blocks(mem)
    requires NextBlkp(mem, bp) in Blocks(mem)
    ensures var prev, next := PrevBlkp(mem, bp), NextBlkp(mem, bp);
            var size := SizeAt(mem, bp) + SizeAt(mem, prev) + SizeAt(mem, next);
            && 2 <= prev < bp < next && NextBlkp(mem, prev) == bp
            && GetSize(mem[Ftrp(mem, next)]) == SizeAt(mem, next)
            && size % 16 == 0 && size >= DSIZE
            && prev + size / 8 == NextBlkp(mem, next) <= |mem|
            && (NextBlkp(mem, next) in Blocks(mem) || NextBlkp(mem, next) == |mem|)
            && Ftrp(mem[prev - 1 := Pack(size, false)], next) == NextBlkp(mem, next) - 2
            && forall c :: c in Blocks(mem) && prev <= c < NextBlkp(mem, next) ==> c == prev || c == bp || c == next
  {
    var prev, next := PrevBlkp(mem, bp), NextBlkp(mem, bp);
    Neighbours(mem, bp);
    Neighbours(mem, prev);
    Neighbours(mem, next);
    WordsAdd(SizeAt(mem, prev), SizeAt(mem, bp));
    WordsAdd(SizeAt(mem, prev) + SizeAt(mem, bp), SizeAt(mem, next));
    var size := SizeAt(mem, bp) + SizeAt(mem, prev) + SizeAt(mem, next);
    assert size == SizeAt(mem, prev) + SizeAt(mem, bp) + SizeAt(mem, next);
    assert size / 8 == SizeAt(mem, prev) / 8 + SizeAt(mem, bp) / 8 + SizeAt(mem, next) / 8;
  }

  lemma CoalesceNone(h: Heap, bp: nat)
    requires WellFormedExcept(h, {bp})
    requires bp in Blocks(h.mem) && !AllocAt(h.mem, bp)
    requires PrevAllocated(h.mem, bp) && NextAllocated(h.mem, bp)
    ensures Coalesce(h, bp) == (h, bp)
    ensures MergedShape(h.mem, h.mem, bp, bp)
  {
    Neighbours(h.mem, bp);
  }

  /** Case 2, the block structure: bp and the free block after it become
      one free block. */
  lemma AbsorbNextShape(mem: seq<nat>, bp: nat)
    requires HeapOk(mem) && bp in Blocks(mem) && !AllocAt(mem, bp)
    requires NextBlkp(mem, bp) in Blocks(mem) && !AllocAt(mem, NextBlkp(mem, bp))
    ensures MergedShape(mem, AbsorbNextMem(mem, bp), bp, bp)
    ensures NextBlkp(AbsorbNextMem(mem, bp), bp) == NextBlkp(mem, NextBlkp(mem, bp))
  {
    var next := NextBlkp(mem, bp);
    PairRun(mem, bp);
    var size := SizeAt(mem, bp) + SizeAt(mem, next);
    MergeShape(mem, AbsorbNextMem(mem, bp), bp, NextBlkp(mem, next), size, bp);
  }

  /** Case 2, the lists, once the next block is unlinked: the merged block
      is the one exempt block. */
  lemma AbsorbNextRun(mem: seq<nat>, bp: nat, X: set<nat>)
    requires HeapOk(mem) && bp in Blocks(mem) && NextBlkp(mem, bp) in Blocks(mem)
    requires forall c :: c in X <==> c == bp || c == NextBlkp(mem, bp)
    ensures var next := NextBlkp(mem, bp);
            MergeRunOk(mem, AbsorbNextMem(mem, bp), bp, NextBlkp(mem, next), SizeAt(mem, bp) + SizeAt(mem, next), X)
  {
    PairRun(mem, bp);
  }

  lemma AbsorbNextLists(h1: Heap, bp: nat, X: set<nat>)
    requires HeapOk(h1.mem) && bp in Blocks(h1.mem) && NextBlkp(h1.mem, bp) in Blocks(h1.mem)
    requires WellFormedExcept(h1, X)
    requires forall c :: c in X <==> c == bp || c == NextBlkp(h1.mem, bp)
    ensures WellFormedExcept(h1.(mem := AbsorbNextMem(h1.mem, bp)), {bp})
  {
    var mem := h1.mem;
    var next := NextBlkp(mem, bp);
    AbsorbNextRun(mem, bp, X);
    MergeRun(h1, AbsorbNextMem(mem, bp), bp, NextBlkp(mem, next), SizeAt(mem, bp) + SizeAt(mem, next), X);
  }

  lemma CoalesceNext(h: Heap, bp: nat)
    requires WellFormedExcept(h, {bp})
    requires bp in Blocks(h.mem) && !AllocAt(h.mem, bp)
    requires PrevAllocated(h.mem, bp) && !NextAllocated(h.mem, bp)
    ensures Coalesce(h, bp).1 == bp
    ensures WellFormedExcept(Coalesce(h, bp).0, {bp})
    ensures NextBlkp(h.mem, bp) in Blocks(h.mem) && !AllocAt(h.mem, NextBlkp(h.mem, bp))
    ensures Coalesce(h, bp).0.mem == AbsorbNextMem(h.mem, bp)
  {
    var mem := h.mem;
    Neighbours(mem, bp);
    var next := NextBlkp(mem, bp);
    RemoveKeeps(h, next, {bp});
    var h1 := RemoveFromFreeList(h, next).0;
    AbsorbNextLists(h1, bp, {bp} + {next});
    assert Coalesce(h, bp).0 == h1.(mem := AbsorbNextMem(mem, bp));
  }

  /** Case 3, the block structure: the free block before bp grows over it. */
  lemma AbsorbedByPrevShape(mem: seq<nat>, bp: nat)
    requires HeapOk(mem) && bp in Blocks(mem) && !AllocAt(mem, bp)
    requires HEAP_START < bp && PrevBlkp(mem, bp) in Blocks(mem) && !AllocAt(mem, PrevBlkp(mem, bp))
    ensures MergedShape(mem, AbsorbedByPrevMem(mem, bp), bp, PrevBlkp(mem, bp))
    ensures NextBlkp(AbsorbedByPrevMem(mem, bp), PrevBlkp(mem, bp)) == NextBlkp(mem, bp)
  {
    Neighbours(mem, bp);
    var prev := PrevBlkp(mem, bp);
    PairRun(mem, prev);
    var size := SizeAt(mem, bp) + SizeAt(mem, prev);
    MergeShape(mem, AbsorbedByPrevMem(mem, bp), prev, NextBlkp(mem, bp), size, bp);
  }

  /** Case 3, the lists, once the previous block is unlinked. */
  lemma AbsorbedByPrevRun(mem: seq<nat>, bp: nat, X: set<nat>)
    requires HeapOk(mem) && bp in Blocks(mem) && HEAP_START < bp && PrevBlkp(mem, bp) in Blocks(mem)
    requires forall c :: c in X <==> c == bp || c == PrevBlkp(mem, bp)
    ensures var prev := PrevBlkp(mem, bp);
            prev >= 0 &&
            MergeRunOk(mem, AbsorbedByPrevMem(mem, bp), prev, NextBlkp(mem, bp), SizeAt(mem, bp) + SizeAt(mem, prev), X)
  {
    Neighbours(mem, bp);
    PairRun(mem, PrevBlkp(mem, bp));
  }

  lemma AbsorbedByPrevLists(h1: Heap, bp: nat, X: set<nat>)
    requires HeapOk(h1.mem) && bp in Blocks(h1.mem) && HEAP_START < bp && PrevBlkp(h1.mem, bp) in Blocks(h1.mem)
    requires WellFormedExcept(h1, X)
    requires forall c :: c in X <==> c == bp || c == PrevBlkp(h1.mem, bp)
    ensures WellFormedExcept(h1.(mem := AbsorbedByPrevMem(h1.mem, bp)), {PrevBlkp(h1.mem, bp)})
  {
    var mem := h1.mem;
    var prev := PrevBlkp(mem, bp);
    AbsorbedByPrevRun(mem, bp, X);
    MergeRun(h1, AbsorbedByPrevMem(mem, bp), prev, NextBlkp(mem, bp), SizeAt(mem, bp) + SizeAt(mem, prev), X);
  }

  lemma CoalescePrev(h: Heap, bp: nat)
    requires WellFormedExcept(h, {bp})
    requires bp in Blocks(h.mem) && !AllocAt(h.mem, bp)
    requires !PrevAllocated(h.mem, bp) && NextAllocated(h.mem, bp)
    ensures Coalesce(h, bp).1 == PrevBlkp(h.mem, bp)
    ensures WellFormedExcept(Coalesce(h, bp).0, {Coalesce(h, bp).1})
    ensures HEAP_START < bp && PrevBlkp(h.mem, bp) in Blocks(h.mem) && !AllocAt(h.mem, PrevBlkp(h.mem, bp))
    ensures Coalesce(h, bp).0.mem == AbsorbedByPrevMem(h.mem, bp)
  {
    var mem := h.mem;
    Neighbours(mem, bp);
    var prev := PrevBlkp(mem, bp);
    assert !AllocAt(mem, prev);
    RemoveKeeps(h, prev, {bp});
    var h1 := RemoveFromFreeList(h, prev).0;
    AbsorbedByPrevLists(h1, bp, {bp} + {prev});
    assert Coalesce(h, bp).0 == h1.(mem := AbsorbedByPrevMem(mem, bp));
  }

  /** Case 4, the block structure: the three blocks become one. */
  lemma MergeBothShape(mem: seq<nat>, bp: nat)
    requires HeapOk(mem) && bp in Blocks(mem) && !AllocAt(mem, bp)
    requires HEAP_START < bp && PrevBlkp(mem, bp) in Blocks(mem) && !AllocAt(mem, PrevBlkp(mem, bp))
    requires NextBlkp(mem, bp) in Blocks(mem) && !AllocAt(mem, NextBlkp(mem, bp))
    ensures MergedShape(mem, MergeBothMem(mem, bp), bp, PrevBlkp(mem, bp))
    ensures NextBlkp(MergeBothMem(mem, bp), PrevBlkp(mem, bp)) == NextBlkp(mem, NextBlkp(mem, bp))
  {
    var prev := PrevBlkp(mem, bp);
    var next := NextBlkp(mem, bp);
    TripleRun(mem, bp);
    var size := SizeAt(mem, bp) + SizeAt(mem, prev) + SizeAt(mem, next);
    MergeShape(mem, MergeBothMem(mem, bp), prev, NextBlkp(mem, next), size, bp);
  }

  lemma MergeBothRun(mem: seq<nat>, bp: nat, X: set<nat>)
    requires HeapOk(mem) && bp in Blocks(mem) && HEAP_START < bp && PrevBlkp(mem, bp) in Blocks(mem)
    requires NextBlkp(mem, bp) in Blocks(mem)
    requires forall c :: c in X <==> c == bp || c == PrevBlkp(mem, bp) || c == NextBlkp(mem, bp)
    ensures var prev, next := PrevBlkp(mem, bp), NextBlkp(mem, bp);
            prev >= 0 &&
            MergeRunOk(mem, MergeBothMem(mem, bp), prev, NextBlkp(mem, next), SizeAt(mem, bp) + SizeAt(mem, prev) + SizeAt(mem, next), X)
  {
    TripleRun(mem, bp);
  }

  /** Case 4, the lists, once both neighbours are unlinked. */
  lemma MergeBothLists(h2: Heap, bp: nat, X: set<nat>)
    requires HeapOk(h2.mem) && bp in Blocks(h2.mem) && HEAP_START < bp && PrevBlkp(h2.mem, bp) in Blocks(h2.mem)
    requires NextBlkp(h2.mem, bp) in Blocks(h2.mem)
    requires WellFormedExcept(h2, X)
    requires forall c :: c in X <==> c == bp || c == PrevBlkp(h2.mem, bp) || c == NextBlkp(h2.mem, bp)
    ensures WellFormedExcept(h2.(mem := MergeBothMem(h2.mem, bp)), {PrevBlkp(h2.mem, bp)})
  {
    var mem := h2.mem;
    var prev := PrevBlkp(mem, bp);
    var next := NextBlkp(mem, bp);
    MergeBothRun(mem, bp, X);
    MergeRun(h2, MergeBothMem(mem, bp), prev, NextBlkp(mem, next), SizeAt(mem, bp) + SizeAt(mem, prev) + SizeAt(mem, next), X);
  }

  lemma CoalesceBoth(h: Heap, bp: nat)
    requires WellFormedExcept(h, {bp})
    requires bp in Blocks(h.mem) && !AllocAt(h.mem, bp)
    requires !PrevAllocated(h.mem, bp) && !NextAllocated(h.mem, bp)
    ensures Coalesce(h, bp).1 == PrevBlkp(h.mem, bp)
    ensures WellFormedExcept(Coalesce(h, bp).0, {Coalesce(h, bp).1})
    ensures HEAP_START < bp && PrevBlkp(h.mem, bp) in Blocks(h.mem) && !AllocAt(h.mem, PrevBlkp(h.mem, bp))
    ensures NextBlkp(h.mem, bp) in Blocks(h.mem) && !AllocAt(h.mem, NextBlkp(h.mem, bp))
    ensures Coalesce(h, bp).0.mem == MergeBothMem(h.mem, bp)
  {
    var mem := h.mem;
    Neighbours(mem, bp);
    var prev := PrevBlkp(mem, bp);
    var next := NextBlkp(mem, bp);
    assert !AllocAt(mem, prev) && !AllocAt(mem, next);
    assert prev < bp < next;
    RemoveKeeps(h, prev, {bp});
    var h1 := RemoveFromFreeList(h, prev).0;
    RemoveKeeps(h1, next, {bp} + {prev});
    var h2 := RemoveFromFreeList(h1, next).0;
    MergeBothLists(h2, bp, {bp} + {prev} + {next});
    assert Coalesce(h, bp).0 == h2.(mem := MergeBothMem(mem, bp));
  }

  /** coalesce keeps the invariant: its merged block is the one free,
      unlisted block, it absorbed nothing but free blocks, and every block
      outside it is untouched. */
  lemma CoalesceKeeps(h: Heap, bp: nat)
    requires WellFormedExcept(h, {bp})
    requires bp in Blocks(h.mem) && !AllocAt(h.mem, bp)
    ensures WellFormedExcept(Coalesce(h, bp).0, {Coalesce(h, bp).1})
    ensures MergedShape(h.mem, Coalesce(h, bp).0.mem, bp, Coalesce(h, bp).1)
    ensures Coalesce(h, bp).1 == MergedStart(h.mem, bp)
    ensures NextBlkp(Coalesce(h, bp).0.mem, Coalesce(h, bp).1) == MergedEnd(h.mem, bp)
  {
    if PrevAllocated(h.mem, bp) && NextAllocated(h.mem, bp) {
      CoalesceNone(h, bp);
    } else if PrevAllocated(h.mem, bp) {
      CoalesceNext(h, bp);
      AbsorbNextShape(h.mem, bp);
    } else if NextAllocated(h.mem, bp) {
      CoalescePrev(h, bp);
      AbsorbedByPrevShape(h.mem, bp);
    } else {
      CoalesceBoth(h, bp);
      MergeBothShape(h.mem, bp);
    }
  }
}

=== FILE: extend.dfy ===
/** extend_heap: asking the memory system for more words, laying a free
    block over them and coalescing it with a free block at the old end. */
module Extending {
  import opened Layout
  import opened Tiling
  import opened State
  import opened Coalescing

  /** The request rounded up to an even number of words, in bytes. */
  function ExtendSize(words: nat): (size: nat)
    ensures size % 16 == 0 && 8 * words <= size < 8 * words + 16
  {
    var q := words / 2;
    if words % 2 == 1 then
      assert words + 1 == 2 * (q + 1);
      (words + 1) * 8
    else
      assert words == 2 * q;
      words * 8
  }

  /** The free bytes at the old end of the heap: the size in the last word
      before the epilogue (the last block's footer, or the prologue when the
      heap has no block) when that word says free. */
  function TailFree(mem: seq<nat>): (t: nat)
    requires |mem| >= 2
    ensures t % 16 == 0
  {
    var w := mem[|mem| - 2];
    if IsAlloc(w) then 0 else GetSize(w)
  }

  /** A free tail is the last block of the heap, and its size is the one
      its footer records. */
  lemma TailBlock(mem: seq<nat>)
    requires HeapOk(mem) && TailFree(mem) > 0
    ensures HEAP_START < |mem| && PrevBlkp(mem, |mem|) in Blocks(mem)
    ensures !AllocAt(mem, PrevBlkp(mem, |mem|)) && SizeAt(mem, PrevBlkp(mem, |mem|)) == TailFree(mem)
  {
    PrevInWalk(mem, HEAP_START, |mem|, |mem|);
  }

  /** `n` fresh words from the memory system. Their contents are
      unspecified; the model takes them to be zero. */
  function FreshWords(n: nat): (s: seq<nat>)
    ensures |s| == n
  {
    seq(n, _ => 0)
  }

  /** The arena after growing by `size` bytes: the old epilogue word becomes
      the header of a free block of `size` bytes, its footer follows, and a
      new epilogue closes the arena. */
  function GrowMem(mem: seq<nat>, size: nat): (m: seq<nat>)
    requires |mem| >= 1 && size % 16 == 0 && size >= DSIZE
    ensures |m| == |mem| + size / 8
    ensures forall i :: 0 <= i < |mem| - 1 ==> m[i] == mem[i]
    ensures m[|mem| - 1] == Pack(size, false) && m[|mem| + size / 8 - 2] == Pack(size, false)
    ensures m[|m| - 1] == 1
  {
    var bp := |mem|;
    var m1 := SetTags(mem + FreshWords(size / 8), bp, size, false);
    m1[NextBlkp(m1, bp) - 1 := Pack(0, true)]
  }

  /** The bytes extend_heap asks for: the rounded request less the free
      tail it will merge with. */
  function GrowBy(h: Heap, words: nat): (size: nat)
    requires HeapOk(h.mem)
    requires TailFree(h.mem) < ExtendSize(words)
    ensures size % 16 == 0 && size >= DSIZE
  {
    Difference(ExtendSize(words), TailFree(h.mem));
    ExtendSize(words) - TailFree(h.mem)
  }

  /** The difference of two distinct multiples of DSIZE is at least DSIZE. */
  lemma Difference(a: nat, b: nat)
    requires a % 16 == 0 && b % 16 == 0 && b < a
    ensures (a - b) % 16 == 0 && a - b >= DSIZE
  {
    var p, q := a / 16, b / 16;
    assert a == 16 * p && b == 16 * q;
    assert a - b == 16 * (p - q);
  }

  /** The state right after the new block is written, before coalescing. */
  function Grown(h: Heap, size: nat): (r: Heap)
    requires WellFormed(h) && size % 16 == 0 && size >= DSIZE
    ensures r.lists == h.lists && r.brkLimit == h.brkLimit
  {
    h.(mem := GrowMem(h.mem, size), heapLength := h.heapLength + size / 8)
  }

  /** The new block is a free block of `size` bytes at the old end, ending
      at the new epilogue; every old block keeps its words. */
  lemma GrowShape(h: Heap, size: nat)
    requires WellFormed(h) && size % 16 == 0 && size >= DSIZE
    ensures var m := Grown(h, size).mem;
            && HeapOk(m)
            && |h.mem| in Blocks(m) && !AllocAt(m, |h.mem|) && SizeAt(m, |h.mem|) == size
            && NextBlkp(m, |h.mem|) == |m|
            && (forall c :: c in Blocks(m) <==> c == |h.mem| || c in Blocks(h.mem))
            && (forall c :: c in Blocks(h.mem) ==> m[c - 1] == h.mem[c - 1] && SameBlock(h.mem, m, c))
            && (forall c :: Live(m, c) <==> Live(h.mem, c))
  {
    var mem := h.mem;
    var lo := |mem|;
    var m := GrowMem(mem, size);
    WrittenBlock(m, lo, size, false);
    assert BlocksIn(m, lo, |m|) == [lo];
    RetagGrowShape(mem, m, lo);
  }

  /** The new block is exempt from the lists until coalesce has merged it;
      nothing else disturbs the invariant. */
  lemma GrowKeeps(h: Heap, size: nat)
    requires WellFormed(h) && size % 16 == 0 && size >= DSIZE
    requires |h.mem| + size / 8 <= h.brkLimit
    ensures WellFormedExcept(Grown(h, size), {|h.mem|})
    ensures |h.mem| in Blocks(Grown(h, size).mem) && !AllocAt(Grown(h, size).mem, |h.mem|)
  {
    var mem := h.mem;
    var lo := |mem|;
    var m := GrowMem(mem, size);
    WrittenBlock(m, lo, size, false);
    assert BlocksIn(m, lo, |m|) == [lo];
    GrowShape(h, size);
    RetagGrow(h, m, lo, {}, {lo});
  }

  /** What coalesce sees at the new block: its predecessor is the old last
      block, free exactly when the tail is, and its successor is the new
      epilogue. */
  lemma GrownNeighbours(mem: seq<nat>, m: seq<nat>, size: nat)
    requires HeapOk(mem) && HeapOk(m) && size % 16 == 0 && size >= DSIZE
    requires |mem| in Blocks(m) && NextBlkp(m, |mem|) == |m| && SizeAt(m, |mem|) == size
    requires forall i :: 0 <= i < |mem| - 1 ==> m[i] == mem[i]
    ensures NextAllocated(m, |mem|) && MergedEnd(m, |mem|) == |m|
    ensures PrevAllocated(m, |mem|) <==> TailFree(mem) == 0
    ensures MergedStart(m, |mem|) + (size + TailFree(mem)) / 8 == |m|
  {
    var lo := |mem|;
    WordsAdd(size, TailFree(mem));
    if lo != HEAP_START {
      PrevInWalk(mem, HEAP_START, lo, lo);
      var prev := PrevBlkp(mem, lo);
      assert m[lo - 2] == mem[lo - 2];
      assert m[prev - 1] == mem[prev - 1];
      assert PrevBlkp(m, lo) == prev && Ftrp(m, prev) == lo - 2;
    }
  }

  /** extend_heap(words): None when the memory system refuses; otherwise
      the coalesced free block that now ends the heap. The block is not on a
      list (the caller places it). */
  function ExtendHeap(h: Heap, words: nat): (r: Option<(Heap, nat)>)
    requires WellFormed(h)
    requires TailFree(h.mem) < ExtendSize(words)
  {
    var size := GrowBy(h, words);
    if |h.mem| + size / 8 > h.brkLimit then
      None
    else
      GrowKeeps(h, size);
      Some(Coalesce(Grown(h, size), |h.mem|))
  }

  /** The block extend_heap returns is exactly the rounded request and ends
      the heap. */
  lemma ExtendSpan(h: Heap, words: nat)
    requires WellFormed(h)
    requires TailFree(h.mem) < ExtendSize(words)
    requires |h.mem| + GrowBy(h, words) / 8 <= h.brkLimit
    ensures var c := ExtendHeap(h, words).value;
            && HeapOk(c.0.mem) && c.1 in Blocks(c.0.mem)
            && SizeAt(c.0.mem, c.1) == ExtendSize(words) && NextBlkp(c.0.mem, c.1) == |c.0.mem|
  {
    var size := GrowBy(h, words);
    var lo := |h.mem|;
    GrowKeeps(h, size);
    GrowShape(h, size);
    var h1 := Grown(h, size);
    CoalesceSpan(h1, lo);
    GrownNeighbours(h.mem, h1.mem, size);
    var r, nb := Coalesce(h1, lo).0, Coalesce(h1, lo).1;
    EndBlockSize(r.mem, nb, size, TailFree(h.mem));
  }

  /** extend_heap keeps every allocated block, word for word, and adds
      none. */
  lemma ExtendLive(h: Heap, words: nat)
    requires WellFormed(h)
    requires TailFree(h.mem) < ExtendSize(words)
    requires |h.mem| + GrowBy(h, words) / 8 <= h.brkLimit
    ensures var c := ExtendHeap(h, words).value;
            && HeapOk(c.0.mem)
            && (forall b :: Live(c.0.mem, b) <==> Live(h.mem, b))
            && (forall b :: Live(h.mem, b) ==> SameBlock(h.mem, c.0.mem, b))
  {
    var size := GrowBy(h, words);
    var lo := |h.mem|;
    GrowKeeps(h, size);
    GrowShape(h, size);
    var h1 := Grown(h, size);
    CoalesceShape(h1, lo);
    var r, nb := Coalesce(h1, lo).0, Coalesce(h1, lo).1;
    MergedLive(h1.mem, r.mem, lo, nb);
    LiveTrans(h.mem, h1.mem, r.mem);
  }

  /** extend_heap fails exactly when the grown arena would pass the
      memory system's limit; otherwise it leaves a free block of exactly the
      rounded request at the end of the heap, exempt from the lists and the
      only change to the invariant, and every allocated block as it was. */
  lemma ExtendKeeps(h: Heap, words: nat)
    requires WellFormed(h)
    requires TailFree(h.mem) < ExtendSize(words)
    ensures ExtendHeap(h, words).None? <==> |h.mem| + GrowBy(h, words) / 8 > h.brkLimit
    ensures ExtendHeap(h, words).Some? ==>
              var c := ExtendHeap(h, words).value;
              && WellFormedExcept(c.0, {c.1})
              && c.1 in Blocks(c.0.mem) && !AllocAt(c.0.mem, c.1)
              && SizeAt(c.0.mem, c.1) == ExtendSize(words) && NextBlkp(c.0.mem, c.1) == |c.0.mem|
              && (forall b :: Live(c.0.mem, b) <==> Live(h.mem, b))
              && (forall b :: Live(h.mem, b) ==> SameBlock(h.mem, c.0.mem, b))
  {
    var size := GrowBy(h, words);
    if |h.mem| + size / 8 <= h.brkLimit {
      GrowKeeps(h, size);
      CoalesceKeeps(Grown(h, size), |h.mem|);
      ExtendSpan(h, words);
      ExtendLive(h, words);
    }
  }

  /** A block ending the heap that starts `(size + tail) / 8` words before
      the end holds `size + tail` bytes. */
  lemma EndBlockSize(m: seq<nat>, nb: nat, size: nat, tail: nat)
    requires HeapOk(m) && nb in Blocks(m)
    requires size % 16 == 0 && tail % 16 == 0
    requires NextBlkp(m, nb) == |m| && nb + (size + tail) / 8 == |m|
    ensures SizeAt(m, nb) == size + tail
  {
    WordsAdd(size, tail);
    TotalSize(SizeAt(m, nb), size + tail, nb, |m|);
  }

  /** Two multiples of DSIZE that span the same words are equal. */
  lemma TotalSize(a: nat, b: nat, lo: nat, hi: nat)
    requires a % 16 == 0 && b % 16 == 0
    requires lo + a / 8 == hi && lo + b / 8 == hi
    ensures a == b
  {
    WholeWords(a);
    WholeWords(b);
  }
}

=== FILE: fit.dfy ===
/** find_fit: the segregated best-fit search. The search starts at the
    bucket of the request and stops at the first bucket holding any block
    big enough; inside that bucket it takes the first block of the smallest
    size that fits. */
module Fitting {
  import opened Layout
  import opened SizeClass
  import opened Tiling
  import opened State
  import opened FreeLists

  /** The sizes recorded in the headers of the blocks of a list, in list
      order: what the scan reads as it follows the links. */
  function SizesOf(mem: seq<nat>, L: seq<nat>): (s: seq<nat>)
    requires forall k :: 0 <= k < |L| ==> 1 <= L[k] <= |mem|
    ensures |s| == |L|
    ensures forall k :: 0 <= k < |L| ==> s[k] == SizeAt(mem, L[k])
  {
    if L == [] then [] else [SizeAt(mem, L[0])] + SizesOf(mem, L[1..])
  }

  /** The sizes of the blocks of bucket `i`. */
  function BucketSizes(h: Heap, i: nat): (s: seq<nat>)
    requires WellFormed(h) && i < FREE_LIST_SIZE
    ensures |s| == |h.lists[i]|
    ensures forall k :: 0 <= k < |s| ==> h.lists[i][k] in Blocks(h.mem) && s[k] == SizeAt(h.mem, h.lists[i][k])
  {
    ListedBlocks(h, i);
    SizesOf(h.mem, h.lists[i])
  }

  /** Every entry of a list of a well-formed heap is one of its blocks. */
  lemma ListedBlocks(h: Heap, i: nat)
    requires WellFormed(h) && i < FREE_LIST_SIZE
    ensures forall k :: 0 <= k < |h.lists[i]| ==> h.lists[i][k] in Blocks(h.mem) && 1 <= h.lists[i][k] <= |h.mem|
  {
    forall k | 0 <= k < |h.lists[i]|
      ensures h.lists[i][k] in Blocks(h.mem)
    {
      assert EntryOk(h.mem, {}, i, h.lists[i][k]);
    }
  }

  /** A size that fits rules out NoFit. */
  lemma Fits(s: seq<nat>, asize: nat, k: nat)
    requires k < |s| && s[k] >= asize
    ensures !NoFit(s, asize)
  {
  }

  /** No size in `s` is big enough for `asize`. */
  predicate NoFit(s: seq<nat>, asize: nat) {
    forall k :: 0 <= k < |s| ==> s[k] < asize
  }

  /** Entry `k` fits `asize`, no entry that fits is smaller, and every entry
      before it that fits is strictly larger: the entry the scan of a
      bucket keeps. */
  predicate FirstBest(s: seq<nat>, asize: nat, k: nat) {
    && k < |s| && s[k] >= asize
    && (forall j :: 0 <= j < |s| && s[j] >= asize ==> s[k] <= s[j])
    && (forall j :: 0 <= j < k && s[j] >= asize ==> s[k] < s[j])
  }

  /** No bucket from the request's own upwards holds a block that fits. */
  predicate NoFitFrom(h: Heap, asize: nat)
    requires WellFormed(h) && asize >= MIN_BLOCK
  {
    forall i :: BucketOf(asize) <= i < FREE_LIST_SIZE ==> NoFit(BucketSizes(h, i), asize)
  }

  /** `b` is the block find_fit picks: a listed block whose bucket is the
      first from the request's bucket upwards with a fit, and which is that
      bucket's first best entry. */
  predicate ChosenFit(h: Heap, asize: nat, b: nat)
    requires WellFormed(h) && asize >= MIN_BLOCK
  {
    && Listed(h, b)
    && var i := BucketOf(SizeAt(h.mem, b));
       && BucketOf(asize) <= i
       && (forall i' :: BucketOf(asize) <= i' < i ==> NoFit(BucketSizes(h, i'), asize))
       && FirstBest(BucketSizes(h, i), asize, IndexOf(h.lists[i], b))
  }

  /** Some free block of the heap holds `asize` bytes. */
  predicate SomeFit(h: Heap, asize: nat)
    requires HeapOk(h.mem)
  {
    exists c :: c in Blocks(h.mem) && !AllocAt(h.mem, c) && SizeAt(h.mem, c) >= asize
  }

  /** find_fit's `cur_fit` as written: the size_t difference of a block's
      size and the request, stored in a 32-bit int, which keeps its low 32
      bits read as two's complement. For sizes below 2^31 it is the exact
      difference. */
  function CurFitAsWritten(s: nat, asize: nat): (f: int)
    requires s < SIZE_T_MOD && asize < SIZE_T_MOD
    ensures -0x8000_0000 <= f < 0x8000_0000
    ensures s < 0x8000_0000 && asize < 0x8000_0000 ==> f == s - asize
  {
    var low := ((s - asize) % SIZE_T_MOD) % 0x1_0000_0000;
    if low >= 0x8000_0000 then low - 0x1_0000_0000 else low
  }

  /** A block more than 2^31 and less than 2^32 bytes short of the request
      reads as a positive fit. */
  lemma CurFitWraps(s: nat, asize: nat)
    requires s < asize < SIZE_T_MOD
    requires 0x8000_0000 < asize - s < 0x1_0000_0000
    ensures CurFitAsWritten(s, asize) == 0x1_0000_0000 - (asize - s) > 0
  {
    var d := asize - s;
    assert (s - asize) % SIZE_T_MOD == SIZE_T_MOD - d;
    assert (SIZE_T_MOD - d) % 0x1_0000_0000 == 0x1_0000_0000 - d;
  }

  /** A request of 3 GiB and a free 128 KiB block are both filed in the last
      bucket, so find_fit scans the block, and as written it reads as a fit
      of 1 GiB and 128 KiB: the block is chosen, and mm_malloc writes the
      tags of a 3 GiB block past the end of the heap. */
  lemma CurFitPicksSmallBlock()
    ensures BucketOf(0x2_0000) == BucketOf(0xC000_0000) == FREE_LIST_SIZE - 1
    ensures CurFitAsWritten(0x2_0000, 0xC000_0000) == 0x4002_0000
  {
    CurFitWraps(0x2_0000, 0xC000_0000);
  }

  /** The inner loop of find_fit over the sizes of one bucket: an exact fit
      ends the scan at once; otherwise a fit replaces the kept one only when
      it is strictly tighter. The result is an index into the bucket. */
  method ScanList(sizes: seq<nat>, asize: nat) returns (best: Option<nat>)
    ensures best.None? ==> NoFit(sizes, asize)
    ensures best.Some? ==> FirstBest(sizes, asize, best.value)
  {
    best := None;
    var bestFit: int := 999999999;
    var j := 0;
    while j < |sizes|
      invariant 0 <= j <= |sizes|
      invariant forall k :: 0 <= k < j ==> sizes[k] != asize
      invariant best.None? ==> NoFit(sizes[..j], asize)
      invariant best.Some? ==> best.value < j && sizes[best.value] >= asize
      invariant best.Some? ==> bestFit == sizes[best.value] - asize
      invariant best.Some? ==> forall k :: 0 <= k < j && sizes[k] >= asize ==> sizes[best.value] <= sizes[k]
      invariant best.Some? ==> forall k :: 0 <= k < best.value && sizes[k] >= asize ==> sizes[best.value] < sizes[k]
    {
      var curFit: int := sizes[j] - asize;
      if curFit == 0 {
        // an exact fit
        best := Some(j);
        bestFit := 0;
        break;
      } else if curFit > 0 {
        if best.None? || curFit < bestFit {
          best := Some(j);
          bestFit := curFit;
        }
      }
      j := j + 1;
    }
    if best.None? {
      assert sizes[..j] == sizes;
    }
  }

  /** find_fit(asize): the chosen block, unlinked from its list, or None
      when no bucket from the request's own upwards has a fit. */
  method FindFit(h: Heap, asize: nat) returns (r: Heap, found: Option<nat>)
    requires WellFormed(h)
    requires asize % 16 == 0 && asize >= MIN_BLOCK
    ensures found.None? ==> r == h && NoFitFrom(h, asize)
    ensures found.Some? ==> ChosenFit(h, asize, found.value)
    ensures found.Some? ==> r == RemoveFromFreeList(h, found.value).0
  {
    // the request's payload in words, (asize >> 3) - 2
    var idx := FreeListIndex(asize / 8 - 2);
    assert idx == BucketOf(asize);
    var i := idx;
    var best: Option<nat> := None;
    while i < FREE_LIST_SIZE
      invariant idx <= i <= FREE_LIST_SIZE
      invariant forall i' :: idx <= i' < i ==> NoFit(BucketSizes(h, i'), asize)
    {
      best := ScanList(BucketSizes(h, i), asize);
      if best.Some? {
        break;
      }
      i := i + 1;
    }
    if best.Some? && i < FREE_LIST_SIZE {
      var b := h.lists[i][best.value];
      BestIsListed(h, i, asize, best.value);
      r := RemoveFromFreeList(h, b).0;
      found := Some(b);
    } else {
      r := h;
      found := None;
    }
  }

  /** The entry a bucket scan keeps is a listed block filed in that bucket,
      and is its own first occurrence there. */
  lemma BestIsListed(h: Heap, i: nat, asize: nat, k: nat)
    requires WellFormed(h) && i < FREE_LIST_SIZE && k < |h.lists[i]|
    ensures var b := h.lists[i][k];
            && Listed(h, b) && BucketOf(SizeAt(h.mem, b)) == i && IndexOf(h.lists[i], b) == k
  {
    var L := h.lists[i];
    var b := L[k];
    assert EntryOk(h.mem, {}, i, b);
  }

  /** A free block of a well-formed heap sits in its bucket, at the index
      whose recorded size is its own. */
  lemma InBucket(h: Heap, c: nat)
    requires WellFormed(h) && c in Blocks(h.mem) && !AllocAt(h.mem, c)
    ensures SizeAt(h.mem, c) >= MIN_BLOCK
    ensures var i := BucketOf(SizeAt(h.mem, c));
            && c in h.lists[i]
            && BucketSizes(h, i)[IndexOf(h.lists[i], c)] == SizeAt(h.mem, c)
  {
  }

  /** find_fit finds nothing exactly when no free block of the heap is big
      enough: the buckets below the request's hold only smaller blocks. */
  lemma NoFitFromIff(h: Heap, asize: nat)
    requires WellFormed(h) && asize % 16 == 0 && asize >= MIN_BLOCK
    ensures NoFitFrom(h, asize) <==>
            forall c :: c in Blocks(h.mem) && !AllocAt(h.mem, c) ==> SizeAt(h.mem, c) < asize
  {
    if NoFitFrom(h, asize) {
      forall c | c in Blocks(h.mem) && !AllocAt(h.mem, c)
        ensures SizeAt(h.mem, c) < asize
      {
        InBucket(h, c);
        var i := BucketOf(SizeAt(h.mem, c));
        if BucketOf(asize) <= i {
          assert NoFit(BucketSizes(h, i), asize);
        } else {
          BucketOrder(SizeAt(h.mem, c), asize);
        }
      }
    } else {
      var i :| BucketOf(asize) <= i < FREE_LIST_SIZE && !NoFit(BucketSizes(h, i), asize);
      var k :| 0 <= k < |h.lists[i]| && BucketSizes(h, i)[k] >= asize;
      assert EntryOk(h.mem, {}, i, h.lists[i][k]);
    }
  }

  /** The block find_fit picks is a best fit over the whole heap: it fits,
      and no free block that fits is smaller. The buckets partition the
      sizes in increasing order, so the first bucket with a fit holds the
      smallest fitting sizes. */
  lemma ChosenIsBest(h: Heap, asize: nat, b: nat)
    requires WellFormed(h) && asize % 16 == 0 && asize >= MIN_BLOCK
    requires ChosenFit(h, asize, b)
    ensures b in Blocks(h.mem) && !AllocAt(h.mem, b) && SizeAt(h.mem, b) >= asize
    ensures forall c :: c in Blocks(h.mem) && !AllocAt(h.mem, c) && SizeAt(h.mem, c) >= asize ==>
              SizeAt(h.mem, b) <= SizeAt(h.mem, c)
  {
    var i := BucketOf(SizeAt(h.mem, b));
    var L := h.lists[i];
    var k := IndexOf(L, b);
    assert EntryOk(h.mem, {}, i, b);
    assert BucketSizes(h, i)[k] == SizeAt(h.mem, b);
    forall c | c in Blocks(h.mem) && !AllocAt(h.mem, c) && SizeAt(h.mem, c) >= asize
      ensures SizeAt(h.mem, b) <= SizeAt(h.mem, c)
    {
      InBucket(h, c);
      var ic := BucketOf(SizeAt(h.mem, c));
      var kc := IndexOf(h.lists[ic], c);
      FreeListIndexMonotone((asize - 16) / 8, (SizeAt(h.mem, c) - 16) / 8);
      Fits(BucketSizes(h, ic), asize, kc);
      assert i <= ic;
      if ic == i {
        assert BucketSizes(h, i)[k] <= BucketSizes(h, i)[kc];
      } else {
        BucketOrder(SizeAt(h.mem, b), SizeAt(h.mem, c));
      }
    }
  }
}

=== FILE: free.dfy ===
/** mm_free: an allocated block is retagged free, coalesced with its free
    neighbours, and the merged block is pushed on the list of its bucket. */
module Freeing {
  import opened Layout
  import opened Tiling
  import opened State
  import opened FreeLists
  import opened Coalescing

  /** mm_free's first step: the header and then the footer of bp are
      rewritten with the same size and the allocated bit cleared. */
  function MarkFree(h: Heap, bp: nat): (r: Heap)
    requires HeapOk(h.mem) && bp in Blocks(h.mem)
    ensures r.lists == h.lists && r.heapLength == h.heapLength && r.brkLimit == h.brkLimit
  {
    h.(mem := SetTags(h.mem, bp, SizeAt(h.mem, bp), false))
  }

  /** Marking a live block free leaves a heap whose one exempt block is bp,
      now free; the other blocks are untouched. */
  lemma MarkFreeKeeps(h: Heap, bp: nat)
    requires WellFormed(h) && Live(h.mem, bp)
    ensures var h1 := MarkFree(h, bp);
            && WellFormedExcept(h1, {bp})
            && bp in Blocks(h1.mem) && !AllocAt(h1.mem, bp)
            && SizeAt(h1.mem, bp) == SizeAt(h.mem, bp) >= MIN_BLOCK
            && (forall c :: Live(h1.mem, c) <==> Live(h.mem, c) && c != bp)
            && (forall c :: Live(h.mem, c) && c != bp ==> SameBlock(h.mem, h1.mem, c))
  {
    RetagBlockShape(h.mem, bp, false);
    RetagBlock(h, bp, false, {}, {bp});
  }

  /** The states mm_free passes through: after retagging, after coalescing. */
  lemma FreeSteps(h: Heap, bp: nat)
    requires WellFormed(h) && Live(h.mem, bp)
    ensures var h1 := MarkFree(h, bp);
            && WellFormedExcept(h1, {bp}) && bp in Blocks(h1.mem) && !AllocAt(h1.mem, bp)
            && var c := Coalesce(h1, bp);
            && WellFormedExcept(c.0, {c.1})
            && c.1 in Blocks(c.0.mem) && !AllocAt(c.0.mem, c.1)
            && SizeAt(c.0.mem, c.1) >= MIN_BLOCK
  {
    MarkFreeKeeps(h, bp);
    var h1 := MarkFree(h, bp);
    CoalesceKeeps(h1, bp);
    var c := Coalesce(h1, bp);
    MergedSize(h1.mem, c.0.mem, bp, c.1);
  }

  /** mm_free(ptr): a null pointer is ignored; otherwise the block is marked
      free, coalesced, and the merged block is filed in its bucket. */
  function Free(h: Heap, ptr: Option<nat>): (r: Heap)
    requires WellFormed(h)
    requires ptr.Some? ==> Live(h.mem, ptr.value)
    ensures r.heapLength == h.heapLength && r.brkLimit == h.brkLimit && |r.mem| == |h.mem|
  {
    if ptr.None? then h
    else
      var bp := ptr.value;
      FreeSteps(h, bp);
      var c := Coalesce(MarkFree(h, bp), bp);
      AddKeeps(c.0, c.1, {c.1});
      AddToFreeList(c.0, c.1)
  }

  /** After mm_free, the block that holds the freed payload. */
  function FreedBlock(h: Heap, bp: nat): nat
    requires WellFormed(h) && Live(h.mem, bp)
  {
    FreeSteps(h, bp);
    Coalesce(MarkFree(h, bp), bp).1
  }

  /** What mm_free does to the allocated blocks: bp is no longer one, and
      every other allocated block keeps all its words. */
  lemma FreeLive(h: Heap, bp: nat)
    requires WellFormed(h) && Live(h.mem, bp)
    ensures var m := Free(h, Some(bp)).mem;
            && HeapOk(m)
            && (forall c :: Live(m, c) <==> Live(h.mem, c) && c != bp)
            && (forall c :: Live(h.mem, c) && c != bp ==> SameBlock(h.mem, m, c))
  {
    MarkFreeKeeps(h, bp);
    var h1 := MarkFree(h, bp);
    CoalesceKeeps(h1, bp);
    var c := Coalesce(h1, bp);
    MergedLive(h1.mem, c.0.mem, bp, c.1);
    assert Free(h, Some(bp)).mem == c.0.mem;
    forall d: nat | Live(h.mem, d) && d != bp
      ensures SameBlock(h.mem, c.0.mem, d)
    {
      SameBlockTrans(h.mem, h1.mem, c.0.mem, d);
    }
  }

  /** mm_free keeps the invariant, and the freed payload ends up inside a
      free block filed in its bucket that covers all of bp's words. */
  lemma FreeKeeps(h: Heap, ptr: Option<nat>)
    requires WellFormed(h)
    requires ptr.Some? ==> Live(h.mem, ptr.value)
    ensures WellFormed(Free(h, ptr))
    ensures ptr.None? ==> Free(h, ptr) == h
    ensures ptr.Some? ==>
              var r, bp, nb := Free(h, ptr), ptr.value, FreedBlock(h, ptr.value);
              && Listed(r, nb) && !AllocAt(r.mem, nb)
              && nb <= bp && NextBlkp(h.mem, bp) <= NextBlkp(r.mem, nb)
  {
    if ptr.Some? {
      var bp := ptr.value;
      FreeSteps(h, bp);
      MarkFreeKeeps(h, bp);
      var h1 := MarkFree(h, bp);
      CoalesceKeeps(h1, bp);
      var c := Coalesce(h1, bp);
      AddKeeps(c.0, c.1, {c.1});
      assert {c.1} - {c.1} == {};
    }
  }
}

=== FILE: freelists.dfy ===
/** add_to_free_list and remove_from_free_list: pushing a block on the head
    of its bucket's list, and unlinking a block from the list its current
    size selects. */
module FreeLists {
  import opened Layout
  import opened SizeClass
  import opened Tiling
  import opened State

  /** Position of the first occurrence of `x` in `s`. */
  function IndexOf(s: seq<nat>, x: nat): (k: nat)
    requires x in s
    ensures k < |s| && s[k] == x
    ensures forall j :: 0 <= j < k ==> s[j] != x
  {
    if s[0] == x then 0 else 1 + IndexOf(s[1..], x)
  }

  /** The list walk of remove_from_free_list: `s` with its first `x`
      unlinked, or `s` itself when `x` does not occur. */
  function RemoveFirst(s: seq<nat>, x: nat): (r: seq<nat>)
    ensures x !in s ==> r == s
  {
    if |s| == 0 then []
    else
      assert s == [s[0]] + s[1..];
      if s[0] == x then s[1..]
      else [s[0]] + RemoveFirst(s[1..], x)
  }

  /** Unlinking takes exactly one `x` out of the list, when there is one,
      and leaves every other entry. */
  lemma {:induction false} RemoveFirstCount(s: seq<nat>, x: nat)
    ensures multiset(RemoveFirst(s, x)) == multiset(s) - multiset{x}
  {
    if |s| > 0 {
      assert s == [s[0]] + s[1..];
      RemoveFirstCount(s[1..], x);
    }
  }

  /** Unlinking shifts the entries after the first `x` down by one. */
  lemma {:induction false} RemoveFirstAt(s: seq<nat>, x: nat)
    requires x in s
    ensures |RemoveFirst(s, x)| == |s| - 1
    ensures forall j :: 0 <= j < IndexOf(s, x) ==> RemoveFirst(s, x)[j] == s[j]
    ensures forall j :: IndexOf(s, x) <= j < |s| - 1 ==> RemoveFirst(s, x)[j] == s[j + 1]
  {
    if s[0] != x {
      var t := s[1..];
      RemoveFirstAt(t, x);
      assert RemoveFirst(s, x) == [s[0]] + RemoveFirst(t, x);
    }
  }

  /** Unlinking splices the list around the first occurrence of `x`. */
  lemma RemoveFirstSplice(s: seq<nat>, x: nat)
    requires x in s
    ensures RemoveFirst(s, x) == s[..IndexOf(s, x)] + s[IndexOf(s, x) + 1..]
  {
    RemoveFirstAt(s, x);
    var k := IndexOf(s, x);
    var r, t := RemoveFirst(s, x), s[..k] + s[k + 1..];
    assert |r| == |t|;
    forall j | 0 <= j < |r|
      ensures r[j] == t[j]
    {
      if j < k {
        assert t[j] == s[j];
      } else {
        assert t[j] == s[j + 1];
      }
    }
  }

  /** Unlinking from a list without repeats removes `x` altogether. */
  lemma NoDupRemove(s: seq<nat>, x: nat)
    requires NoDup(s)
    ensures NoDup(RemoveFirst(s, x)) && x !in RemoveFirst(s, x)
  {
    if x in s {
      var k := IndexOf(s, x);
      RemoveFirstSplice(s, x);
      var r := RemoveFirst(s, x);
      RemoveFirstAt(s, x);
      forall a, b | 0 <= a < b < |r| ensures r[a] != r[b] {
        var a2 := if a < k then a else a + 1;
        var b2 := if b < k then b else b + 1;
        assert r[a] == s[a2] && r[b] == s[b2] && a2 < b2;
      }
      forall j | 0 <= j < |r| ensures r[j] != x {
        var j2 := if j < k then j else j + 1;
        assert r[j] == s[j2] && j2 != k;
      }
    }
  }

  /** add_to_free_list(bp): the block's header must say free, its bucket is
      computed from its size, and it must not already be the head of that
      list; it becomes the new head. */
  function AddToFreeList(h: Heap, bp: nat): (r: Heap)
    requires 1 <= bp <= |h.mem| && |h.lists| == FREE_LIST_SIZE
    requires !AllocAt(h.mem, bp)
    requires SizeAt(h.mem, bp) > DSIZE
    requires h.lists[BucketOf(SizeAt(h.mem, bp))] == [] || h.lists[BucketOf(SizeAt(h.mem, bp))][0] != bp
    ensures r.mem == h.mem && |r.lists| == FREE_LIST_SIZE
    ensures var i := BucketOf(SizeAt(h.mem, bp));
            && 0 <= i < FREE_LIST_SIZE && |r.lists[i]| == |h.lists[i]| + 1
            && r.lists[i][0] == bp && r.lists[i][1..] == h.lists[i]
            && forall j :: 0 <= j < FREE_LIST_SIZE && j != i ==> r.lists[j] == h.lists[j]
  {
    var i := BucketOf(SizeAt(h.mem, bp));
    h.(lists := h.lists[i := [bp] + h.lists[i]])
  }

  /** remove_from_free_list(bp): walks the list of the bucket that bp's
      header selects; returns bp when it was found and unlinked, NULL
      (None) when it was not on that list. */
  function RemoveFromFreeList(h: Heap, bp: nat): (r: (Heap, Option<nat>))
    requires 1 <= bp <= |h.mem| && |h.lists| == FREE_LIST_SIZE
    requires SizeAt(h.mem, bp) > DSIZE
    ensures r.0.mem == h.mem && |r.0.lists| == FREE_LIST_SIZE
    ensures r.1 == Some(bp) || r.1 == None
    ensures var i := BucketOf(SizeAt(h.mem, bp));
            && 0 <= i < FREE_LIST_SIZE
            && (r.1.Some? <==> bp in h.lists[i])
            && (r.1.None? ==> r.0 == h)
            && (r.1.Some? ==> multiset(r.0.lists[i]) == multiset(h.lists[i]) - multiset{bp})
            && forall j :: 0 <= j < FREE_LIST_SIZE && j != i ==> r.0.lists[j] == h.lists[j]
  {
    var i := BucketOf(SizeAt(h.mem, bp));
    var s := h.lists[i];
    if bp in s then
      RemoveFirstCount(s, bp);
      (h.(lists := h.lists[i := RemoveFirst(s, bp)]), Some(bp))
    else (h, None)
  }

  /** Retagging a run whose only new exempt block is `s`, then listing
      `s`: the invariant holds with no exemption. */
  lemma ReshapeAdd(mem: seq<nat>, m: seq<nat>, L: seq<seq<nat>>, X: set<nat>, lo: nat, hi: nat, s: nat, i: int)
    requires HeapOk(mem) && HeapOk(m)
    requires ListsOk(mem, L, X) && MinSizeOk(mem, X)
    requires forall c :: c in Blocks(m) && (c < lo || hi <= c) ==> c in Blocks(mem)
    requires forall c :: c in Blocks(mem) && (c < lo || hi <= c) ==> c in Blocks(m) && m[c - 1] == mem[c - 1]
    requires forall c :: c in Blocks(mem) && lo <= c < hi ==> c in X || AllocAt(mem, c)
    requires forall c :: c in Blocks(mem) && (c < lo || hi <= c) ==> (c in {s} <==> c in X)
    requires forall c :: c in Blocks(m) && lo <= c < hi ==> c in {s} || (AllocAt(m, c) && SizeAt(m, c) >= MIN_BLOCK)
    requires s in Blocks(m) && !AllocAt(m, s) && SizeAt(m, s) >= MIN_BLOCK
    requires i == BucketOf(SizeAt(m, s))
    ensures 0 <= i < |L| == FREE_LIST_SIZE
    ensures ListsOk(m, L[i := [s] + L[i]], {}) && MinSizeOk(m, {})
  {
    Reshape(mem, m, L, X, {s}, lo, hi);
    AddListsOk(m, L, s, i);
  }

  /** A rewrite of the run [lo, hi) in place whose old blocks were
      allocated or exempt, and whose new blocks are allocated (and big
      enough) except for one free block `s`, big enough to be listed. */
  ghost predicate AddRun(mem: seq<nat>, m: seq<nat>, lo: nat, hi: nat, X: set<nat>, s: nat)
    requires HeapOk(mem)
  {
    && lo in Blocks(mem) && (hi in Blocks(mem) || hi == |mem|) && lo < hi
    && DiffersOnlyIn(mem, m, lo - 1, hi - 1)
    && Tiles(m, lo, hi)
    && (forall c :: c in Blocks(mem) && lo <= c < hi ==> c in X || AllocAt(mem, c))
    && lo <= s < hi && s in BlocksIn(m, lo, hi)
    && (forall c :: c in BlocksIn(m, lo, hi) ==> c == s || (AllocAt(m, c) && SizeAt(m, c) >= MIN_BLOCK))
    && !AllocAt(m, s) && SizeAt(m, s) >= MIN_BLOCK
  }

  /** Retag for a rewrite that leaves one free block `s` to be listed,
      followed by listing it: the heap is well formed. */
  lemma RetagAdd(h: Heap, m: seq<nat>, lo: nat, hi: nat, X: set<nat>, s: nat, i: int)
    requires WellFormedExcept(h, X)
    requires AddRun(h.mem, m, lo, hi, X, s)
    requires forall c :: c in Blocks(h.mem) && (c < lo || hi <= c) ==> c !in X
    requires i == BucketOf(SizeAt(m, s))
    ensures 0 <= i < |h.lists| == FREE_LIST_SIZE
    ensures WellFormed(h.(mem := m, lists := h.lists[i := [s] + h.lists[i]]))
  {
    var mem := h.mem;
    RetagShape(mem, m, lo, hi);
    ReshapeAdd(mem, m, h.lists, X, lo, hi, s, i);
  }

  /** RetagAdd for a rewrite of the one exempt block `bp` alone, giving the
      heap `r` that carries the rewritten arena and the extended list. */
  lemma RetagAddOne(h: Heap, r: Heap, bp: nat, s: nat, size: nat, i: int)
    requires WellFormedExcept(h, {bp}) && bp in Blocks(h.mem)
    requires AddRun(h.mem, r.mem, bp, NextBlkp(h.mem, bp), {bp}, s)
    requires SizeAt(r.mem, s) == size >= MIN_BLOCK && i == BucketOf(size)
    requires r.heapLength == h.heapLength && r.brkLimit == h.brkLimit
    requires 0 <= i < FREE_LIST_SIZE && r.lists == h.lists[i := [s] + h.lists[i]]
    ensures WellFormed(r)
  {
    RetagAdd(h, r.mem, bp, NextBlkp(h.mem, bp), {bp}, s, i);
    Updated(r, h, r.mem, r.lists);
    SameWellFormed(h.(mem := r.mem, lists := r.lists), r);
  }

  /** The list conditions alone: listing the one exempt block at the head
      of its bucket clears the exemption. */
  lemma AddListsOk(m: seq<nat>, L: seq<seq<nat>>, s: nat, i: int)
    requires HeapOk(m) && ListsOk(m, L, {s}) && MinSizeOk(m, {s})
    requires s in Blocks(m) && !AllocAt(m, s) && SizeAt(m, s) >= MIN_BLOCK
    requires i == BucketOf(SizeAt(m, s))
    ensures 0 <= i < |L| == FREE_LIST_SIZE
    ensures ListsOk(m, L[i := [s] + L[i]], {}) && MinSizeOk(m, {})
  {
    PushListsOk(m, L, {s}, s);
    assert {s} - {s} == {};
  }

  /** Pushing an exempt free block on the list of its bucket: it was on no
      list, and the lists agree with the tags with it no longer exempt. */
  lemma PushListsOk(mem: seq<nat>, L: seq<seq<nat>>, X: set<nat>, bp: nat)
    requires HeapOk(mem) && ListsOk(mem, L, X) && MinSizeOk(mem, X)
    requires bp in X && bp in Blocks(mem) && !AllocAt(mem, bp) && SizeAt(mem, bp) > DSIZE
    ensures var i := BucketOf(SizeAt(mem, bp));
            && 0 <= i < |L| && bp !in L[i]
            && ListsOk(mem, L[i := [bp] + L[i]], X - {bp}) && MinSizeOk(mem, X - {bp})
  {
    var i := BucketOf(SizeAt(mem, bp));
    assert bp !in L[i];
    var R := L[i := [bp] + L[i]];
    forall j, b | 0 <= j < |R| && b in R[j]
      ensures EntryOk(mem, X - {bp}, j, b)
    {
      if b != bp {
        assert b in L[j];
        assert EntryOk(mem, X, j, b);
      }
    }
    forall j | 0 <= j < |R|
      ensures NoDup(R[j])
    {
      if j == i {
        assert NoDup(L[i]);
        forall k | 0 <= k < |L[i]| ensures L[i][k] != bp { assert L[i][k] in L[i]; }
      }
    }
    forall b | b in Blocks(mem) && !AllocAt(mem, b) && b !in X - {bp}
      ensures SizeAt(mem, b) > DSIZE && b in R[BucketOf(SizeAt(mem, b))]
    {
      if b != bp {
        assert b in L[BucketOf(SizeAt(mem, b))];
      }
    }
    assert SizeAt(mem, bp) >= MIN_BLOCK;
  }

  /** Listing an exempt free block ends its exemption. */
  lemma AddKeeps(h: Heap, bp: nat, X: set<nat>)
    requires WellFormedExcept(h, X)
    requires bp in X && bp in Blocks(h.mem) && !AllocAt(h.mem, bp) && SizeAt(h.mem, bp) > DSIZE
    ensures h.lists[BucketOf(SizeAt(h.mem, bp))] == [] || h.lists[BucketOf(SizeAt(h.mem, bp))][0] != bp
    ensures WellFormedExcept(AddToFreeList(h, bp), X - {bp})
    ensures Listed(AddToFreeList(h, bp), bp)
  {
    PushListsOk(h.mem, h.lists, X, bp);
  }

  /** After unlinking `bp` from list `i`, every remaining entry is still a
      proper entry, now with `bp` exempt too. */
  lemma RemovedEntries(mem: seq<nat>, L: seq<seq<nat>>, X: set<nat>, i: nat, bp: nat)
    requires HeapOk(mem) && ListsOk(mem, L, X) && i < |L| && bp in L[i]
    ensures var L2 := L[i := RemoveFirst(L[i], bp)];
            forall j, b :: 0 <= j < |L2| && b in L2[j] ==> EntryOk(mem, X + {bp}, j, b)
  {
    var L2 := L[i := RemoveFirst(L[i], bp)];
    NoDupRemove(L[i], bp);
    RemoveFirstCount(L[i], bp);
    forall j, b | 0 <= j < |L2| && b in L2[j]
      ensures EntryOk(mem, X + {bp}, j, b)
    {
      if j == i {
        assert b in multiset(L2[i]);
        assert b in L[i];
      }
      assert EntryOk(mem, X, j, b);
      assert EntryOk(mem, X, i, bp);
    }
  }

  /** Unlinking a listed block finds it and makes it exempt. */
  lemma RemoveKeeps(h: Heap, bp: nat, X: set<nat>)
    requires WellFormedExcept(h, X)
    requires Listed(h, bp)
    ensures RemoveFromFreeList(h, bp).1 == Some(bp)
    ensures WellFormedExcept(RemoveFromFreeList(h, bp).0, X + {bp})
    ensures forall j :: 0 <= j < FREE_LIST_SIZE ==> bp !in RemoveFromFreeList(h, bp).0.lists[j]
  {
    var i := BucketOf(SizeAt(h.mem, bp));
    var r := RemoveFromFreeList(h, bp).0;
    assert r.lists == h.lists[i := RemoveFirst(h.lists[i], bp)];
    NoDupRemove(h.lists[i], bp);
    RemoveFirstCount(h.lists[i], bp);
    RemovedEntries(h.mem, h.lists, X, i, bp);
    forall b | b in Blocks(h.mem) && !AllocAt(h.mem, b) && b !in X + {bp}
      ensures b in r.lists[BucketOf(SizeAt(h.mem, b))]
    {
      var k := BucketOf(SizeAt(h.mem, b));
      assert b in h.lists[k];
      if k == i {
        assert multiset(r.lists[i])[b] == multiset(h.lists[i])[b] > 0;
      }
    }
    assert forall j :: 0 <= j < FREE_LIST_SIZE ==> bp !in r.lists[j];
  }

  /** Pushing a block and unlinking it again restores the lists. */
  lemma AddThenRemove(h: Heap, bp: nat)
    requires 1 <= bp <= |h.mem| && |h.lists| == FREE_LIST_SIZE
    requires !AllocAt(h.mem, bp) && SizeAt(h.mem, bp) > DSIZE
    requires h.lists[BucketOf(SizeAt(h.mem, bp))] == [] || h.lists[BucketOf(SizeAt(h.mem, bp))][0] != bp
    ensures RemoveFromFreeList(AddToFreeList(h, bp), bp) == (h, Some(bp))
  {
    var i := BucketOf(SizeAt(h.mem, bp));
    var a := AddToFreeList(h, bp);
    assert a.lists[i] == [bp] + h.lists[i];
    assert ([bp] + h.lists[i])[1..] == h.lists[i];
    assert a.lists[i := h.lists[i]] == h.lists;
  }

  /** Unlinking a listed block and pushing it back gives each list the same
      blocks: only the position of `bp` in its list changes. */
  lemma RemoveThenAdd(h: Heap, bp: nat, X: set<nat>)
    requires WellFormedExcept(h, X)
    requires Listed(h, bp)
    ensures var r := RemoveFromFreeList(h, bp).0;
            && (r.lists[BucketOf(SizeAt(r.mem, bp))] == [] || r.lists[BucketOf(SizeAt(r.mem, bp))][0] != bp)
            && forall j :: 0 <= j < FREE_LIST_SIZE ==>
                 multiset(AddToFreeList(r, bp).lists[j]) == multiset(h.lists[j])
  {
    RemoveKeeps(h, bp, X);
    var i := BucketOf(SizeAt(h.mem, bp));
    var r := RemoveFromFreeList(h, bp).0;
    RemoveFirstCount(h.lists[i], bp);
    assert bp !in r.lists[i];
    assert r.lists[i] == [] || r.lists[i][0] in r.lists[i];
    var a := AddToFreeList(r, bp);
    forall j | 0 <= j < FREE_LIST_SIZE
      ensures multiset(a.lists[j]) == multiset(h.lists[j])
    {
      if j == i {
        assert a.lists[i] == [bp] + RemoveFirst(h.lists[i], bp);
        assert bp in multiset(h.lists[i]);
      }
    }
  }
}

=== FILE: init.dfy ===
/** mm_init: one growth request for the whole initial heap, laid out as the
    prologue word, a single free block spanning heap_length words of payload
    plus its two tags, and the epilogue word. */
module Initialising {
  import opened Layout
  import opened SizeClass
  import opened Tiling
  import opened State
  import opened FreeLists
  import opened Extending

  /** Fifteen empty free lists, as the loop in mm_init leaves them. */
  function EmptyLists(): (L: seq<seq<nat>>)
    ensures |L| == FREE_LIST_SIZE && forall i :: 0 <= i < FREE_LIST_SIZE ==> L[i] == []
  {
    seq(FREE_LIST_SIZE, _ => [])
  }

  /** The size of the first block for a heap_length of `len` words: the
      payload words and the two tags, in bytes. */
  function FirstSize(len: nat): (size: nat)
    requires len % 2 == 0 && len >= 2
    ensures size % 16 == 0 && size >= MIN_BLOCK && size / 8 == len + 2
  {
    var q := len / 2;
    assert len == 2 * q;
    len * WSIZE + DSIZE
  }

  /** The `len + 4` fresh words with the prologue, the first block's header
      and footer, and the epilogue written into them. */
  function InitMem(len: nat): (m: seq<nat>)
    requires len % 2 == 0 && len >= 2
    ensures |m| == len + 4
  {
    var size := FirstSize(len);
    var m0 := FreshWords(len + 4)[0 := 1];
    var m1 := SetTags(m0, HEAP_START, size, false);
    m1[len + 3 := 1]
  }

  /** mm_init with the global heap_length at `len` words: None (the -1
      return) when the memory system cannot supply `len + 4` words;
      otherwise the heap with its one free block on its list and
      heap_length grown by the two tag words. */
  function Init(len: nat, brkLimit: nat): (r: Option<Heap>)
    requires len % 2 == 0 && len >= 2
    requires brkLimit <= MAX_HEAP_WORDS
  {
    if len + 4 > brkLimit then
      None
    else
      var h0 := Heap(InitMem(len), EmptyLists(), len + 2, brkLimit);
      InitShape(len);
      Some(AddToFreeList(h0, HEAP_START))
  }

  /** The initial arena is in shape and holds exactly one block: free,
      spanning everything between the prologue and the epilogue. */
  lemma InitShape(len: nat)
    requires len % 2 == 0 && len >= 2
    ensures var m := InitMem(len);
            && HeapOk(m) && Blocks(m) == [HEAP_START]
            && !AllocAt(m, HEAP_START) && SizeAt(m, HEAP_START) == FirstSize(len)
  {
    var m := InitMem(len);
    var size := FirstSize(len);
    assert m[HEAP_START - 1] == Pack(size, false);
    assert m[HEAP_START + size / 8 - 2] == Pack(size, false);
    WrittenBlock(m, HEAP_START, size, false);
  }

  /** mm_init fails exactly when the memory system cannot supply the words;
      otherwise the heap satisfies the invariant, its only block is the free
      block of `8 * len + 16` bytes, listed alone in its bucket with every
      other list empty, nothing is allocated, and heap_length has grown by
      two. */
  lemma InitKeeps(len: nat, brkLimit: nat)
    requires len % 2 == 0 && len >= 2
    requires brkLimit <= MAX_HEAP_WORDS
    ensures Init(len, brkLimit).None? <==> len + 4 > brkLimit
    ensures Init(len, brkLimit).Some? ==>
              var h := Init(len, brkLimit).value;
              var i := BucketOf(8 * len + DSIZE);
              && WellFormed(h)
              && h.heapLength == len + 2
              && Blocks(h.mem) == [HEAP_START]
              && !AllocAt(h.mem, HEAP_START) && SizeAt(h.mem, HEAP_START) == 8 * len + DSIZE
              && 0 <= i < FREE_LIST_SIZE && h.lists[i] == [HEAP_START]
              && (forall j :: 0 <= j < FREE_LIST_SIZE && j != i ==> h.lists[j] == [])
              && (forall c :: !Live(h.mem, c))
  {
    if len + 4 <= brkLimit {
      InitShape(len);
      var h0 := Heap(InitMem(len), EmptyLists(), len + 2, brkLimit);
      assert WellFormedExcept(h0, {HEAP_START});
      AddKeeps(h0, HEAP_START, {HEAP_START});
      assert {HEAP_START} - {HEAP_START} == {};
    }
  }

  /** With heap_length at its initial value CHUNKSIZE, the first block's
      payload is exactly LARGEST_FIT_SIZE words, so it lands in the second
      last bucket, free_lists[13]. */
  lemma InitialBucket(brkLimit: nat)
    requires CHUNKSIZE + 4 <= brkLimit <= MAX_HEAP_WORDS
    ensures Init(CHUNKSIZE, brkLimit).Some?
    ensures Init(CHUNKSIZE, brkLimit).value.lists[FREE_LIST_SIZE - 2] == [HEAP_START]
  {
    InitKeeps(CHUNKSIZE, brkLimit);
    PowerOfTwoBucket(13);
    Pow2Thirteen();
  }
}

=== FILE: layout.dfy ===
/** Boundary-tag layout of the allocator's arena.

    The arena is a sequence of 8-byte words indexed from the start of the
    region that the first growth request returned. A block pointer `bp` is
    the word offset of the block's first payload word; its header is the word
    before it and its footer is the last word of the block. Sizes are kept in
    bytes, exactly as the tags store them, so a block of `size` bytes spans
    `size / 8` words. */
module Layout {

  datatype Option<T> = None | Some(value: T)

  /** Word and double-word size of a 64-bit target, and the initial heap size.
      Divisions and remainders below are written with the numerals 8 and 16
      so that the solver sees division by a constant. */
  const WSIZE: nat := 8
  const DSIZE: nat := 16
  const CHUNKSIZE: nat := 8192

  /** The smallest block that can carry a header, a footer and a list link. */
  const MIN_BLOCK: nat := 2 * DSIZE

  /** heap_listp after initialisation: the payload of the first block, two
      words above the prologue word. */
  const HEAP_START: nat := 2

  /** The most words the memory system hands out: 2^31 bytes. Every size
      and word count of such an arena fits the 32-bit `int` and `unsigned
      int` variables the allocator keeps them in. */
  const MAX_HEAP_WORDS: nat := 0x1000_0000

  /** size_t is 64 bits wide: its arithmetic is modulo this. */
  const SIZE_T_MOD: nat := 0x1_0000_0000_0000_0000

  /** A word holding the size and the allocated bit; the size is a multiple of
      DSIZE, so its low four bits are free and OR-ing the bit in is addition. */
  function Pack(size: nat, alloc: bool): (w: nat)
    requires size % 16 == 0
    ensures GetSize(w) == size
    ensures IsAlloc(w) == alloc
  {
    var a := if alloc then 1 else 0;
    var q := size / 16;
    assert size == 16 * q;
    assert (size + a) / 16 == q;
    assert (size + a) % 16 == a;
    assert (size + a) / 2 == 8 * q;
    size + a
  }

  /** The size field: the word with its low four bits cleared. */
  function GetSize(w: nat): (size: nat)
    ensures size % 16 == 0
    ensures size <= w < size + DSIZE
  {
    w - w % 16
  }

  /** The allocated bit: the lowest bit of the word. */
  predicate IsAlloc(w: nat) {
    w % 2 == 1
  }

  /** Word index of the header of the block at `bp`. */
  function Hdrp(bp: nat): int {
    bp - 1
  }

  /** Word index of the footer of the block at `bp`, computed from its header. */
  function Ftrp(mem: seq<nat>, bp: nat): int
    requires 1 <= bp <= |mem|
  {
    bp + GetSize(mem[bp - 1]) / 8 - 2
  }

  /** The block that follows `bp` in address order, found through its header. */
  function NextBlkp(mem: seq<nat>, bp: nat): nat
    requires 1 <= bp <= |mem|
  {
    bp + GetSize(mem[bp - 1]) / 8
  }

  /** The block that precedes `bp` in address order, found through the
      footer that sits just below `bp`'s header. */
  function PrevBlkp(mem: seq<nat>, bp: nat): int
    requires 2 <= bp <= |mem| + 1
  {
    bp - GetSize(mem[bp - 2]) / 8
  }

  /** Size in bytes recorded in the header of the block at `bp`. */
  function SizeAt(mem: seq<nat>, bp: nat): nat
    requires 1 <= bp <= |mem|
  {
    GetSize(mem[bp - 1])
  }

  /** Allocated bit recorded in the header of the block at `bp`. */
  predicate AllocAt(mem: seq<nat>, bp: nat)
    requires 1 <= bp <= |mem|
  {
    IsAlloc(mem[bp - 1])
  }

  /** Writes a header and a footer for a block of `size` bytes at `bp`; the
      footer address is taken from the freshly written header, as FTRP does. */
  function SetTags(mem: seq<nat>, bp: nat, size: nat, alloc: bool): (m: seq<nat>)
    requires size % 16 == 0 && size >= DSIZE
    requires 1 <= bp && bp + size / 8 - 2 < |mem|
    ensures |m| == |mem|
    ensures m[bp - 1] == Pack(size, alloc) && Ftrp(m, bp) == bp + size / 8 - 2
    ensures m[Ftrp(m, bp)] == Pack(size, alloc)
    ensures forall i :: 0 <= i < |mem| && i != bp - 1 && i != bp + size / 8 - 2 ==> m[i] == mem[i]
  {
    var m1 := mem[bp - 1 := Pack(size, alloc)];
    m1[Ftrp(m1, bp) := Pack(size, alloc)]
  }

  /** `m` equals `mem` except possibly at word indices in [lo, hi). */
  predicate DiffersOnlyIn(mem: seq<nat>, m: seq<nat>, lo: int, hi: int) {
    |m| == |mem| && forall i :: 0 <= i < |mem| && (i < lo || hi <= i) ==> m[i] == mem[i]
  }

  /** Sizes that are multiples of DSIZE add up in words as they do in bytes. */
  lemma WordsAdd(a: nat, b: nat)
    requires a % 16 == 0 && b % 16 == 0
    ensures (a + b) % 16 == 0 && (a + b) / 8 == a / 8 + b / 8
  {
    var p, q := a / 16, b / 16;
    assert a == 16 * p && b == 16 * q;
    assert a / 8 == 2 * p && b / 8 == 2 * q;
    assert a + b == 16 * (p + q) && (a + b) / 8 == 2 * (p + q);
  }

  /** A multiple of DSIZE is a whole, even number of words. */
  lemma WholeWords(x: nat)
    requires x % 16 == 0
    ensures x == 8 * (x / 8) && (x / 8) % 2 == 0
  {
    var p := x / 16;
    assert x == 16 * p;
    assert x / 8 == 2 * p;
  }

  function Min(a: int, b: int): int {
    if a < b then a else b
  }

  function Max(a: int, b: int): int {
    if a > b then a else b
  }
}

=== FILE: realloc.dfy ===
/** mm_realloc: resizing an allocated block in place when it shrinks or
    when the block after it is free and big enough, and otherwise moving
    the payload to a block from mm_malloc and freeing the old one.

    Two departures from the source as written, each kept beside its
    correction: the shrink guard `old_size - new_size < DSIZE` never fires,
    so a surplus of exactly DSIZE becomes a 16-byte free block with no
    bucket; and both in-place paths call place(), which clears the first
    payload word, user data that realloc must keep. The model's realloc
    keeps such a surplus in the block, as mm_malloc does, and retags the
    block without touching its payload. */
module Reallocating {
  import opened Layout
  import opened SizeClass
  import opened Tiling
  import opened State
  import opened FreeLists
  import opened Coalescing
  import opened Freeing
  import opened Fitting
  import opened Allocating

  /** mm_realloc's new_size: the rounding of mm_malloc's larger branch,
      applied to every size. For small sizes it still gives MIN_BLOCK, so
      realloc and malloc agree on the block a request needs. */
  function ReallocSize(size: nat): (n: nat)
    requires size > 0
    ensures n == AdjustSize(size)
  {
    DSIZE * ((size + DSIZE + (DSIZE - 1)) / DSIZE)
  }

  /** new_size as the C expression computes it: the sum wraps modulo 2^64.
      It is ReallocSize for every size but the last 31 values of size_t. */
  function ReallocSizeAsWritten(size: nat): (n: nat)
    requires 0 < size < SIZE_T_MOD
    ensures n % 16 == 0
    ensures size < SIZE_T_MOD - 31 ==> n == ReallocSize(size)
  {
    var sum := (size + DSIZE + (DSIZE - 1)) % SIZE_T_MOD;
    assert size < SIZE_T_MOD - 31 ==> sum == size + DSIZE + (DSIZE - 1);
    DSIZE * (sum / DSIZE)
  }

  /** As written, growing a block to one of the last 31 values of size_t
      asks for at most 16 bytes, less than any block: the shrink path is
      taken and the block is cut down, where the request cannot be met at
      all. */
  lemma ReallocSizeWraps(h: Heap, bp: nat, size: nat)
    requires WellFormed(h) && Live(h.mem, bp)
    requires SIZE_T_MOD - 31 <= size < SIZE_T_MOD
    ensures ReallocSizeAsWritten(size) <= DSIZE < MIN_BLOCK <= SizeAt(h.mem, bp)
    ensures SizeAt(h.mem, bp) < ReallocSize(size)
  {
    var t := size + DSIZE + (DSIZE - 1) - SIZE_T_MOD;
    assert 0 <= t < 31 && (size + DSIZE + (DSIZE - 1)) % SIZE_T_MOD == t;
    BlockBelow(h.mem, bp);
  }

  /** A request no arena can hold is neither met in place nor by mm_malloc:
      realloc is meant to return NULL and leave the block alone. */
  lemma OversizeReallocFails(h: Heap, bp: nat, size: nat)
    requires WellFormed(h) && Live(h.mem, bp) && size >= 8 * MAX_HEAP_WORDS
    ensures !InPlace(h, bp, size) && MallocFails(h, size)
  {
    OversizeFails(h, size);
    BlockBelow(h.mem, bp);
    Neighbours(h.mem, bp);
    if !NextAllocated(h.mem, bp) {
      assert NextBlkp(h.mem, bp) in Blocks(h.mem);
      var c := Combined(h.mem, bp);
      assert c < 8 * |h.mem|;
    }
  }

  // ---------------------------------------------------------------------
  // What realloc keeps

  /** The words holding the first min(size, old payload) bytes of a block
      of `oldSize` bytes: the bytes realloc must carry over. */
  function KeptWords(size: nat, oldSize: nat): (n: nat)
    requires oldSize >= DSIZE
    ensures 8 * n >= Min(size, oldSize - DSIZE) > 8 * n - 8
  {
    (Min(size, oldSize - DSIZE) + 7) / 8
  }

  /** The first `n` payload words of block `a` in `mem` are the first `n`
      payload words of block `b` in `m`. */
  ghost predicate Kept(mem: seq<nat>, m: seq<nat>, a: nat, b: nat, n: nat) {
    && a + n <= |mem| && b + n <= |m|
    && forall i :: b <= i < b + n ==> m[i] == mem[a + (i - b)]
  }

  /** What a successful realloc of block `a` to `size` bytes promises: `b`
      is allocated, it replaces `a` among the allocated blocks, every other
      allocated block keeps its words, and `b` starts with the bytes `a`
      held, up to the smaller of the two sizes. */
  ghost predicate Moved(mem: seq<nat>, m: seq<nat>, a: nat, b: nat, size: nat)
    requires HeapOk(mem) && HeapOk(m) && Live(mem, a)
  {
    && Live(m, b)
    && (forall c :: Live(m, c) <==> c == b || (Live(mem, c) && c != a))
    && (forall c :: Live(mem, c) && c != a ==> SameBlock(mem, m, c))
    && Kept(mem, m, a, b, KeptWords(size, SizeAt(mem, a)))
  }

  // ---------------------------------------------------------------------
  // Shrinking: the guard

  /** The surplus the shrink path splits off as a free block, with the guard
      as written: a surplus under DSIZE keeps the block whole. */
  function ShrinkTailAsWritten(oldSize: nat, newSize: nat): Option<nat>
    requires newSize < oldSize
  {
    if oldSize - newSize < DSIZE then None else Some(oldSize - newSize)
  }

  /** As written, the guard never keeps a block whole, since both sizes are
      multiples of DSIZE. Shrinking by exactly DSIZE -- malloc(48) gives a
      64-byte block, realloc to 32 bytes asks for 48 -- splits off a
      16-byte block, whose zero-word payload has bucket -1, an index below
      free_lists. */
  lemma SixteenByteTail(oldSize: nat, newSize: nat)
    requires oldSize % 16 == 0 && newSize % 16 == 0 && newSize < oldSize
    ensures ShrinkTailAsWritten(oldSize, newSize).Some?
    ensures oldSize - newSize == DSIZE ==> BucketOf(ShrinkTailAsWritten(oldSize, newSize).value) == -1
    ensures AdjustSize(48) == 64 && ReallocSize(32) == 48 && BucketOf(64 - 48) == -1
  {
    var p, q := oldSize / 16, newSize / 16;
    assert oldSize == 16 * p && newSize == 16 * q;
    assert oldSize - newSize == 16 * (p - q);
  }

  /** The corrected guard: a surplus under a minimum block stays in the
      block, as mm_malloc lets it. */
  function ShrinkTail(oldSize: nat, newSize: nat): Option<nat>
    requires newSize < oldSize
  {
    if oldSize - newSize < 2 * DSIZE then None else Some(oldSize - newSize)
  }

  /** With the corrected guard every tail split off can be listed, and a
      block kept whole is at most DSIZE over the request. */
  lemma ShrinkTailListable(oldSize: nat, newSize: nat)
    requires oldSize % 16 == 0 && newSize % 16 == 0 && newSize < oldSize
    ensures ShrinkTail(oldSize, newSize).Some? ==>
              var t := ShrinkTail(oldSize, newSize).value;
              t >= MIN_BLOCK && t % 16 == 0 && 0 <= BucketOf(t) < FREE_LIST_SIZE
    ensures ShrinkTail(oldSize, newSize).None? ==> oldSize - newSize == DSIZE
  {
    var p, q := oldSize / 16, newSize / 16;
    assert oldSize == 16 * p && newSize == 16 * q;
    assert oldSize - newSize == 16 * (p - q);
  }

  // ---------------------------------------------------------------------
  // Shrinking: the words

  /** The shrink as written: place() writes the head's tags and clears its
      first payload word, then the tail's tags are written. */
  function ShrinkMemAsWritten(mem: seq<nat>, bp: nat, asize: nat): (m: seq<nat>)
    requires 1 <= bp <= |mem| && NextBlkp(mem, bp) <= |mem|
    requires asize % 16 == 0 && asize >= MIN_BLOCK && SizeAt(mem, bp) > asize + DSIZE
    ensures |m| == |mem|
  {
    SplitFacts(mem, bp, asize);
    var m1 := Place(mem, bp, asize);
    SetTags(m1, bp + asize / 8, SizeAt(mem, bp) - asize, false)
  }

  /** The corrected shrink: the head's tags, then the tail's; the payload
      is left alone. */
  function ShrinkMem(mem: seq<nat>, bp: nat, asize: nat): (m: seq<nat>)
    requires 1 <= bp <= |mem| && NextBlkp(mem, bp) <= |mem|
    requires asize % 16 == 0 && asize >= MIN_BLOCK && SizeAt(mem, bp) > asize + DSIZE
    ensures |m| == |mem|
    ensures m[bp + asize / 8 - 1] == Pack(SizeAt(mem, bp) - asize, false)
  {
    SplitFacts(mem, bp, asize);
    var m1 := SetTags(mem, bp, asize, true);
    SetTags(m1, bp + asize / 8, SizeAt(mem, bp) - asize, false)
  }

  /** The corrected shrink writes a split's tags and keeps every payload
      word of the head. */
  lemma ShrinkWords(mem: seq<nat>, bp: nat, asize: nat)
    requires 1 <= bp <= |mem| && NextBlkp(mem, bp) <= |mem|
    requires asize % 16 == 0 && asize >= MIN_BLOCK && SizeAt(mem, bp) > asize + DSIZE
    ensures SplitWrites(mem, ShrinkMem(mem, bp, asize), bp, asize)
    ensures forall i :: bp <= i < bp + asize / 8 - 2 ==> ShrinkMem(mem, bp, asize)[i] == mem[i]
  {
    SplitFacts(mem, bp, asize);
  }

  /** As written, the shrink loses the first payload word whenever it held
      anything, although realloc must keep it for every request; the
      corrected shrink keeps it. */
  lemma ShrinkClearsFirstWord(mem: seq<nat>, bp: nat, asize: nat, size: nat)
    requires 1 <= bp <= |mem| && NextBlkp(mem, bp) <= |mem|
    requires asize % 16 == 0 && asize >= MIN_BLOCK && SizeAt(mem, bp) > asize + DSIZE
    requires size > 0 && ReallocSize(size) == asize && mem[bp] != 0
    ensures KeptWords(size, SizeAt(mem, bp)) >= 1
    ensures ShrinkMemAsWritten(mem, bp, asize)[bp] != mem[bp]
    ensures ShrinkMem(mem, bp, asize)[bp] == mem[bp]
  {
    SplitFacts(mem, bp, asize);
  }

  /** The corrected shrink as a heap operation: the tail is pushed on the
      list of its bucket. */
  function Shrink(h: Heap, bp: nat, asize: nat): (r: Heap)
    requires 1 <= bp <= |h.mem| && NextBlkp(h.mem, bp) <= |h.mem| && |h.lists| == FREE_LIST_SIZE
    requires asize % 16 == 0 && asize >= MIN_BLOCK && SizeAt(h.mem, bp) > asize + DSIZE
    requires forall i :: 0 <= i < FREE_LIST_SIZE ==> bp + asize / 8 !in h.lists[i]
    ensures r.heapLength == h.heapLength && r.brkLimit == h.brkLimit
    ensures r.mem == ShrinkMem(h.mem, bp, asize)
    ensures var i := BucketOf(SizeAt(h.mem, bp) - asize);
            0 <= i < FREE_LIST_SIZE && r.lists == h.lists[i := [bp + asize / 8] + h.lists[i]]
  {
    SplitFacts(h.mem, bp, asize);
    var m := ShrinkMem(h.mem, bp, asize);
    AddToFreeList(h.(mem := m), bp + asize / 8)
  }

  /** An allocated block of a well-formed heap may be taken as exempt. */
  lemma Exempt(h: Heap, bp: nat)
    requires WellFormed(h) && Live(h.mem, bp)
    ensures WellFormedExcept(h, {bp}) && bp in Blocks(h.mem)
  {
    forall i, b | 0 <= i < |h.lists| && b in h.lists[i]
      ensures EntryOk(h.mem, {bp}, i, b)
    {
      assert EntryOk(h.mem, {}, i, b);
    }
  }

  /** The shrink keeps the heap well formed: no list holds the word where
      the tail starts, and once the tail is listed nothing is exempt. */
  lemma ShrinkKeeps(h: Heap, bp: nat, asize: nat)
    requires WellFormedExcept(h, {bp}) && bp in Blocks(h.mem)
    requires asize % 16 == 0 && asize >= MIN_BLOCK && SizeAt(h.mem, bp) > asize + DSIZE
    ensures |h.lists| == FREE_LIST_SIZE && forall i :: 0 <= i < FREE_LIST_SIZE ==> bp + asize / 8 !in h.lists[i]
    ensures WellFormed(Shrink(h, bp, asize))
  {
    ShrinkWords(h.mem, bp, asize);
    SplitUnlisted(h, bp, asize);
    SplitRelist(h, Shrink(h, bp, asize), bp, asize);
  }

  /** The shrunk block is allocated with the new size, still holds every
      payload word it can, and the allocated blocks are as they were. */
  lemma ShrinkLive(mem: seq<nat>, bp: nat, asize: nat)
    requires HeapOk(mem) && Live(mem, bp)
    requires asize % 16 == 0 && asize >= MIN_BLOCK && SizeAt(mem, bp) > asize + DSIZE
    ensures var m := ShrinkMem(mem, bp, asize);
            && HeapOk(m) && Live(m, bp) && SizeAt(m, bp) == asize
            && (forall c :: Live(m, c) <==> Live(mem, c))
            && (forall c :: Live(mem, c) && c != bp ==> SameBlock(mem, m, c))
            && (forall i :: bp <= i < bp + asize / 8 - 2 ==> m[i] == mem[i])
  {
    var m := ShrinkMem(mem, bp, asize);
    ShrinkWords(mem, bp, asize);
    SplitTiles(mem, m, bp, asize);
    Neighbours(mem, bp);
    RunLive(mem, m, bp, NextBlkp(mem, bp));
  }

  // ---------------------------------------------------------------------
  // Growing in place over a free next block

  /** The combined size of a block and the block after it. */
  function Combined(mem: seq<nat>, bp: nat): (size: nat)
    requires HeapOk(mem) && bp in Blocks(mem) && NextBlkp(mem, bp) in Blocks(mem)
    ensures size % 16 == 0 && size >= DSIZE
    ensures bp + size / 8 == NextBlkp(mem, NextBlkp(mem, bp)) <= |mem|
  {
    PairRun(mem, bp);
    SizeAt(mem, bp) + SizeAt(mem, NextBlkp(mem, bp))
  }

  /** The in-place growth as written: place() over the combined size, which
      clears the first payload word. */
  function AbsorbMemAsWritten(mem: seq<nat>, bp: nat): (m: seq<nat>)
    requires HeapOk(mem) && bp in Blocks(mem) && NextBlkp(mem, bp) in Blocks(mem)
    requires SizeAt(mem, bp) >= MIN_BLOCK
    ensures |m| == |mem|
  {
    Place(mem, bp, Combined(mem, bp))
  }

  /** The corrected in-place growth: the tags of one allocated block over
      both, the payload left alone. */
  function AbsorbMem(mem: seq<nat>, bp: nat): (m: seq<nat>)
    requires HeapOk(mem) && bp in Blocks(mem) && NextBlkp(mem, bp) in Blocks(mem)
    ensures |m| == |mem|
  {
    SetTags(mem, bp, Combined(mem, bp), true)
  }

  /** As written, growing in place loses the first payload word whenever it
      held anything; the corrected growth keeps it. */
  lemma AbsorbClearsFirstWord(mem: seq<nat>, bp: nat, size: nat)
    requires HeapOk(mem) && bp in Blocks(mem) && NextBlkp(mem, bp) in Blocks(mem)
    requires SizeAt(mem, bp) >= MIN_BLOCK && size > 0 && mem[bp] != 0
    ensures KeptWords(size, SizeAt(mem, bp)) >= 1
    ensures AbsorbMemAsWritten(mem, bp)[bp] != mem[bp]
    ensures AbsorbMem(mem, bp)[bp] == mem[bp]
  {
    var size := Combined(mem, bp);
    assert bp < bp + size / 8 - 2;
  }

  /** The corrected in-place growth as a heap operation: the next block is
      unlinked first, then the block is retagged. */
  function Absorb(h: Heap, bp: nat): (r: Heap)
    requires WellFormed(h) && bp in Blocks(h.mem) && NextBlkp(h.mem, bp) in Blocks(h.mem)
    ensures r.heapLength == h.heapLength && r.brkLimit == h.brkLimit
  {
    RemoveFromFreeList(h, NextBlkp(h.mem, bp)).0.(mem := AbsorbMem(h.mem, bp))
  }

  /** The words of the grown block: both new tags, nothing else changed,
      and one allocated block spanning both old ones. */
  lemma AbsorbShape(mem: seq<nat>, bp: nat)
    requires HeapOk(mem) && bp in Blocks(mem) && NextBlkp(mem, bp) in Blocks(mem)
    ensures var m, hi := AbsorbMem(mem, bp), NextBlkp(mem, NextBlkp(mem, bp));
            && (hi in Blocks(mem) || hi == |mem|) && bp < hi
            && DiffersOnlyIn(mem, m, bp - 1, hi - 1)
            && Tiles(m, bp, hi) && BlocksIn(m, bp, hi) == [bp]
            && AllocAt(m, bp) && SizeAt(m, bp) == Combined(mem, bp)
            && (forall c :: c in Blocks(mem) && bp <= c < hi ==> c == bp || c == NextBlkp(mem, bp))
            && (forall i :: bp <= i < hi - 2 ==> m[i] == mem[i])
  {
    var size := Combined(mem, bp);
    PairRun(mem, bp);
    WrittenBlock(AbsorbMem(mem, bp), bp, size, true);
  }

  /** Growing in place over a free next block keeps the heap well formed. */
  lemma AbsorbKeeps(h: Heap, bp: nat)
    requires WellFormed(h) && Live(h.mem, bp)
    requires NextBlkp(h.mem, bp) in Blocks(h.mem) && !AllocAt(h.mem, NextBlkp(h.mem, bp))
    ensures WellFormed(Absorb(h, bp))
  {
    var mem := h.mem;
    var next := NextBlkp(mem, bp);
    var hi := NextBlkp(mem, next);
    RemoveKeeps(h, next, {});
    var h1 := RemoveFromFreeList(h, next).0;
    AbsorbShape(mem, bp);
    assert {} + {next} == {next};
    Retag(h1, AbsorbMem(mem, bp), bp, hi, {next}, {});
  }

  /** The grown block is allocated with the combined size, keeps every
      payload word, and the allocated blocks are as they were. */
  lemma AbsorbLive(h: Heap, bp: nat)
    requires WellFormed(h) && Live(h.mem, bp)
    requires NextBlkp(h.mem, bp) in Blocks(h.mem) && !AllocAt(h.mem, NextBlkp(h.mem, bp))
    ensures var m := Absorb(h, bp).mem;
            && HeapOk(m) && Live(m, bp) && SizeAt(m, bp) == SizeAt(h.mem, bp) + SizeAt(h.mem, NextBlkp(h.mem, bp))
            && (forall c :: Live(m, c) <==> Live(h.mem, c))
            && (forall c :: Live(h.mem, c) && c != bp ==> SameBlock(h.mem, m, c))
            && (forall i :: bp <= i < NextBlkp(h.mem, bp) - 1 ==> m[i] == h.mem[i])
  {
    var mem := h.mem;
    var next := NextBlkp(mem, bp);
    AbsorbShape(mem, bp);
    RunLive(mem, AbsorbMem(mem, bp), bp, NextBlkp(mem, next));
  }

  // ---------------------------------------------------------------------
  // Moving: mm_malloc, memcpy, mm_free

  /** memcpy of `n` words from `src` to `dst`, reading the arena as it was
      before the copy. */
  function CopyWords(mem: seq<nat>, src: nat, dst: nat, n: nat): (m: seq<nat>)
    requires src + n <= |mem| && dst + n <= |mem|
    ensures DiffersOnlyIn(mem, m, dst, dst + n)
    ensures forall i :: dst <= i < dst + n ==> m[i] == mem[src + (i - dst)]
  {
    seq(|mem|, i requires 0 <= i < |mem| => if dst <= i < dst + n then mem[src + (i - dst)] else mem[i])
  }

  /** The words mm_realloc's memcpy moves: min(size, old_size) bytes, where
      old_size is the whole old block, header and footer included. A final
      partial word is copied whole. */
  function CopiedWords(size: nat, oldSize: nat): nat {
    (Min(size, oldSize) + 7) / 8
  }

  /** The copy reads inside the old block and its next header, writes
      inside the new payload, and covers every word realloc must keep; the
      words to keep lie inside both payloads. */
  lemma CopyFits(size: nat, oldSize: nat, newSize: nat)
    requires oldSize % 16 == 0 && oldSize >= MIN_BLOCK
    requires newSize % 16 == 0 && newSize >= size + DSIZE
    ensures CopiedWords(size, oldSize) <= oldSize / 8
    ensures CopiedWords(size, oldSize) <= newSize / 8 - 2
    ensures KeptWords(size, oldSize) <= CopiedWords(size, oldSize)
    ensures KeptWords(size, oldSize) <= oldSize / 8 - 2
  {
    var a, b := oldSize / 8, newSize / 8;
    WholeWords(oldSize);
    WholeWords(newSize);
    RoundUpBelow(Min(size, oldSize), a);
    RoundUpBelow(Min(size, oldSize), b - 2);
    RoundUpBelow(Min(size, oldSize - DSIZE), a - 2);
    RoundUpMono(Min(size, oldSize - DSIZE), Min(size, oldSize));
  }

  /** Rounding up to words stays within a bound given in words. */
  lemma RoundUpBelow(x: nat, n: nat)
    requires x <= 8 * n
    ensures (x + 7) / 8 <= n
  {
  }

  /** Rounding up to words is monotone. */
  lemma RoundUpMono(x: nat, y: nat)
    requires x <= y
    ensures (x + 7) / 8 <= (y + 7) / 8
  {
  }

  /** Writing only the payload of an allocated block leaves it a block
      with the same tags, the only block of its run. */
  lemma PayloadShape(mem: seq<nat>, m: seq<nat>, q: nat)
    requires HeapOk(mem) && Live(mem, q)
    requires DiffersOnlyIn(mem, m, q, NextBlkp(mem, q) - 2)
    ensures var hi := NextBlkp(mem, q);
            && (hi in Blocks(mem) || hi == |mem|) && q < hi
            && DiffersOnlyIn(mem, m, q - 1, hi - 1)
            && Tiles(m, q, hi) && BlocksIn(m, q, hi) == [q] && NextBlkp(m, q) == hi
            && AllocAt(m, q) && SizeAt(m, q) == SizeAt(mem, q)
            && (forall c :: c in Blocks(mem) && q <= c < hi ==> c == q)
  {
    var hi := NextBlkp(mem, q);
    Neighbours(mem, q);
    assert m[q - 1] == mem[q - 1] && m[hi - 2] == mem[hi - 2];
    assert ValidBlock(m, q);
    SingleBlock(m, q);
  }

  /** ... which keeps the heap well formed, ... */
  lemma PayloadWrite(h: Heap, m: seq<nat>, q: nat)
    requires WellFormed(h) && Live(h.mem, q)
    requires DiffersOnlyIn(h.mem, m, q, NextBlkp(h.mem, q) - 2)
    ensures WellFormed(h.(mem := m))
  {
    PayloadShape(h.mem, m, q);
    Retag(h, m, q, NextBlkp(h.mem, q), {}, {});
  }

  /** ... and the allocated blocks, every other one word for word. */
  lemma PayloadLive(mem: seq<nat>, m: seq<nat>, q: nat)
    requires HeapOk(mem) && Live(mem, q)
    requires DiffersOnlyIn(mem, m, q, NextBlkp(mem, q) - 2)
    ensures HeapOk(m) && Live(m, q) && SizeAt(m, q) == SizeAt(mem, q) && NextBlkp(m, q) == NextBlkp(mem, q)
    ensures forall c :: Live(m, c) <==> Live(mem, c)
    ensures forall c :: Live(mem, c) && c != q ==> SameBlock(mem, m, c)
  {
    PayloadShape(mem, m, q);
    RunLive(mem, m, q, NextBlkp(mem, q));
  }

  /** The fallback after mm_malloc returned `nb`: copy the old payload over,
      then free the old block. */
  function Move(h: Heap, bp: nat, nb: nat, size: nat): (r: Heap)
    requires WellFormed(h) && Live(h.mem, bp) && Live(h.mem, nb) && bp != nb
    requires SizeAt(h.mem, nb) >= size + DSIZE
    ensures r.heapLength == h.heapLength && r.brkLimit == h.brkLimit
  {
    var m := Copied(h, bp, nb, size);
    PayloadWrite(h, m, nb);
    PayloadLive(h.mem, m, nb);
    Free(h.(mem := m), Some(bp))
  }

  /** The arena after the copy, before the old block is freed. */
  function Copied(h: Heap, bp: nat, nb: nat, size: nat): (m: seq<nat>)
    requires WellFormed(h) && Live(h.mem, bp) && Live(h.mem, nb)
    requires SizeAt(h.mem, nb) >= size + DSIZE
    ensures DiffersOnlyIn(h.mem, m, nb, NextBlkp(h.mem, nb) - 2)
    ensures Kept(h.mem, m, bp, nb, KeptWords(size, SizeAt(h.mem, bp)))
  {
    var n := CopiedWords(size, SizeAt(h.mem, bp));
    CopyFits(size, SizeAt(h.mem, bp), SizeAt(h.mem, nb));
    CopyWords(h.mem, bp, nb, n)
  }

  /** The move keeps the heap well formed. */
  lemma MoveKeeps(h: Heap, bp: nat, nb: nat, size: nat)
    requires WellFormed(h) && Live(h.mem, bp) && Live(h.mem, nb) && bp != nb
    requires SizeAt(h.mem, nb) >= size + DSIZE
    ensures WellFormed(Move(h, bp, nb, size))
  {
    var m := Copied(h, bp, nb, size);
    PayloadWrite(h, m, nb);
    PayloadLive(h.mem, m, nb);
    assert Move(h, bp, nb, size) == Free(h.(mem := m), Some(bp));
    FreeKeeps(h.(mem := m), Some(bp));
  }

  /** After the move the new block replaces the old one among the allocated
      blocks, keeps its size, and every other allocated block its words. */
  lemma MoveLive(h: Heap, bp: nat, nb: nat, size: nat)
    requires WellFormed(h) && Live(h.mem, bp) && Live(h.mem, nb) && bp != nb
    requires SizeAt(h.mem, nb) >= size + DSIZE
    ensures var r := Move(h, bp, nb, size);
            && HeapOk(r.mem) && Live(r.mem, nb) && SizeAt(r.mem, nb) == SizeAt(h.mem, nb)
            && (forall c :: Live(r.mem, c) <==> Live(h.mem, c) && c != bp)
            && (forall c :: Live(h.mem, c) && c != bp && c != nb ==> SameBlock(h.mem, r.mem, c))
  {
    var m := Copied(h, bp, nb, size);
    PayloadWrite(h, m, nb);
    PayloadLive(h.mem, m, nb);
    assert Move(h, bp, nb, size) == Free(h.(mem := m), Some(bp));
    var r := Free(h.(mem := m), Some(bp));
    FreeLive(h.(mem := m), bp);
    forall c: nat | Live(h.mem, c) && c != bp && c != nb
      ensures SameBlock(h.mem, r.mem, c)
    {
      SameBlockTrans(h.mem, m, r.mem, c);
    }
  }

  /** After the move the new block starts with the words realloc must
      keep. */
  lemma MoveKept(h: Heap, bp: nat, nb: nat, size: nat)
    requires WellFormed(h) && Live(h.mem, bp) && Live(h.mem, nb) && bp != nb
    requires SizeAt(h.mem, nb) >= size + DSIZE
    ensures Kept(h.mem, Move(h, bp, nb, size).mem, bp, nb, KeptWords(size, SizeAt(h.mem, bp)))
  {
    var m := Copied(h, bp, nb, size);
    var n := KeptWords(size, SizeAt(h.mem, bp));
    CopyFits(size, SizeAt(h.mem, bp), SizeAt(h.mem, nb));
    PayloadWrite(h, m, nb);
    PayloadLive(h.mem, m, nb);
    assert Move(h, bp, nb, size) == Free(h.(mem := m), Some(bp));
    FreeLive(h.(mem := m), bp);
    var r := Free(h.(mem := m), Some(bp));
    KeptAfter(h.mem, m, r.mem, bp, nb, n);
  }

  /** Words kept into a block that a later rewrite leaves alone stay
      kept. */
  lemma KeptAfter(mem: seq<nat>, m: seq<nat>, r: seq<nat>, a: nat, b: nat, n: nat)
    requires ValidBlock(m, b) && SameBlock(m, r, b) && b + n <= NextBlkp(m, b) - 1
    requires Kept(mem, m, a, b, n)
    ensures Kept(mem, r, a, b, n)
  {
  }

  // ---------------------------------------------------------------------
  // mm_realloc

  /** The next block is free and, together with the block, holds the
      request: the condition for growing in place. */
  predicate Absorbable(h: Heap, bp: nat, size: nat)
    requires WellFormed(h) && Live(h.mem, bp) && size > 0
  {
    Neighbours(h.mem, bp);
    && !NextAllocated(h.mem, bp)
    && SizeAt(h.mem, bp) + SizeAt(h.mem, NextBlkp(h.mem, bp)) >= ReallocSize(size)
  }

  /** realloc keeps the block where it is: the request fits the block as it
      is, or the block can grow over its free successor. */
  predicate InPlace(h: Heap, bp: nat, size: nat)
    requires WellFormed(h) && Live(h.mem, bp) && size > 0
  {
    ReallocSize(size) <= SizeAt(h.mem, bp) || Absorbable(h, bp, size)
  }

  /** What Shrink asks of its arguments. */
  predicate ShrinkReady(h: Heap, bp: nat, asize: nat) {
    && 1 <= bp <= |h.mem| && NextBlkp(h.mem, bp) <= |h.mem| && |h.lists| == FREE_LIST_SIZE
    && asize % 16 == 0 && asize >= MIN_BLOCK && SizeAt(h.mem, bp) > asize + DSIZE
    && forall i :: 0 <= i < FREE_LIST_SIZE ==> bp + asize / 8 !in h.lists[i]
  }

  /** A successful resize of block `a` of `h` into block `b` of `r`: the
      heap is well formed, `b` replaces `a` as Moved says, and `b` has room
      for `size` bytes. */
  ghost predicate Resized(h: Heap, r: Heap, a: nat, b: nat, size: nat)
    requires WellFormed(h) && Live(h.mem, a)
  {
    && WellFormed(r) && Moved(h.mem, r.mem, a, b, size)
    && SizeAt(r.mem, b) >= size + DSIZE
  }

  /** Returning the block unchanged is a successful realloc when the
      request already fits it. */
  lemma Unmoved(h: Heap, bp: nat, size: nat)
    requires WellFormed(h) && Live(h.mem, bp) && size > 0
    requires ReallocSize(size) <= SizeAt(h.mem, bp)
    ensures Resized(h, h, bp, bp, size)
  {
    CopyFits(size, SizeAt(h.mem, bp), SizeAt(h.mem, bp));
  }

  /** With the corrected guard letting the shrink through, Shrink may be
      applied: the tail is at least a minimum block and not on any list. */
  lemma ShrinkReadyPath(h: Heap, bp: nat, size: nat)
    requires WellFormed(h) && Live(h.mem, bp) && size > 0
    requires ReallocSize(size) < SizeAt(h.mem, bp)
    requires ShrinkTail(SizeAt(h.mem, bp), ReallocSize(size)).Some?
    ensures ShrinkReady(h, bp, ReallocSize(size))
  {
    ShrinkTailListable(SizeAt(h.mem, bp), ReallocSize(size));
    Exempt(h, bp);
    SplitUnlisted(h, bp, ReallocSize(size));
  }

  /** The shrunk block replaces itself at the new size with its payload
      kept up to the request. */
  lemma ShrinkMoved(mem: seq<nat>, bp: nat, size: nat)
    requires HeapOk(mem) && Live(mem, bp) && size > 0
    requires SizeAt(mem, bp) > ReallocSize(size) + DSIZE
    ensures var m := ShrinkMem(mem, bp, ReallocSize(size));
            && HeapOk(m) && Moved(mem, m, bp, bp, size) && SizeAt(m, bp) == ReallocSize(size)
  {
    ShrinkLive(mem, bp, ReallocSize(size));
    CopyFits(size, SizeAt(mem, bp), ReallocSize(size));
  }

  /** Shrinking with a surplus of a minimum block or more is a successful
      realloc that leaves the block at exactly the new size. */
  lemma ShrinkPath(h: Heap, bp: nat, size: nat)
    requires WellFormed(h) && Live(h.mem, bp) && size > 0
    requires ShrinkReady(h, bp, ReallocSize(size))
    ensures Resized(h, Shrink(h, bp, ReallocSize(size)), bp, bp, size)
  {
    Exempt(h, bp);
    ShrinkKeeps(h, bp, ReallocSize(size));
    ShrinkMoved(h.mem, bp, size);
  }

  /** Growing over the free successor: the block replaces itself with its
      whole payload kept and room for the request. */
  lemma AbsorbMoved(h: Heap, bp: nat, size: nat)
    requires WellFormed(h) && Live(h.mem, bp) && size > 0
    requires NextBlkp(h.mem, bp) in Blocks(h.mem) && !AllocAt(h.mem, NextBlkp(h.mem, bp))
    requires SizeAt(h.mem, bp) + SizeAt(h.mem, NextBlkp(h.mem, bp)) >= ReallocSize(size)
    ensures var m := Absorb(h, bp).mem;
            && HeapOk(m) && Moved(h.mem, m, bp, bp, size) && SizeAt(m, bp) >= size + DSIZE
  {
    AbsorbLive(h, bp);
    CopyFits(size, SizeAt(h.mem, bp), SizeAt(h.mem, bp) + SizeAt(h.mem, NextBlkp(h.mem, bp)));
  }

  /** Growing in place over a free successor is a successful realloc. */
  lemma AbsorbPath(h: Heap, bp: nat, size: nat)
    requires WellFormed(h) && Live(h.mem, bp) && size > 0
    requires Absorbable(h, bp, size)
    ensures NextBlkp(h.mem, bp) in Blocks(h.mem) && !AllocAt(h.mem, NextBlkp(h.mem, bp))
    ensures Resized(h, Absorb(h, bp), bp, bp, size)
  {
    Neighbours(h.mem, bp);
    AbsorbKeeps(h, bp);
    AbsorbMoved(h, bp, size);
  }

  /** After mm_malloc placed `nb`, copying and freeing makes `nb` replace
      `bp` with the old payload at its start. */
  lemma MoveMoved(h: Heap, h2: Heap, bp: nat, nb: nat, size: nat)
    requires WellFormed(h) && Live(h.mem, bp) && size > 0
    requires WellFormed(h2) && Placed(h.mem, h2.mem, nb, AdjustSize(size))
    requires SizeAt(h2.mem, nb) >= size + DSIZE
    ensures Live(h2.mem, bp) && Live(h2.mem, nb) && bp != nb
    ensures var m := Move(h2, bp, nb, size).mem;
            && HeapOk(m) && Moved(h.mem, m, bp, nb, size) && SizeAt(m, nb) >= size + DSIZE
  {
    MoveLive(h2, bp, nb, size);
    MoveKept(h2, bp, nb, size);
    var m := Move(h2, bp, nb, size).mem;
    forall c: nat | Live(h.mem, c) && c != bp
      ensures SameBlock(h.mem, m, c)
    {
      SameBlockTrans(h.mem, h2.mem, m, c);
    }
    assert h2.mem[bp - 1] == h.mem[bp - 1];
    CopyFits(size, SizeAt(h.mem, bp), SizeAt(h2.mem, nb));
    KeptThrough(h.mem, h2.mem, m, bp, nb, KeptWords(size, SizeAt(h.mem, bp)));
  }

  /** Words kept from a block that an earlier rewrite left alone are kept
      from the block as it was before that rewrite. */
  lemma KeptThrough(mem: seq<nat>, m2: seq<nat>, m: seq<nat>, a: nat, b: nat, n: nat)
    requires ValidBlock(mem, a) && SameBlock(mem, m2, a) && a + n <= NextBlkp(mem, a) - 1
    requires Kept(m2, m, a, b, n)
    ensures Kept(mem, m, a, b, n)
  {
  }

  /** Moving to the block mm_malloc placed is a successful realloc. */
  lemma MovePath(h: Heap, h2: Heap, bp: nat, nb: nat, size: nat)
    requires WellFormed(h) && Live(h.mem, bp) && size > 0
    requires WellFormed(h2) && Placed(h.mem, h2.mem, nb, AdjustSize(size))
    requires SizeAt(h2.mem, nb) >= size + DSIZE
    ensures Live(h2.mem, bp) && Live(h2.mem, nb) && bp != nb
    ensures Resized(h, Move(h2, bp, nb, size), bp, nb, size)
  {
    MoveMoved(h, h2, bp, nb, size);
    MoveKeeps(h2, bp, nb, size);
  }

  /** The in-place paths of mm_realloc, in the source's order: a request
      of the block's own size returns it as it is, a smaller one splits
      off the surplus when that can stand as a free block, and a larger one
      grows the block over its free successor. */
  function ResizeInPlace(h: Heap, bp: nat, size: nat): (r: Heap)
    requires WellFormed(h) && Live(h.mem, bp) && size > 0
    requires InPlace(h, bp, size)
  {
    var newSize, oldSize := ReallocSize(size), SizeAt(h.mem, bp);
    if newSize == oldSize then
      h
    else if newSize < oldSize then
      if ShrinkTail(oldSize, newSize).None? then
        // the surplus is too small to stand as a free block
        h
      else
        ShrinkReadyPath(h, bp, size);
        Shrink(h, bp, newSize)
    else
      AbsorbPath(h, bp, size);
      Absorb(h, bp)
  }

  /** Every in-place path is a successful realloc, and a block that
      already fits is never more than DSIZE over the request afterwards. */
  lemma InPlaceResized(h: Heap, bp: nat, size: nat)
    requires WellFormed(h) && Live(h.mem, bp) && size > 0
    requires InPlace(h, bp, size)
    ensures Resized(h, ResizeInPlace(h, bp, size), bp, bp, size)
    ensures ReallocSize(size) <= SizeAt(h.mem, bp) ==>
              SizeAt(ResizeInPlace(h, bp, size).mem, bp) <= ReallocSize(size) + DSIZE
  {
    var newSize, oldSize := ReallocSize(size), SizeAt(h.mem, bp);
    if newSize == oldSize {
      Unmoved(h, bp, size);
    } else if newSize < oldSize {
      ShrinkTailListable(oldSize, newSize);
      if ShrinkTail(oldSize, newSize).None? {
        Unmoved(h, bp, size);
      } else {
        ShrinkReadyPath(h, bp, size);
        ShrinkPath(h, bp, size);
        ShrinkMoved(h.mem, bp, size);
      }
    } else {
      AbsorbPath(h, bp, size);
    }
  }

  /** mm_realloc of an allocated block to a positive size: in place when
      the request fits the block or its free successor, and otherwise
      moved to a block from mm_malloc; when that fails nothing changes. */
  method ReallocBlock(h: Heap, bp: nat, size: nat) returns (r: Heap, p: Option<nat>)
    requires WellFormed(h) && Live(h.mem, bp) && size > 0
    ensures p.None? <==> !InPlace(h, bp, size) && MallocFails(h, size)
    ensures InPlace(h, bp, size) ==> p == Some(bp)
    ensures p.None? ==> r == h
    ensures p.Some? ==> Resized(h, r, bp, p.value, size)
    ensures ReallocSize(size) <= SizeAt(h.mem, bp) ==>
              p == Some(bp) && SizeAt(r.mem, bp) <= ReallocSize(size) + DSIZE
    ensures ReallocSize(size) == SizeAt(h.mem, bp) ==> r == h && p == Some(bp)
    ensures size >= 8 * MAX_HEAP_WORDS ==> p.None? && r == h
    ensures p.Some? && !InPlace(h, bp, size) ==> p.value != bp
  {
    if size >= 8 * MAX_HEAP_WORDS {
      OversizeReallocFails(h, bp, size);
    }
    if InPlace(h, bp, size) {
      InPlaceResized(h, bp, size);
      return ResizeInPlace(h, bp, size), Some(bp);
    }
    var h2, nb := Malloc(h, size);
    if nb.None? {
      return h, None;
    }
    MovePath(h, h2, bp, nb.value, size);
    r, p := Move(h2, bp, nb.value, size), nb;
  }

  /** mm_realloc(ptr, size): a zero size is mm_free and returns None, a
      missing pointer is mm_malloc, and otherwise ReallocBlock. */
  method Realloc(h: Heap, ptr: Option<nat>, size: nat) returns (r: Heap, p: Option<nat>)
    requires WellFormed(h)
    requires ptr.Some? ==> Live(h.mem, ptr.value)
    ensures WellFormed(r)
    ensures size == 0 ==> r == Free(h, ptr) && p.None?
    ensures size > 0 && ptr.None? ==>
              && (p.None? <==> MallocFails(h, size))
              && (p.None? ==> r == h)
              && (p.Some? ==> Placed(h.mem, r.mem, p.value, AdjustSize(size)))
              && (SomeFit(h, AdjustSize(size)) ==>
                    && p.Some? && |r.mem| == |h.mem| && ChosenFit(h, AdjustSize(size), p.value)
                    && forall c :: c in Blocks(h.mem) && !AllocAt(h.mem, c) && SizeAt(h.mem, c) >= AdjustSize(size) ==>
                         SizeAt(h.mem, p.value) <= SizeAt(h.mem, c))
              && (p.Some? && !SomeFit(h, AdjustSize(size)) ==> |r.mem| > |h.mem|)
    ensures size > 0 && ptr.Some? ==>
              && (p.None? <==> !InPlace(h, ptr.value, size) && MallocFails(h, size))
              && (InPlace(h, ptr.value, size) ==> p == ptr)
              && (p.None? ==> r == h)
              && (p.Some? ==> Resized(h, r, ptr.value, p.value, size))
              && (ReallocSize(size) <= SizeAt(h.mem, ptr.value) ==>
                    p == ptr && SizeAt(r.mem, ptr.value) <= ReallocSize(size) + DSIZE)
              && (ReallocSize(size) == SizeAt(h.mem, ptr.value) ==> r == h && p == ptr)
              && (p.Some? && !InPlace(h, ptr.value, size) ==> p.value != ptr.value)
    ensures size >= 8 * MAX_HEAP_WORDS ==> p.None? && r == h
  {
    if size == 0 {
      FreeKeeps(h, ptr);
      return Free(h, ptr), None;
    }
    if ptr.None? {
      r, p := Malloc(h, size);
      return;
    }
    r, p := ReallocBlock(h, ptr.value, size);
  }
}

=== FILE: sizeclass.dfy ===
/** The segregated size classes: which of the fifteen buckets a free block of
    a given payload (counted in words) belongs to. */
module SizeClass {

  /** Number of buckets, and the largest payload (in words) that still has a
      bucket of its own; anything larger goes into the last bucket. */
  const FREE_LIST_SIZE: nat := 15
  const LARGEST_FIT_SIZE: nat := 8192

  function Pow2(k: nat): (p: nat)
    ensures p >= 1
  {
    if k == 0 then 1 else 2 * Pow2(k - 1)
  }

  /** Number of one bits of `n`: the value of __builtin_popcount. */
  function PopCount(n: nat): nat {
    if n == 0 then 0 else n % 2 + PopCount(n / 2)
  }

  /** Number of binary digits of `n` (zero for zero). */
  function BitLength(n: nat): nat {
    if n == 0 then 0 else 1 + BitLength(n / 2)
  }

  /** Leading zero bits of a non-zero 32-bit unsigned value: the value of
      __builtin_clz, which is undefined for zero. */
  function Clz32(n: nat): int
    requires 0 < n < 0x1_0000_0000
  {
    32 - BitLength(n)
  }

  /** get_free_list_index: the bucket of a block whose payload is `numWords`
      words. Bucket i holds payloads in (2^(i-1), 2^i]; bucket 14 holds every
      payload above LARGEST_FIT_SIZE; a zero payload has no bucket (-1). */
  function FreeListIndex(numWords: nat): (r: int)
    ensures numWords == 0 ==> r == -1
    ensures numWords > 0 ==> 0 <= r < FREE_LIST_SIZE
  {
    if numWords > LARGEST_FIT_SIZE then
      FREE_LIST_SIZE - 1
    else if numWords == 0 then
      // popcount is zero: no bucket
      -1
    else
      BitLengthBounds(numWords);
      PopCountOne(numWords);
      Pow2Thirteen();
      Pow2Order(BitLength(numWords) - 1, 13);
      if PopCount(numWords) > 1 then
        // not a power of two: one bucket above the top bit
        32 - Clz32(numWords)
      else
        // exactly one bit set: the bucket of that bit
        32 - Clz32(numWords) - 1
  }

  /** Bucket i (below the last) holds exactly the payloads in
      (2^(i-1), 2^i]: the smallest power of two at least the payload. */
  lemma FreeListIndexSpec(numWords: nat)
    ensures numWords > LARGEST_FIT_SIZE ==> FreeListIndex(numWords) == FREE_LIST_SIZE - 1
    ensures 0 < numWords <= LARGEST_FIT_SIZE ==>
              var r := FreeListIndex(numWords);
              0 <= r <= 13 && numWords <= Pow2(r) && (r == 0 || Pow2(r - 1) < numWords)
  {
    if 0 < numWords <= LARGEST_FIT_SIZE {
      BitLengthBounds(numWords);
      PopCountOne(numWords);
      Pow2Thirteen();
      Pow2Order(BitLength(numWords) - 1, 13);
    }
  }

  /** The bucket a block of `size` bytes (header and footer included) is
      listed in: the payload is `(size - DSIZE) >> 3` words. */
  function BucketOf(size: nat): (r: int)
    requires size >= 16
    ensures size >= 32 ==> 0 <= r < FREE_LIST_SIZE
  {
    FreeListIndex((size - 16) / 8)
  }

  lemma Pow2Thirteen()
    ensures Pow2(13) == LARGEST_FIT_SIZE
  {
    assert Pow2(4) == 16;
    assert Pow2(8) == 256;
  }

  /** Powers of two are strictly increasing, so comparing them compares
      their exponents. */
  lemma {:induction false} Pow2Order(j: nat, k: nat)
    ensures j <= k <==> Pow2(j) <= Pow2(k)
    ensures j < k <==> Pow2(j) < Pow2(k)
    decreases j + k
  {
    if j > 0 && k > 0 {
      Pow2Order(j - 1, k - 1);
    } else if j > 0 {
      Pow2Order(j - 1, 0);
    } else if k > 0 {
      Pow2Order(0, k - 1);
    }
  }

  /** The top bit of a positive `n` is bit BitLength(n) - 1. */
  lemma {:induction false} BitLengthBounds(n: nat)
    requires n > 0
    ensures BitLength(n) >= 1
    ensures Pow2(BitLength(n) - 1) <= n < Pow2(BitLength(n))
  {
    if n > 1 {
      BitLengthBounds(n / 2);
    }
  }

  /** A positive `n` has exactly one bit set iff it is its own top bit. */
  lemma {:induction false} PopCountOne(n: nat)
    requires n > 0
    ensures PopCount(n) >= 1
    ensures PopCount(n) == 1 <==> n == Pow2(BitLength(n) - 1)
  {
    if n > 1 {
      var q, b := n / 2, n % 2;
      assert n == 2 * q + b;
      PopCountOne(q);
      assert PopCount(n) == b + PopCount(q);
      assert BitLength(n) - 1 == BitLength(q) == (BitLength(q) - 1) + 1;
      assert Pow2(BitLength(n) - 1) == 2 * Pow2(BitLength(q) - 1);
    }
  }

  /** 2^k has one bit set, and it is bit k. */
  lemma {:induction false} Pow2Bits(k: nat)
    ensures PopCount(Pow2(k)) == 1
    ensures BitLength(Pow2(k)) == k + 1
  {
    if k > 0 {
      Pow2Bits(k - 1);
      var p := Pow2(k - 1);
      assert Pow2(k) % 2 == 0 && Pow2(k) / 2 == p;
    }
  }

  /** An exact power of two 2^k up to LARGEST_FIT_SIZE lands in bucket k. */
  lemma PowerOfTwoBucket(k: nat)
    requires k <= 13
    ensures FreeListIndex(Pow2(k)) == k
  {
    Pow2Thirteen();
    Pow2Order(k, 13);
    Pow2Bits(k);
  }

  /** Any other payload in 1..LARGEST_FIT_SIZE lands one bucket above its top
      bit, floor(log2 n) + 1. */
  lemma NonPowerBucket(n: nat)
    requires 0 < n <= LARGEST_FIT_SIZE
    requires PopCount(n) > 1
    ensures FreeListIndex(n) == BitLength(n)
    ensures 1 <= FreeListIndex(n) <= 13
  {
    FreeListIndexSpec(n);
    BitLengthBounds(n);
    PopCountOne(n);
  }

  /** Larger payloads never land in a lower bucket. */
  lemma {:induction false} FreeListIndexMonotone(m: nat, n: nat)
    requires 0 < m <= n
    ensures FreeListIndex(m) <= FreeListIndex(n)
  {
    FreeListIndexSpec(m);
    FreeListIndexSpec(n);
    var rm, rn := FreeListIndex(m), FreeListIndex(n);
    if n <= LARGEST_FIT_SIZE && rm > 0 {
      // m > 2^(rm-1) and n <= 2^rn, with m <= n, force rm - 1 < rn
      Pow2Order(rm - 1, rn);
    }
  }

  /** A block filed in a lower bucket than another is the smaller one. */
  lemma BucketOrder(a: nat, b: nat)
    requires a >= 32 && b >= 32
    ensures BucketOf(a) < BucketOf(b) ==> a < b
  {
    if b <= a {
      FreeListIndexMonotone((b - 16) / 8, (a - 16) / 8);
    }
  }

  /** Every block of at least two double words has a real bucket, and a
      16-byte block (no payload) has none. */
  lemma BucketRange(size: nat)
    requires size >= 16 && size % 16 == 0
    ensures size == 16 ==> BucketOf(size) == -1
    ensures size > 16 ==> 0 <= BucketOf(size) < FREE_LIST_SIZE
  {
  }
}

=== FILE: state.dfy ===
/** The allocator's global state and its invariant.

    The arena `mem` carries the boundary tags. The fifteen segregated free
    lists (free_lists) are kept as sequences of block pointers, head first:
    in the allocator each list is threaded through the first payload word of
    its blocks, and those link words are represented by the sequences rather
    than stored in the arena. */
module State {
  import opened Layout
  import opened SizeClass
  import opened Tiling

  /** `heapLength` is heap_length: the words from the first header to the
      epilogue, exclusive. `brkLimit` is the most words the memory system
      will ever hand out (mem_sbrk fails beyond it); the invariant keeps it
      within MAX_HEAP_WORDS. */
  datatype Heap = Heap(mem: seq<nat>, lists: seq<seq<nat>>, heapLength: int, brkLimit: nat)

  predicate NoDup(s: seq<nat>) {
    forall j, k :: 0 <= j < k < |s| ==> s[j] != s[k]
  }

  /** A list entry is a free block of the heap, big enough to hold a link,
      filed under its own bucket, and not among the exempt blocks `X`. */
  predicate EntryOk(mem: seq<nat>, X: set<nat>, i: int, b: nat)
    requires HeapOk(mem)
  {
    && b in Blocks(mem)
    && !AllocAt(mem, b)
    && SizeAt(mem, b) > DSIZE
    && BucketOf(SizeAt(mem, b)) == i
    && b !in X
  }

  /** The free lists agree with the tags: every entry is a listed free block
      in its bucket, every free block outside `X` is listed in its bucket,
      and no list holds a block twice. The blocks in `X` are those an
      operation is in the middle of taking off or putting on a list. */
  predicate ListsOk(mem: seq<nat>, lists: seq<seq<nat>>, X: set<nat>)
    requires HeapOk(mem)
  {
    && |lists| == FREE_LIST_SIZE
    && (forall i, b :: 0 <= i < |lists| && b in lists[i] ==> EntryOk(mem, X, i, b))
    && (forall b :: b in Blocks(mem) && !AllocAt(mem, b) && b !in X ==>
          SizeAt(mem, b) > DSIZE && b in lists[BucketOf(SizeAt(mem, b))])
    && (forall i :: 0 <= i < |lists| ==> NoDup(lists[i]))
  }

  /** Every block outside `X` can hold a header, a link and a footer. */
  predicate MinSizeOk(mem: seq<nat>, X: set<nat>)
    requires HeapOk(mem)
  {
    forall b :: b in Blocks(mem) && b !in X ==> SizeAt(mem, b) >= MIN_BLOCK
  }

  /** The invariant with the blocks of `X` exempt from the list and size
      conditions. */
  predicate WellFormedExcept(h: Heap, X: set<nat>) {
    && HeapOk(h.mem)
    && h.heapLength == |h.mem| - HEAP_START
    && |h.mem| <= h.brkLimit <= MAX_HEAP_WORDS
    && ListsOk(h.mem, h.lists, X)
    && MinSizeOk(h.mem, X)
  }

  /** The invariant between calls: the shape mm_check inspects, plus sizes. */
  predicate WellFormed(h: Heap) {
    WellFormedExcept(h, {})
  }

  /** A heap is determined by its fields: one that agrees with `h` but for
      its arena and lists is `h` updated with them. */
  lemma Updated(r: Heap, h: Heap, m: seq<nat>, L: seq<seq<nat>>)
    requires r.mem == m && r.lists == L
    requires r.heapLength == h.heapLength && r.brkLimit == h.brkLimit
    ensures r == h.(mem := m, lists := L)
  {
  }

  /** The invariant carried over to an equal heap written differently. */
  lemma SameWellFormed(a: Heap, b: Heap)
    requires a == b && WellFormed(a)
    ensures WellFormed(b)
  {
  }

  /** Every block lies inside the arena, so its size in bytes is below eight
      times the arena's words. */
  lemma BlockBelow(mem: seq<nat>, c: nat)
    requires HeapOk(mem) && c in Blocks(mem)
    ensures SizeAt(mem, c) < 8 * |mem|
  {
    WholeWords(SizeAt(mem, c));
  }

  /** In a heap within the invariant every block size, every payload word
      count and heap_length are below 2^31: the `int` and `unsigned int`
      copies the allocator takes of them (size in remove_from_free_list,
      the argument of get_free_list_index, size_prev and size_next in
      coalesce, cur_fit and split_size for a block that fits, heap_length)
      hold their values exactly. */
  lemma NarrowTypesHold(h: Heap, X: set<nat>, c: nat)
    requires WellFormedExcept(h, X) && c in Blocks(h.mem)
    ensures SizeAt(h.mem, c) < 0x8000_0000
    ensures (SizeAt(h.mem, c) - DSIZE) / 8 < 0x8000_0000
    ensures 0 <= h.heapLength < 0x8000_0000
  {
    BlockBelow(h.mem, c);
  }

  /** An allocated block of the heap: a block handed out by malloc. */
  predicate Live(mem: seq<nat>, c: nat)
    requires HeapOk(mem)
  {
    c in Blocks(mem) && AllocAt(mem, c)
  }

  /** Two rewrites that each keep the allocated blocks, word for word, keep
      them together. */
  lemma LiveTrans(a: seq<nat>, b: seq<nat>, c: seq<nat>)
    requires HeapOk(a) && HeapOk(b) && HeapOk(c)
    requires forall x :: Live(b, x) <==> Live(a, x)
    requires forall x :: Live(a, x) ==> SameBlock(a, b, x)
    requires forall x :: Live(c, x) <==> Live(b, x)
    requires forall x :: Live(b, x) ==> SameBlock(b, c, x)
    ensures forall x :: Live(c, x) <==> Live(a, x)
    ensures forall x :: Live(a, x) ==> SameBlock(a, c, x)
  {
    forall x: nat | Live(a, x)
      ensures SameBlock(a, c, x)
    {
      SameBlockTrans(a, b, c, x);
    }
  }

  /** Whether `b` is a free block filed in the list of its bucket. */
  predicate Listed(h: Heap, b: nat)
    requires HeapOk(h.mem) && |h.lists| == FREE_LIST_SIZE
  {
    && b in Blocks(h.mem)
    && SizeAt(h.mem, b) > DSIZE
    && b in h.lists[BucketOf(SizeAt(h.mem, b))]
  }

  /** Rewriting the blocks in [lo, hi) keeps the list invariant as long as
      the old run held no listed block and every new block of the run is
      either allocated (and big enough) or exempt. Blocks outside the run are
      the same blocks with the same headers, and their exemptions carry
      over. */
  lemma Reshape(mem: seq<nat>, m: seq<nat>, L: seq<seq<nat>>, X: set<nat>, X2: set<nat>, lo: nat, hi: nat)
    requires HeapOk(mem) && HeapOk(m)
    requires ListsOk(mem, L, X) && MinSizeOk(mem, X)
    requires forall c :: c in Blocks(m) && (c < lo || hi <= c) ==> c in Blocks(mem)
    requires forall c :: c in Blocks(mem) && (c < lo || hi <= c) ==> c in Blocks(m) && m[c - 1] == mem[c - 1]
    requires forall c :: c in Blocks(mem) && lo <= c < hi ==> c in X || AllocAt(mem, c)
    requires forall c :: c in Blocks(mem) && (c < lo || hi <= c) ==> (c in X2 <==> c in X)
    requires forall c :: c in Blocks(m) && lo <= c < hi ==> c in X2 || (AllocAt(m, c) && SizeAt(m, c) >= MIN_BLOCK)
    ensures ListsOk(m, L, X2) && MinSizeOk(m, X2)
  {
    forall i, b | 0 <= i < |L| && b in L[i]
      ensures EntryOk(m, X2, i, b)
    {
      assert EntryOk(mem, X, i, b);
    }
  }

  /** The block structure after rewriting the tags of the run of blocks
      [lo, hi) in place, leaving every word outside it alone: the new run's
      blocks replace the old run's, and blocks outside it keep all their
      words. */
  lemma RetagShape(mem: seq<nat>, m: seq<nat>, lo: nat, hi: nat)
    requires HeapOk(mem)
    requires lo in Blocks(mem) && (hi in Blocks(mem) || hi == |mem|) && lo < hi
    requires DiffersOnlyIn(mem, m, lo - 1, hi - 1)
    requires Tiles(m, lo, hi)
    ensures HeapOk(m)
    ensures forall c :: c in BlocksIn(m, lo, hi) ==> lo <= c < hi
    ensures forall c :: c in Blocks(m) <==> c in BlocksIn(m, lo, hi) || (c in Blocks(mem) && (c < lo || hi <= c))
    ensures forall c :: c in Blocks(mem) && (c < lo || hi <= c) ==> m[c - 1] == mem[c - 1] && SameBlock(mem, m, c)
  {
    var N := |mem|;
    RetileInPlace(mem, m, lo, hi);
    Untouched(mem, m, HEAP_START, lo, lo - 1, hi - 1);
    Untouched(mem, m, hi, N, lo - 1, hi - 1);
  }

  /** Rewriting the run [lo, hi) in place so that its first block is
      allocated and the rest are free, where the old run also held nothing
      allocated but its first block: the allocated blocks are the old ones
      plus `lo`, and all but `lo` keep their words. */
  lemma RunLive(mem: seq<nat>, m: seq<nat>, lo: nat, hi: nat)
    requires HeapOk(mem)
    requires lo in Blocks(mem) && (hi in Blocks(mem) || hi == |mem|) && lo < hi
    requires DiffersOnlyIn(mem, m, lo - 1, hi - 1)
    requires Tiles(m, lo, hi) && lo in BlocksIn(m, lo, hi) && AllocAt(m, lo)
    requires forall c :: c in BlocksIn(m, lo, hi) && c != lo ==> !AllocAt(m, c)
    requires forall c :: c in Blocks(mem) && lo < c < hi ==> !AllocAt(mem, c)
    ensures HeapOk(m)
    ensures forall c :: c in BlocksIn(m, lo, hi) ==> c in Blocks(m)
    ensures forall c :: Live(m, c) <==> c == lo || Live(mem, c)
    ensures forall c :: Live(mem, c) && c != lo ==> SameBlock(mem, m, c)
  {
    RetagShape(mem, m, lo, hi);
    forall c: nat | Live(m, c) && c != lo
      ensures Live(mem, c)
    {
      assert !(c in BlocksIn(m, lo, hi));
    }
    forall c: nat | Live(mem, c) && c != lo
      ensures Live(m, c) && SameBlock(mem, m, c)
    {
      assert c < lo || hi <= c;
    }
  }

  /** Rewriting the tags of a run in place keeps the invariant when every
      old block of the run was allocated or exempt and every new one is
      allocated (and big enough) or exempt under the new exemptions `X2`. */
  lemma Retag(h: Heap, m: seq<nat>, lo: nat, hi: nat, X: set<nat>, X2: set<nat>)
    requires WellFormedExcept(h, X)
    requires lo in Blocks(h.mem) && (hi in Blocks(h.mem) || hi == |h.mem|) && lo < hi
    requires DiffersOnlyIn(h.mem, m, lo - 1, hi - 1)
    requires Tiles(m, lo, hi)
    requires forall c :: c in Blocks(h.mem) && lo <= c < hi ==> c in X || AllocAt(h.mem, c)
    requires forall c :: c < lo || hi <= c ==> (c in X2 <==> c in X)
    requires forall c :: c in BlocksIn(m, lo, hi) ==> c in X2 || (AllocAt(m, c) && SizeAt(m, c) >= MIN_BLOCK)
    ensures WellFormedExcept(h.(mem := m), X2)
  {
    var mem := h.mem;
    RetagShape(mem, m, lo, hi);
    Reshape(mem, m, h.lists, X, X2, lo, hi);
  }

  /** The block structure after growing the arena: the run from `lo` (a
      block, or the old end) to the old end is replaced by a run reaching the
      new end, where the new epilogue sits. */
  lemma RetagGrowShape(mem: seq<nat>, m: seq<nat>, lo: nat)
    requires HeapOk(mem)
    requires lo in Blocks(mem) || lo == |mem|
    requires |mem| < |m|
    requires forall i :: 0 <= i < lo - 1 ==> m[i] == mem[i]
    requires m[|m| - 1] == 1
    requires Tiles(m, lo, |m|)
    ensures HeapOk(m)
    ensures forall c :: c in BlocksIn(m, lo, |m|) ==> lo <= c
    ensures forall c :: c in Blocks(m) <==> c in BlocksIn(m, lo, |m|) || (c in Blocks(mem) && c < lo)
    ensures forall c :: c in Blocks(mem) && c < lo ==> m[c - 1] == mem[c - 1] && SameBlock(mem, m, c)
  {
    RetileGrow(mem, m, lo);
    PrefixKept(mem, m, HEAP_START, lo);
  }

  /** Growing the arena: the run from `lo` (a block, or the old end) to the
      old end is replaced by a run reaching the new end, where the new
      epilogue sits; the same conditions as for Retag keep the invariant. */
  lemma RetagGrow(h: Heap, m: seq<nat>, lo: nat, X: set<nat>, X2: set<nat>)
    requires WellFormedExcept(h, X)
    requires lo in Blocks(h.mem) || lo == |h.mem|
    requires |h.mem| < |m| <= h.brkLimit
    requires forall i :: 0 <= i < lo - 1 ==> m[i] == h.mem[i]
    requires m[|m| - 1] == 1
    requires Tiles(m, lo, |m|)
    requires forall c :: c in Blocks(h.mem) && lo <= c ==> c in X || AllocAt(h.mem, c)
    requires forall c :: c < lo ==> (c in X2 <==> c in X)
    requires forall c :: c in BlocksIn(m, lo, |m|) ==> c in X2 || (AllocAt(m, c) && SizeAt(m, c) >= MIN_BLOCK)
    ensures WellFormedExcept(h.(mem := m, heapLength := |m| - HEAP_START), X2)
  {
    var mem := h.mem;
    RetagGrowShape(mem, m, lo);
    Reshape(mem, m, h.lists, X, X2, lo, |m|);
  }

  /** Rewriting one block's tags with its own size and a new allocated bit
      leaves the block list as it was and every other block word for word. */
  lemma RetagBlockShape(mem: seq<nat>, bp: nat, alloc: bool)
    requires HeapOk(mem) && bp in Blocks(mem)
    ensures var m := SetTags(mem, bp, SizeAt(mem, bp), alloc);
            && HeapOk(m) && Blocks(m) == Blocks(mem)
            && AllocAt(m, bp) == alloc && SizeAt(m, bp) == SizeAt(mem, bp)
            && forall c :: c in Blocks(mem) && c != bp ==> m[c - 1] == mem[c - 1] && SameBlock(mem, m, c)
  {
    var size := SizeAt(mem, bp);
    var hi := NextBlkp(mem, bp);
    var m := SetTags(mem, bp, size, alloc);
    Neighbours(mem, bp);
    WrittenBlock(m, bp, size, alloc);
    SingleBlock(mem, bp);
    RetileInPlace(mem, m, bp, hi);
    Untouched(mem, m, HEAP_START, bp, bp - 1, hi - 1);
    Untouched(mem, m, hi, |mem|, bp - 1, hi - 1);
  }

  /** The same rewrite keeps the invariant when the block was exempt or
      allocated before and is exempt, or an allocated block of at least
      MIN_BLOCK bytes, after. */
  lemma RetagBlock(h: Heap, bp: nat, alloc: bool, X: set<nat>, X2: set<nat>)
    requires WellFormedExcept(h, X) && bp in Blocks(h.mem)
    requires bp in X || AllocAt(h.mem, bp)
    requires forall c :: c != bp ==> (c in X2 <==> c in X)
    requires bp in X2 || (alloc && SizeAt(h.mem, bp) >= MIN_BLOCK)
    ensures WellFormedExcept(h.(mem := SetTags(h.mem, bp, SizeAt(h.mem, bp), alloc)), X2)
  {
    var mem := h.mem;
    var size := SizeAt(mem, bp);
    var m := SetTags(mem, bp, size, alloc);
    Neighbours(mem, bp);
    WrittenBlock(m, bp, size, alloc);
    Retag(h, m, bp, NextBlkp(mem, bp), X, X2);
  }
}

=== FILE: tiling.dfy ===
/** How the boundary tags carve the arena into consecutive blocks.

    `Tiles(mem, a, e)` says that walking from block `a` through the headers
    (NEXT_BLKP) visits only well-formed blocks and lands exactly on `e`;
    `BlocksIn(mem, a, e)` lists the blocks visited. A heap is in shape when the
    walk from HEAP_START ends exactly at the end of the arena, where the
    epilogue word sits, with the prologue word below the first header. */
module Tiling {
  import opened Layout

  /** A block whose header records at least a double word, whose span fits in
      the arena below the next header, and whose footer repeats its header. */
  predicate ValidBlock(mem: seq<nat>, bp: nat) {
    && 1 <= bp <= |mem|
    && SizeAt(mem, bp) >= DSIZE
    && NextBlkp(mem, bp) <= |mem|
    && mem[Ftrp(mem, bp)] == mem[bp - 1]
  }

  predicate Tiles(mem: seq<nat>, a: nat, e: nat)
    decreases e - a
  {
    a == e || (a < e && ValidBlock(mem, a) && NextBlkp(mem, a) <= e && Tiles(mem, NextBlkp(mem, a), e))
  }

  /** The blocks met when walking from `a` to `e`, in address order. */
  function BlocksIn(mem: seq<nat>, a: nat, e: nat): (bs: seq<nat>)
    requires Tiles(mem, a, e)
    ensures forall b :: b in bs ==> a <= b && ValidBlock(mem, b) && NextBlkp(mem, b) <= e
    decreases e - a
  {
    if a == e then [] else [a] + BlocksIn(mem, NextBlkp(mem, a), e)
  }

  /** Prologue word, a tiling from HEAP_START, and the epilogue word PACK(0,1)
      as the last word of the arena. */
  predicate HeapOk(mem: seq<nat>) {
    && HEAP_START <= |mem|
    && mem[0] == 1
    && mem[|mem| - 1] == 1
    && Tiles(mem, HEAP_START, |mem|)
  }

  /** Every block of the heap, in address order. */
  function Blocks(mem: seq<nat>): (bs: seq<nat>)
    requires HeapOk(mem)
    ensures forall b :: b in bs ==> HEAP_START <= b && ValidBlock(mem, b) && NextBlkp(mem, b) <= |mem|
  {
    BlocksIn(mem, HEAP_START, |mem|)
  }

  /** The words of block `c` (header through footer) are the same in `m`. */
  predicate SameBlock(mem: seq<nat>, m: seq<nat>, c: nat)
    requires ValidBlock(mem, c)
  {
    NextBlkp(mem, c) <= |m| && forall i :: c - 1 <= i < NextBlkp(mem, c) - 1 ==> m[i] == mem[i]
  }

  /** Keeping a block's words is transitive across two rewrites. */
  lemma SameBlockTrans(a: seq<nat>, b: seq<nat>, c: seq<nat>, bp: nat)
    requires ValidBlock(a, bp) && SameBlock(a, b, bp)
    requires ValidBlock(b, bp) && SameBlock(b, c, bp)
    ensures SameBlock(a, c, bp)
  {
    assert b[bp - 1] == a[bp - 1];
  }

  // ---------------------------------------------------------------------
  // Walking lemmas

  lemma SeqAssoc(x: seq<nat>, y: seq<nat>, z: seq<nat>)
    ensures x + (y + z) == (x + y) + z
  {
  }

  lemma SingleBlock(mem: seq<nat>, b: nat)
    requires ValidBlock(mem, b)
    ensures Tiles(mem, b, NextBlkp(mem, b)) && BlocksIn(mem, b, NextBlkp(mem, b)) == [b]
  {
  }

  /** A walk can be cut at any block it meets (or at its end). */
  lemma {:induction false} Split(mem: seq<nat>, a: nat, e: nat, b: nat)
    requires Tiles(mem, a, e)
    requires b in BlocksIn(mem, a, e) || b == e
    ensures Tiles(mem, a, b) && Tiles(mem, b, e)
    ensures BlocksIn(mem, a, e) == BlocksIn(mem, a, b) + BlocksIn(mem, b, e)
    decreases e - a
  {
    if a != b {
      var n := NextBlkp(mem, a);
      assert BlocksIn(mem, a, e) == [a] + BlocksIn(mem, n, e);
      assert b in BlocksIn(mem, n, e) || b == e;
      Split(mem, n, e, b);
      assert Tiles(mem, a, b);
      assert BlocksIn(mem, a, b) == [a] + BlocksIn(mem, n, b);
      SeqAssoc([a], BlocksIn(mem, n, b), BlocksIn(mem, b, e));
    }
  }

  /** Two walks that meet compose into one. */
  lemma {:induction false} Join(mem: seq<nat>, a: nat, m: nat, e: nat)
    requires Tiles(mem, a, m) && Tiles(mem, m, e)
    ensures Tiles(mem, a, e)
    ensures BlocksIn(mem, a, e) == BlocksIn(mem, a, m) + BlocksIn(mem, m, e)
    decreases m - a
  {
    if a != m {
      var n := NextBlkp(mem, a);
      Join(mem, n, m, e);
      assert a < e;
      assert Tiles(mem, a, e);
      assert BlocksIn(mem, a, e) == [a] + BlocksIn(mem, n, e);
      assert BlocksIn(mem, a, m) == [a] + BlocksIn(mem, n, m);
      SeqAssoc([a], BlocksIn(mem, n, m), BlocksIn(mem, m, e));
    }
  }

  /** A walk only reads the words between its first header and its last
      footer, so another arena agreeing there has the same walk. */
  lemma {:induction false} Frame(mem: seq<nat>, m: seq<nat>, a: nat, e: nat)
    requires Tiles(mem, a, e)
    requires e <= |m|
    requires forall i :: a - 1 <= i < e - 1 && i < |mem| ==> m[i] == mem[i]
    ensures Tiles(m, a, e) && BlocksIn(m, a, e) == BlocksIn(mem, a, e)
    decreases e - a
  {
    if a != e {
      assert m[a - 1] == mem[a - 1];
      assert m[Ftrp(mem, a)] == mem[Ftrp(mem, a)];
      Frame(mem, m, NextBlkp(mem, a), e);
    }
  }

  /** Blocks met by a walk are in strictly increasing order and do not overlap. */
  lemma Ordered(mem: seq<nat>, a: nat, e: nat, b: nat, c: nat)
    requires Tiles(mem, a, e)
    requires b in BlocksIn(mem, a, e) && c in BlocksIn(mem, a, e) && b < c
    ensures NextBlkp(mem, b) <= c
  {
    Split(mem, a, e, b);
    assert c !in BlocksIn(mem, a, b);
    assert BlocksIn(mem, b, e) == [b] + BlocksIn(mem, NextBlkp(mem, b), e);
  }

  /** Each block of a walk is followed by another block of the walk or by its end. */
  lemma {:induction false} NextInWalk(mem: seq<nat>, a: nat, e: nat, b: nat)
    requires Tiles(mem, a, e) && b in BlocksIn(mem, a, e)
    ensures NextBlkp(mem, b) == e || NextBlkp(mem, b) in BlocksIn(mem, a, e)
    decreases e - a
  {
    if a != b {
      NextInWalk(mem, NextBlkp(mem, a), e, b);
    }
  }

  /** Each block of a walk but the first (and the end of the walk) is
      preceded by a block of the walk that PREV_BLKP finds through the footer. */
  lemma {:induction false} PrevInWalk(mem: seq<nat>, a: nat, e: nat, b: nat)
    requires Tiles(mem, a, e) && (b in BlocksIn(mem, a, e) || b == e) && b != a
    requires e <= |mem|
    ensures 2 <= b
    ensures PrevBlkp(mem, b) in BlocksIn(mem, a, e) && NextBlkp(mem, PrevBlkp(mem, b)) == b
    decreases e - a
  {
    var n := NextBlkp(mem, a);
    assert BlocksIn(mem, a, e) == [a] + BlocksIn(mem, n, e);
    if b != n {
      PrevInWalk(mem, n, e, b);
    } else {
      assert mem[b - 2] == mem[a - 1];
    }
  }

  /** Blocks of a walk starting at an even word sit at even words, so their
      payloads are double-word aligned. */
  lemma {:induction false} EvenBlocks(mem: seq<nat>, a: nat, e: nat, b: nat)
    requires Tiles(mem, a, e) && a % 2 == 0 && b in BlocksIn(mem, a, e)
    ensures b % 2 == 0
    decreases e - a
  {
    if a != b {
      var n := NextBlkp(mem, a);
      assert SizeAt(mem, a) % 16 == 0;
      EvenBlocks(mem, n, e, b);
    }
  }

  // ---------------------------------------------------------------------
  // Rewriting a run of blocks

  /** Blocks of a walk lying wholly outside the rewritten words keep all
      their words. */
  lemma Untouched(mem: seq<nat>, m: seq<nat>, a: nat, e: nat, lo: int, hi: int)
    requires Tiles(mem, a, e) && e <= |mem|
    requires DiffersOnlyIn(mem, m, lo, hi)
    requires e - 1 <= lo || hi <= a - 1
    ensures forall c :: c in BlocksIn(mem, a, e) ==> m[c - 1] == mem[c - 1] && SameBlock(mem, m, c)
  {
    forall c | c in BlocksIn(mem, a, e)
      ensures m[c - 1] == mem[c - 1] && SameBlock(mem, m, c)
    {
      assert a <= c && NextBlkp(mem, c) <= e;
    }
  }

  /** Replacing the run of blocks [lo, hi) of a heap by any other tiling of
      the same words, without touching the words outside it, leaves a heap
      whose block list is the old one with the run swapped. */
  lemma RetileInPlace(mem: seq<nat>, m: seq<nat>, lo: nat, hi: nat)
    requires HeapOk(mem)
    requires lo in Blocks(mem)
    requires hi in Blocks(mem) || hi == |mem|
    requires lo < hi
    requires DiffersOnlyIn(mem, m, lo - 1, hi - 1)
    requires Tiles(m, lo, hi)
    ensures HeapOk(m)
    ensures Tiles(mem, HEAP_START, lo) && Tiles(mem, lo, hi) && Tiles(mem, hi, |mem|)
    ensures Blocks(mem) == BlocksIn(mem, HEAP_START, lo) + (BlocksIn(mem, lo, hi) + BlocksIn(mem, hi, |mem|))
    ensures Blocks(m) == BlocksIn(mem, HEAP_START, lo) + (BlocksIn(m, lo, hi) + BlocksIn(mem, hi, |mem|))
  {
    var N := |mem|;
    Split(mem, HEAP_START, N, lo);
    Split(mem, lo, N, hi);
    Frame(mem, m, HEAP_START, lo);
    Frame(mem, m, hi, N);
    Join(m, lo, hi, N);
    Join(m, HEAP_START, lo, N);
  }

  /** Growing the arena at its end: the run from `lo` (a block, or the old
      epilogue position) to the old end is replaced by a tiling reaching the
      new end, where a fresh epilogue sits. */
  lemma RetileGrow(mem: seq<nat>, m: seq<nat>, lo: nat)
    requires HeapOk(mem)
    requires lo in Blocks(mem) || lo == |mem|
    requires |m| > |mem|
    requires forall i :: 0 <= i < lo - 1 ==> m[i] == mem[i]
    requires m[|m| - 1] == 1
    requires Tiles(m, lo, |m|)
    ensures HeapOk(m)
    ensures Tiles(mem, HEAP_START, lo) && Tiles(mem, lo, |mem|)
    ensures Blocks(mem) == BlocksIn(mem, HEAP_START, lo) + BlocksIn(mem, lo, |mem|)
    ensures Blocks(m) == BlocksIn(mem, HEAP_START, lo) + BlocksIn(m, lo, |m|)
  {
    var N := |mem|;
    Split(mem, HEAP_START, N, lo);
    Frame(mem, m, HEAP_START, lo);
    Join(m, HEAP_START, lo, |m|);
    assert m[0] == mem[0];
  }

  /** Blocks of a walk ending below the first changed word keep all their words. */
  lemma PrefixKept(mem: seq<nat>, m: seq<nat>, a: nat, lo: nat)
    requires Tiles(mem, a, lo) && lo <= |m| && lo <= |mem|
    requires forall i :: 0 <= i < lo - 1 ==> m[i] == mem[i]
    ensures forall c :: c in BlocksIn(mem, a, lo) ==> m[c - 1] == mem[c - 1] && SameBlock(mem, m, c)
  {
    forall c | c in BlocksIn(mem, a, lo)
      ensures m[c - 1] == mem[c - 1] && SameBlock(mem, m, c)
    {
      assert a <= c && NextBlkp(mem, c) <= lo;
    }
  }

  /** A header and a matching footer written for a block of `size` bytes at
      `bp` make it a well-formed block spanning exactly those words. */
  lemma WrittenBlock(m: seq<nat>, bp: nat, size: nat, alloc: bool)
    requires size % 16 == 0 && size >= DSIZE
    requires 1 <= bp && bp + size / 8 <= |m|
    requires m[bp - 1] == Pack(size, alloc) && m[bp + size / 8 - 2] == Pack(size, alloc)
    ensures ValidBlock(m, bp) && NextBlkp(m, bp) == bp + size / 8
    ensures SizeAt(m, bp) == size && AllocAt(m, bp) == alloc
    ensures Tiles(m, bp, bp + size / 8) && BlocksIn(m, bp, bp + size / 8) == [bp]
  {
    SingleBlock(m, bp);
  }

  /** What the heap looks like around one of its blocks: the next block
      (or the epilogue, which reads as allocated), the previous block found
      through the footer below the header, and no block overlapping it. */
  lemma Neighbours(mem: seq<nat>, bp: nat)
    requires HeapOk(mem) && bp in Blocks(mem)
    ensures NextBlkp(mem, bp) == |mem| || NextBlkp(mem, bp) in Blocks(mem)
    ensures NextBlkp(mem, bp) == |mem| ==> IsAlloc(mem[NextBlkp(mem, bp) - 1])
    ensures bp != HEAP_START ==> 2 <= bp && PrevBlkp(mem, bp) in Blocks(mem) && NextBlkp(mem, PrevBlkp(mem, bp)) == bp
    ensures forall c :: c in Blocks(mem) && c < bp ==> NextBlkp(mem, c) <= bp
    ensures forall c :: c in Blocks(mem) && bp < c ==> NextBlkp(mem, bp) <= c
  {
    var N := |mem|;
    NextInWalk(mem, HEAP_START, N, bp);
    if bp != HEAP_START {
      PrevInWalk(mem, HEAP_START, N, bp);
    }
    forall c | c in Blocks(mem) && c < bp
      ensures NextBlkp(mem, c) <= bp
    {
      Ordered(mem, HEAP_START, N, c, bp);
    }
    forall c | c in Blocks(mem) && bp < c
      ensures NextBlkp(mem, bp) <= c
    {
      Ordered(mem, HEAP_START, N, bp, c);
    }
  }
}
